=== FILE: README.md ===
# Benton County assessor platform — a Dafny model of its agent core

The modelled system is the back end of a property-assessment platform for
the Benton County Assessor's Office in Washington State. A master control
program routes messages to agents:

- a data-validation agent checks property records against Washington State
  and county rules;
- a valuation agent values a property by the market, cost or income
  approach;
- a user-interaction agent classifies a staff member's question and
  answers it, asking a language model when nothing else fits.

A legislative tracker gathers bills from several sources. The bill-analysis
service groups search results by source and turns a language model's answer
into a structured impact analysis.

The repository carries two generations of most of this code:

- the top-level agents, registered by `bootstrap.py` with the
  pipeline router of `mcp/master_control.py`;
- the richer copies under `github_export/`, served by the older, dict-based
  router of `github_export/mcp/master_control.py`.

Both generations are modelled. Their shared parts (the message envelope,
the diagnostics bookkeeping, the lookup tables) are defined once.

Modules, in dependency order:

| module | file | what it models |
|---|---|---|
| `Wrappers` | wrappers.dfy | `Option` / `Result` |
| `Values` | values.dfy | Python scalars, records, `get`, `int()`/`float()`, ASCII `lower()`, `in`, exception texts |
| `Results` | results.dfy | the validation findings and the valuation results as datatypes |
| `Envelope` | envelope.dfy | `MCPMessage` / `MCPResponse` (mcp/message_protocol.py) |
| `Patterns` | patterns.dfy | the parcel, ZIP and e-mail regular expressions; `str.split` |
| `Diagnostics` | diagnostics.dfy | the errors/warnings/info lists, completeness, `process_message` / `process_batch` of both validation agents |
| `Validation` | validation.dfy | `validate_property_data` of github_export/agents/data_validation_agent.py |
| `LeanValidation` | lean_validation.dfy | `validate_property_data` of agents/data_validation_agent.py |
| `Appraisal` | appraisal.dfy | lookup tables, clamping, means, `process_message` of both valuation agents |
| `FullValuation` | full_valuation.dfy | the three approaches of github_export/agents/valuation_agent.py |
| `LeanValuationAgent` | lean_valuation.dfy | the three approaches of agents/valuation_agent.py |
| `Interaction` | interaction.dfy | agents/user_interaction_agent.py |
| `Routing` | routing.dfy | what the two routers share |
| `LiveRouter` | live_router.dfy | mcp/master_control.py and `init_mcp` of bootstrap.py |
| `ExportRouter` | export_router.dfy | github_export/mcp/master_control.py |
| `Validators` | validators.dfy | utils/validators.py |
| `Helpers` | helpers.dfy | `truncate_text` and `is_valid_assessment_year` of utils/helpers.py |
| `BillStatus` | bill_status.dfy | `get_status_from_text` of the legislature tracker |
| `Trackers` | trackers.dfy | services/trackers/__init__.py |
| `BillAnalysis` | bill_analysis.dfy | `analyze_bill_impact` and `search_relevant_bills` of services/bill_analysis_service.py |
| `TrackedAnalysis` | tracked_analysis.dfy | github_export/services/bill_analysis_service.py |

How the model maps the program:

- A Python exception raised inside a validator, an approach or a service
  becomes a `Result.Failure` carrying CPython's message text. The handler
  that catches it turns it into the failure response the source builds.
- Things the core only calls out to become parameters. These are the
  language model, the trackers' fetches and per-source lookups, the
  conversion of strings by `int()` / `float()`, `str()` of a float or a
  context dict, the property-impact agent, and the current year (a
  constant 2025 in the agents, `datetime.now()` in the helpers).
- Messages are `Envelope.Message` values. `MCPMessage` in
  mcp/message_protocol.py defines neither `get_value` nor `get_type`,
  although every agent and both routers call them. The model supplies them
  as the evident lookups, `values.get(key, default)` and `type` (see
  Findings).

## Model

| member | source | states |
|---|---|---|
| Values.Trunc | github_export/agents/data_validation_agent.py:188 | `int()` of a float truncates toward zero, for negative inputs as well |
| Values.Lower | github_export/services/trackers/wa_legislature.py:426 | lowering keeps the length and maps each ASCII capital to its small letter, character by character |
| Values.LowerIdempotent | agents/user_interaction_agent.py:108 | lowering an already lowered text changes nothing, so the classifiers may lower twice |
| Envelope.NewMessage | mcp/message_protocol.py:18-30 | the second positional argument is the sender; a missing payload becomes `{}`; no timestamp is set |
| Envelope.GetValue | agents/user_interaction_agent.py:35-43 | a key present in the payload gives its value, an absent key gives the default |
| Envelope.NewResponse | mcp/message_protocol.py:47-58 | success and error are kept; missing or empty data becomes `{}` |
| Envelope.ShowMessage | mcp/message_protocol.py:32-34 | the printed message starts with its type and sender |
| Envelope.ShowResponse | mcp/message_protocol.py:60-65 | a success prints its data, a failure prints only its error |
| Envelope.ShowResponseIgnoresHiddenPart | mcp/message_protocol.py:60-65 | two responses that agree on the printed part print the same: a failure's data never shows |
| Envelope.ShowResponseDistinguishesOutcome | mcp/message_protocol.py:60-65 | a success and a failure never print the same |
| Patterns.WithoutFinalNewline | github_export/agents/data_validation_agent.py:138 | what a `$`-anchored match must cover: the string without one trailing newline |
| Patterns.Split | github_export/agents/data_validation_agent.py:142 | `split` always yields at least one piece |
| Patterns.SplitPiecesAvoidSeparator | github_export/agents/data_validation_agent.py:142 | no piece of a split contains the separator |
| Patterns.SplitJoinRoundTrip | github_export/agents/data_validation_agent.py:142 | joining the pieces with the separator gives the original string back |
| Patterns.SplitWithoutSeparator | github_export/agents/data_validation_agent.py:142 | a string without the separator splits into itself |
| Patterns.SplitAtFirstSeparator | github_export/agents/data_validation_agent.py:142 | the first separator ends the first piece |
| Patterns.ParcelSplit | github_export/agents/data_validation_agent.py:138-143 | a parcel ID that matched the pattern splits on `-` into its 8-digit and 3-digit parts, so the county test always runs |
| Diagnostics.CombineCollects | github_export/agents/data_validation_agent.py:121-123 | a finding is in the combined lists exactly when some check appended it; none is lost or invented |
| Diagnostics.CombineByOrigin | github_export/agents/data_validation_agent.py:121-123 | when each check appends only its own findings, a finding is in the result exactly when its own check produced it |
| Diagnostics.Summarize | github_export/agents/data_validation_agent.py:371-377 | the lists are passed through; `has_errors` / `has_warnings` hold exactly when the lists are non-empty |
| Diagnostics.Select | github_export/agents/data_validation_agent.py:352 | the comprehension keeps exactly the fields that pass the test, in their original order |
| Diagnostics.MissingOf | github_export/agents/data_validation_agent.py:350-361 | the names listed are exactly the required fields that are absent or `None` |
| Diagnostics.CompletenessOf | github_export/agents/data_validation_agent.py:350-361 | one aggregated missing-fields error, or nothing exactly when every required field is present |
| Diagnostics.HandleValidation | github_export/agents/data_validation_agent.py:21-57 | no data fails with its message; a dict payload that validates gives the validation itself, with the error set exactly when it has errors; a raising validation or a non-dict payload fails with "Error validating property data: " and the exception text |
| Diagnostics.ValidateEntry | github_export/agents/data_validation_agent.py:79-85 | one batch element succeeds exactly when it is a dict whose validation does not raise |
| Diagnostics.ValidateAll | github_export/agents/data_validation_agent.py:79-85 | the loop succeeds exactly when every element does, and then keeps one result per element, in order |
| Diagnostics.CountsPartition | github_export/agents/data_validation_agent.py:88-101 | every record is counted once, as valid or as invalid |
| Diagnostics.NoInvalidIffAllClean | github_export/agents/data_validation_agent.py:88-101 | no record counts as invalid exactly when no record has errors |
| Diagnostics.BatchResponse | github_export/agents/data_validation_agent.py:88-101 | total is the number of records and equals valid + invalid; success, no invalid record and no error coincide |
| Diagnostics.HandleBatch | github_export/agents/data_validation_agent.py:59-109 | an empty batch fails with its message; a batch result is produced exactly for a truthy list whose every element is a dict that validates, and pairs each record with its own validation; success exactly when no record has errors; a non-list or a raising record fails with "Error in batch validation: " and the exception text, with `{}` |
| Validation.RulesOf | github_export/agents/data_validation_agent.py:126-132 | each key the validator reads is its configured value when set and its default when unset: 1000.0, 1000000000.0, no property types, WA, 005 and the three methods; the year is the clock's |
| Validation.CountyKeyMismatchIsHarmless | config.py:22 | the top-level configuration's differently named county key yields the same rules, because both codes equal the default |
| Validation.ParcelCheck | github_export/agents/data_validation_agent.py:135-146 | a truthy non-string parcel ID raises; a falsy one is required; a malformed one is a format error; at most one finding, never a note |
| Validation.CountyPrefixIsOnlyAWarning | github_export/agents/data_validation_agent.py:140-146 | a well-formed parcel ID draws no error, and the county warning exactly when its prefix lacks the county code |
| Validation.AddressCheck | github_export/agents/data_validation_agent.py:148-160 | the required error exactly for a falsy address; the too-short error exactly for a string of one to four characters; at most the no-number warning, and exactly when a longer string has no digit; a truthy non-string raises |
| Validation.CityCheck | github_export/agents/data_validation_agent.py:162-164 | an error exactly when the city is falsy |
| Validation.StateCheck | github_export/agents/data_validation_agent.py:166-170 | no error exactly when the state equals the configured state code |
| Validation.ZipCheck | github_export/agents/data_validation_agent.py:172-179 | the required error exactly for a falsy ZIP; the format error exactly for a non-empty string off the pattern; the not-993 warning exactly for a well-formed code outside the Benton County prefix 993; never a note |
| Validation.YearRange | github_export/agents/data_validation_agent.py:193-199 | no error exactly for 2020 through next year; the past-year warning exactly for 2020 up to last year |
| Validation.Coerce | github_export/agents/data_validation_agent.py:186-191 | a conversion either succeeds with a note and a number, or fails with an error and leaves the value as it was |
| Validation.YearCheck | github_export/agents/data_validation_agent.py:181-199 | the required error exactly for a falsy year; a nonzero integer year gets exactly the range findings; a non-integer year that does not convert gets only the "must be an integer" error, and one that converts gets the conversion note plus the range findings of the converted value; a nonzero float year is truncated toward zero first |
| Validation.YearZeroReportedTwice | github_export/agents/data_validation_agent.py:184-195 | year 0 is reported both as missing and as earlier than 2020 |
| Validation.AssessedCheck | github_export/agents/data_validation_agent.py:206-220 | `None` is the required error; the not-a-number error exactly for a value `float` rejects; the below-minimum error exactly for a number under the minimum and the above-maximum error exactly for one within the minimum but over the maximum; the value ends up numeric exactly when `float` accepts it |
| Validation.LandCheck | github_export/agents/data_validation_agent.py:222-233 | `None` is skipped unchanged; the negative error exactly for a negative number; the not-a-number error exactly for a value `float` rejects; comparing with a non-numeric assessed value raises |
| Validation.ImprovementCheck | github_export/agents/data_validation_agent.py:235-244 | a missing (None) value is skipped and kept; a non-number gets the conversion note when it parses and the "must be a number" error otherwise; a negative value is an error |
| Validation.ReconcileCheck | github_export/agents/data_validation_agent.py:246-252 | numeric land and improvement values with a non-numeric assessed value raise; otherwise only a warning, for a gap above 1 |
| Validation.ClassNames | config.py:25-40 | the class names of the configuration, one per class, in order |
| Validation.CodesOf | github_export/agents/data_validation_agent.py:262-270 | the sub-codes of a known class; none for an unknown one |
| Validation.ClassCheck | github_export/agents/data_validation_agent.py:254-270 | the required, unknown-class and bad-sub-code errors, each exactly in its case, and no warnings |
| Validation.BedroomsCheck | github_export/agents/data_validation_agent.py:275-286 | None is skipped; a non-integer gets the conversion note when it parses and the "must be an integer" error otherwise; an integer count is checked against its bounds |
| Validation.BathroomsCheck | github_export/agents/data_validation_agent.py:289-300 | None is skipped; a non-number gets the conversion note when it parses and the "must be a number" error otherwise; a numeric count is checked against its bounds |
| Validation.YearBuiltCheck | github_export/agents/data_validation_agent.py:303-314 | None is skipped; a non-integer gets the conversion note when it parses and the "must be an integer" error otherwise; an integer build year before 1850 only warns, and one after the current year (from 1850 on) is an error |
| Validation.ResidentialCheck | github_export/agents/data_validation_agent.py:273-314 | for Residential, the errors, warnings and notes are exactly those of the bedroom, bathroom and year-built checks together; other classes skip the building checks |
| Validation.BuildingAreaCheck | github_export/agents/data_validation_agent.py:319-328 | only errors and notes: None is skipped, a non-number gets the conversion note when it parses and the "must be a number" error otherwise, and a non-positive number is an error |
| Validation.CommercialCheck | github_export/agents/data_validation_agent.py:317-335 | for Commercial, the errors and notes are exactly the building-area check's; when the income approach is "Yes", the cap-rate and annual-income warnings appear exactly for a falsy field, and otherwise there are no warnings; other classes skip it |
| Validation.LandAreaCheck | github_export/agents/data_validation_agent.py:338-347 | None is skipped; a non-number gets the conversion note when it parses and the "must be a number" error otherwise; a numeric land area must be positive |
| Validation.RequiredFields | github_export/agents/data_validation_agent.py:350-358 | the eight base fields, then land_value, improvement_value and land_area for Residential, and those with building_area for Commercial |
| Validation.CompletenessCheck | github_export/agents/data_validation_agent.py:350-361 | the missing-fields error names exactly the required fields of the record's class that are absent or `None` |
| Validation.MethodCheck | github_export/agents/data_validation_agent.py:364-368 | an error exactly when a present valuation method is not a configured one |
| Validation.RecordChecks | github_export/agents/data_validation_agent.py:134-252 | the first ten checks raise exactly when a truthy non-string reaches a string operation or an unbalanced comparison |
| Validation.ClassChecks | github_export/agents/data_validation_agent.py:254-368 | the remaining six checks never raise |
| Validation.Checks | github_export/agents/data_validation_agent.py:134-368 | all sixteen checks run, and the whole raises exactly in the cases above |
| Validation.ChecksOwnTheirFindings | github_export/agents/data_validation_agent.py:134-368 | each check appends only the findings that belong to it |
| Validation.Validate | github_export/agents/data_validation_agent.py:111-377 | raises exactly as the checks do; otherwise the flags follow the lists |
| Validation.FindingsComeFromTheirCheck | github_export/agents/data_validation_agent.py:111-377 | no check stops another: a finding is reported exactly when its own check produced it |
| Validation.YearRangeFindings | github_export/agents/data_validation_agent.py:193-199 | which range finding each integer year draws |
| Validation.MissingParcelReported | github_export/agents/data_validation_agent.py:136-137 | a missing or falsy parcel ID is always reported |
| Validation.YearFindingsReported | github_export/agents/data_validation_agent.py:181-199 | for a nonzero integer year the run reports too early, too late and past exactly in their ranges |
| Validation.ReconciliationReported | github_export/agents/data_validation_agent.py:246-252 | with numeric values the imbalance warning appears exactly for a gap above 1, and never as an error |
| Validation.ProcessMessage | github_export/agents/data_validation_agent.py:21-57 | the validation handler over this validator, with its no-data failure and success condition |
| Validation.ProcessBatch | github_export/agents/data_validation_agent.py:59-109 | the batch handler over this validator: a batch result exactly for a truthy list of dicts that all validate, and success exactly when in addition none has errors |
| LeanValidation.LeanParcelCheck | agents/data_validation_agent.py:132-136 | required, then the default pattern; a truthy non-string raises; at most one error, never a warning |
| LeanValidation.LeanAddressCheck | agents/data_validation_agent.py:139-143 | required; an address not ending in WA or Washington only warns |
| LeanValidation.LeanYearCheck | agents/data_validation_agent.py:146-153 | no error exactly for a truthy integer from 2020 through next year; otherwise exactly one of the two year errors |
| LeanValidation.LeanAssessedCheck | agents/data_validation_agent.py:156-164 | at most one error: required for `None`, not a number for a string, range otherwise |
| LeanValidation.LeanClassCheck | agents/data_validation_agent.py:167-172 | required, then one of the configured class names; at most one error |
| LeanValidation.LeanChecks | agents/data_validation_agent.py:121-178 | the six checks raise exactly in the parcel and address cases |
| LeanValidation.LeanChecksGiveNoInfo | agents/data_validation_agent.py:121-178 | no check appends a note |
| LeanValidation.LeanValidate | agents/data_validation_agent.py:121-186 | raises exactly as the checks do; otherwise the flags follow the lists |
| LeanValidation.LeanFindingsComeFromTheirCheck | agents/data_validation_agent.py:121-186 | a finding is reported exactly when its own check produced it |
| LeanValidation.LeanParcelReported | agents/data_validation_agent.py:132-136 | the required and format errors are reported exactly in their cases |
| LeanValidation.LeanAddressOnlyWarns | agents/data_validation_agent.py:139-143 | the only warning is the out-of-state address, reported exactly for such an address and never as an error |
| LeanValidation.LeanYearReported | agents/data_validation_agent.py:146-153 | the two year errors are reported exactly in their cases |
| Helpers.AssessmentYearMatchesValidators | utils/helpers.py:105-119 | `is_valid_assessment_year` accepts a year exactly when the simplified and the full validators' year checks pass it without an error |
| LeanValidation.LeanNeverWarnsPastYearOrConverts | agents/data_validation_agent.py:146-153 | unlike the full validator, no past-year warning and no conversion note |
| LeanValidation.LeanAssessedAtMostOne | agents/data_validation_agent.py:156-164 | the assessed-value block reports at most one error |
| LeanValidation.LeanClassReported | agents/data_validation_agent.py:167-172 | an unknown class is reported exactly when the class is truthy and not configured |
| LeanValidation.LeanMissingReported | agents/data_validation_agent.py:175-178 | the missing-fields error names exactly the absent or `None` fields |
| LeanValidation.LeanProcessMessage | agents/data_validation_agent.py:21-57 | the validation handler over the simplified validator |
| LeanValidation.LeanProcessBatch | agents/data_validation_agent.py:59-109 | the batch handler over the simplified validator: a batch result exactly for a truthy list of dicts that all validate, and success exactly when in addition none has errors |
| Appraisal.Lookup | github_export/agents/valuation_agent.py:134-135 | `dict.get` on a factor table: the factor of a row with the key, the default when no row has it |
| Appraisal.LookupFinds | github_export/agents/valuation_agent.py:120-135 | the key of a row that no earlier row shares gets that row's factor: the first row with the key decides |
| Appraisal.LookupDistinct | github_export/agents/valuation_agent.py:111-135 | in a table with distinct names every row's key gets that row's factor, so the first match agrees with a dict literal, which keeps the last |
| Appraisal.Clamp | github_export/agents/valuation_agent.py:235 | the result lies within the bounds, and a value already inside is kept |
| Appraisal.SumBounds | github_export/agents/valuation_agent.py:230 | the sum of values within bounds lies between count times each bound |
| Appraisal.MeanBounds | github_export/agents/valuation_agent.py:230 | the mean of values within bounds lies within them |
| Appraisal.Age | github_export/agents/valuation_agent.py:284-285 | age plus build year is the current year |
| Appraisal.HandleValuation | github_export/agents/valuation_agent.py:21-81 | no data fails; the approach is dispatched by name; success exactly when the approach does not raise, with its result as payload |
| FullValuation.AgeAdjustment | github_export/agents/valuation_agent.py:140-151 | between 0.9 and 1.1; 1.1 up to five years, 0.9 past forty |
| FullValuation.AgeAdjustmentNonIncreasing | github_export/agents/valuation_agent.py:140-151 | an older building never gets a larger adjustment |
| FullValuation.SizeAdjustment | github_export/agents/valuation_agent.py:166-177 | between 0.95 and 1.05; 0.95 below 1000, 1.05 from 3500 |
| FullValuation.SizeAdjustmentNonDecreasing | github_export/agents/valuation_agent.py:166-177 | a larger building never gets a smaller adjustment |
| FullValuation.FeatureAdjustment | github_export/agents/valuation_agent.py:192-199 | raises exactly for non-numeric counts; otherwise 1.08 for large homes, 1.04 for medium ones, else 1.0 |
| FullValuation.MarketConfidence | github_export/agents/valuation_agent.py:227-235 | within [0.6, 0.95]; 0.68 with fewer than three comparables |
| FullValuation.MarketConfidenceUnclamped | github_export/agents/valuation_agent.py:227-235 | with three or more comparables the clamp never bites: the score is 0.85 times the mean weight |
| FullValuation.ComparableWeights | github_export/agents/valuation_agent.py:153-225 | one to four comparables, each weight within [0.88, 0.95] |
| FullValuation.MarketError | github_export/agents/valuation_agent.py:137-216 | the market approach raises exactly when a running block meets a non-numeric operand |
| FullValuation.FactorsOf | github_export/agents/valuation_agent.py:134-213 | a class or city named in its table gets that table's factor; each factor is 1.0 when its block does not run |
| FullValuation.MarketOf | github_export/agents/valuation_agent.py:216-235 | the market value is the base times the product of the five factors |
| FullValuation.MarketValuation | github_export/agents/valuation_agent.py:83-251 | the valuation of a record that raises nothing, with its confidence bounds |
| FullValuation.MarketApproach | github_export/agents/valuation_agent.py:83-255 | raises exactly as `MarketError` says, and otherwise gives the market valuation |
| FullValuation.MarketOfProportional | github_export/agents/valuation_agent.py:216 | the market value is proportional to the assessed value |
| FullValuation.FactorsIgnoreAssessedValue | github_export/agents/valuation_agent.py:134-213 | no factor reads the assessed value |
| FullValuation.MarketRebasedValuation | github_export/agents/valuation_agent.py:100-216 | changing only the assessed value rescales the market value and keeps every factor |
| FullValuation.ResidentialDepreciationLipschitz | github_export/agents/valuation_agent.py:288-301 | the residential curve never falls and rises by at most 1% a year, so it has no jump at seven or twenty years |
| FullValuation.DepreciationRate | github_export/agents/valuation_agent.py:288-301 | never above 70%, never negative for a non-negative age, at most 60% outside Residential |
| FullValuation.DepreciationNonDecreasing | github_export/agents/valuation_agent.py:288-301 | an older building never depreciates less |
| FullValuation.QualityFactor | github_export/agents/valuation_agent.py:304-316 | one of four factors; 1.15 exactly for a ratio of at least 1 and three or more bedrooms |
| FullValuation.QualityBlock | github_export/agents/valuation_agent.py:304-316 | raises exactly for the non-numeric cases; 0.95 without bedrooms |
| FullValuation.CostConfidence | github_export/agents/valuation_agent.py:361-381 | within [0.6, 0.9]; the best case is the mean of 0.9 and 0.85 |
| FullValuation.CostError | github_export/agents/valuation_agent.py:284-358 | the cost approach raises exactly when an operand is not a number |
| FullValuation.CostOf | github_export/agents/valuation_agent.py:319-358 | replacement cost less depreciation and obsolescence plus land value; functional obsolescence only past thirty years |
| FullValuation.CostValueKeepsResidual | github_export/agents/valuation_agent.py:345-358 | at most 70% depreciation and 5% obsolescence leave a share of the replacement cost |
| FullValuation.QualityOf | github_export/agents/valuation_agent.py:304-316 | 1.0 unless the residential quality block runs |
| FullValuation.CostValuation | github_export/agents/valuation_agent.py:257-406 | each field comes from its own rule and the value from `CostOf` |
| FullValuation.CostApproach | github_export/agents/valuation_agent.py:257-406 | raises exactly as `CostError` says, and otherwise gives the cost valuation |
| FullValuation.IncomeAgeFactor | github_export/agents/valuation_agent.py:443-453 | within [0.8, 1.1] |
| FullValuation.BaseRentalRate | github_export/agents/valuation_agent.py:466-480 | raises exactly for a non-numeric area |
| FullValuation.VacancyRate | github_export/agents/valuation_agent.py:483-493 | within [0.03, 0.08] |
| FullValuation.ExpenseRatio | github_export/agents/valuation_agent.py:496-503 | within [0.3, 0.5] |
| FullValuation.BaseCapRate | github_export/agents/valuation_agent.py:506-513 | within [0.065, 0.08] |
| FullValuation.IncomeConfidence | github_export/agents/valuation_agent.py:529-551 | within [0.6, 0.9] |
| FullValuation.IncomeError | github_export/agents/valuation_agent.py:443-526 | the income approach raises exactly when an operand is not a number |
| FullValuation.IncomeOf | github_export/agents/valuation_agent.py:524-526 | effective income is gross less vacancy, net is effective less expenses, and the value times the cap rate is the net income |
| FullValuation.IncomeValuePositive | github_export/agents/valuation_agent.py:524-526 | positive income, a positive cap rate and rates below one give a positive value |
| FullValuation.CapRateOf | github_export/agents/valuation_agent.py:506-522 | a truthy override is read as a percentage; otherwise the base rate's range |
| FullValuation.GrossIncomeOf | github_export/agents/valuation_agent.py:516-522 | a truthy annual income replaces area times rent |
| FullValuation.IncomeValuation | github_export/agents/valuation_agent.py:408-575 | each field comes from its own rule and the value from `IncomeOf` |
| FullValuation.IncomeApproach | github_export/agents/valuation_agent.py:434-440 | not applicable exactly outside Commercial and Industrial; raises exactly as `IncomeError` says |
| FullValuation.Approach | github_export/agents/valuation_agent.py:52-58 | the payload of an approach names that approach |
| FullValuation.ProcessValuation | github_export/agents/valuation_agent.py:21-81 | no data fails; a success carries a valuation of one of the three approaches |
| FullValuation.IncomeNotApplicableSucceeds | github_export/agents/valuation_agent.py:434-440 | an income request for another class succeeds with the not-applicable result and confidence 0 |
| LeanValuationAgent.LeanMarketApproach | agents/valuation_agent.py:92-116 | raises exactly for a non-numeric assessed value; otherwise the value times the class multiplier |
| LeanValuationAgent.LeanMarketUsesFullClassMultiplier | agents/valuation_agent.py:96-106 | both agents use the same class multiplier and base value |
| LeanValuationAgent.LeanDepreciationRate | agents/valuation_agent.py:146-148 | 1% a year, at most 50% |
| LeanValuationAgent.LeanDepreciationNonDecreasing | agents/valuation_agent.py:146-148 | an older building never depreciates less |
| LeanValuationAgent.LeanDepreciationIsTwoThirdsOfFull | agents/valuation_agent.py:146-148 | up to forty years, two thirds of the full agent's rate for non-residential classes |
| LeanValuationAgent.LeanCostOf | agents/valuation_agent.py:151-172 | $200 per square foot less depreciation, plus $10 per square foot of land, confidence 0.8 |
| LeanValuationAgent.LeanCostKeepsHalf | agents/valuation_agent.py:146-159 | at least half of the replacement cost survives |
| LeanValuationAgent.LeanCostApproach | agents/valuation_agent.py:140-172 | raises exactly for non-numeric operands |
| LeanValuationAgent.LeanIncomeApproach | agents/valuation_agent.py:197-231 | not applicable exactly outside Commercial and Industrial; raises exactly for a non-numeric area |
| LeanValuationAgent.LeanIncomePerSquareFoot | agents/valuation_agent.py:206-217 | the income value is the area times a fixed factor |
| LeanValuationAgent.LeanApproach | agents/valuation_agent.py:52-57 | the payload of an approach names that approach |
| LeanValuationAgent.LeanProcessValuation | agents/valuation_agent.py:21-73 | no data fails; a success carries a valuation of one of the three approaches |
| LeanValuationAgent.MarketAgentsFailAlike | agents/valuation_agent.py:92-116 | without the feature block both agents' market approaches fail or succeed together |
| Interaction.DetermineIntent | agents/user_interaction_agent.py:97-124 | each intent exactly when its keyword group is the first to match the lowered query |
| Interaction.IntentIgnoresCase | agents/user_interaction_agent.py:108 | a query and its lowered form have the same intent |
| Interaction.PropertySearchHelpUnreachable | agents/user_interaction_agent.py:110-111 | a query naming "property search" is a search, never a help request |
| Interaction.SearchOutranksValuation | agents/user_interaction_agent.py:110-114 | search keywords win over valuation keywords |
| Interaction.ContextRecord | agents/user_interaction_agent.py:149-150 | `context.get` works exactly on a dict and raises otherwise |
| Interaction.HandleSearch | agents/user_interaction_agent.py:126-153 | the search reply, confidence 0.85, exactly when the context is a dict |
| Interaction.HandleValuation | agents/user_interaction_agent.py:155-183 | the valuation reply, confidence 0.85, exactly when the context is a dict |
| Interaction.HandleValidation | agents/user_interaction_agent.py:185-211 | the validation reply, confidence 0.85, exactly when the context is a dict |
| Interaction.HelpTopicOf | agents/user_interaction_agent.py:225-258 | the first topic named in the lowered query, or general |
| Interaction.HandleHelp | agents/user_interaction_agent.py:213-258 | always a help reply with confidence 0.9 and that topic |
| Interaction.UserMessage | agents/user_interaction_agent.py:282-284 | starts with the query, and is just the query for a falsy context |
| Interaction.AiCallAsWritten | agents/user_interaction_agent.py:287 | the system prompt is sent as the prompt and the user message as the model |
| Interaction.AsWrittenPromptIgnoresQuery | agents/user_interaction_agent.py:287 | as written, every question yields the same prompt |
| Interaction.AiCall | agents/user_interaction_agent.py:273-287 | the intended call: a prompt that starts with the system prompt and contains the question, and the default model |
| Interaction.PromptCarriesQuery | agents/user_interaction_agent.py:273-287 | different questions give different prompts |
| Interaction.AiReply | agents/user_interaction_agent.py:260-302 | the model's text at confidence 0.7, or the apology at confidence 0 when the call raises |
| Interaction.QueryError | agents/user_interaction_agent.py:89-95 | an error reply with confidence 0 |
| Interaction.ProcessQuery | agents/user_interaction_agent.py:61-95 | with the intended model call: a non-string query is an error reply; help and general inquiries go to their handlers; the intent is always one of six |
| Interaction.AnswerQuery | agents/user_interaction_agent.py:61-95 | for any model call: a non-string query is an error reply; help and general inquiries go to their handlers, a general inquiry through the given call; the intent is always one of six |
| Interaction.ProcessQueryAsWritten | agents/user_interaction_agent.py:61-95 | with the model call as written: a general inquiry sends the system prompt as the prompt and the question as the model name |
| Interaction.AsWrittenInquiryApologises | agents/user_interaction_agent.py:260-300 | when the service fails for the question used as a model name, every general inquiry gets the trouble reply, whatever it asks |
| Interaction.AsWrittenDiffersOnlyOnInquiries | agents/user_interaction_agent.py:61-95 | on anything other than a general inquiry the as-written and intended handlers agree |
| Interaction.OnlyGeneralInquiryAsksModel | agents/user_interaction_agent.py:76-87 | for every intent but the general inquiry the model's answer is irrelevant |
| Interaction.ProcessInteraction | agents/user_interaction_agent.py:23-59 | with the intended model call: a falsy query fails with its message; anything else succeeds with the reply |
| Interaction.RespondTo | agents/user_interaction_agent.py:23-59 | for any query handler: a falsy query fails with its message; anything else succeeds with the handler's reply |
| Interaction.ProcessInteractionAsWritten | agents/user_interaction_agent.py:23-59 | with the model call as written: a falsy query fails with its message; anything else succeeds with the as-written reply |
| Routing.ApiResultOf | mcp/master_control.py:111-115 | the reply dict copies success, data and error |
| Routing.Find | mcp/master_control.py:97 | `dict.get`: none exactly when no entry has the key; otherwise that entry's value |
| Routing.ApiMessageAsWritten | mcp/master_control.py:105 | as written, the message has the type, the request body as sender, and no values |
| Routing.AsWrittenMessageLosesBody | mcp/message_protocol.py:18-29 | as written, no key of the request body can be read from the message |
| Routing.ApiMessage | mcp/master_control.py:105 | the intended message: system sender and every body key readable |
| Routing.RouteAsWritten | mcp/master_control.py:64-74 | as written, every message fails with the routing error naming the missing `get_type` |
| LiveRouter.HandlersFor | mcp/master_control.py:29-41 | the handlers each known class adds, all bound to that agent; none for another class |
| LiveRouter.Register | mcp/master_control.py:19-27 | always true; the agent and its status are keyed by class; its handlers are appended after the old ones |
| LiveRouter.Unregister | mcp/master_control.py:43-51 | true exactly for a registered class; agent and status removed; the handlers stay |
| Routing.GetStatus | mcp/master_control.py:53-58 | active, with exactly the given agent statuses |
| LiveRouter.StatusFollowsRegistration | mcp/master_control.py:19-58 | after registering an agent its class shows as active in the status; after unregistering a registered type it is gone |
| LiveRouter.FirstMatch | mcp/master_control.py:66-68 | none exactly when no handler has the key; otherwise the first that has it |
| LiveRouter.FirstMatchAppend | mcp/master_control.py:66-68 | appended handlers never take a key that an earlier handler answers |
| LiveRouter.Invoke | bootstrap.py:54-57 | each bound entry point is the corresponding agent's operation |
| LiveRouter.Route | mcp/master_control.py:60-71 | with no handler, the failure naming the type; otherwise the first handler answers |
| LiveRouter.RegisterKeepsRoutes | mcp/master_control.py:19-41 | registering another agent never changes where an answered type goes |
| LiveRouter.UnregisterKeepsRoutes | mcp/master_control.py:43-51 | unregistering changes no route |
| LiveRouter.Bootstrap | bootstrap.py:50-60 | the four agents are registered, all active |
| LiveRouter.BootstrapPipeline | bootstrap.py:54-57 | the pipeline holds exactly the five handlers, in registration order |
| LiveRouter.BootstrapRoutes | bootstrap.py:54-57 | where each message type goes after bootstrap |
| LiveRouter.AsWrittenRoutingFails | mcp/master_control.py:64-68 | as written, a well-formed question fails, although the router with the accessors answers it |
| LiveRouter.LiveEndpointTypes | mcp/master_control.py:89-95 | the endpoint table, entry by entry |
| LiveRouter.ApiRequestWith | mcp/master_control.py:97-115 | an unknown endpoint is reported; otherwise the routed response is copied |
| LiveRouter.ApiRequestAsWritten | mcp/master_control.py:105-115 | with the message accessors supplied, the request is routed with the body in the sender |
| LiveRouter.AsWrittenValidateFails | mcp/master_control.py:105 | with the message accessors supplied, a validation request built as written fails whatever its body |
| LiveRouter.AsWrittenValueFails | mcp/master_control.py:105 | with the message accessors supplied, a valuation request built as written fails whatever its body |
| LiveRouter.AsWrittenQueryFails | mcp/master_control.py:105 | with the message accessors supplied, a user query built as written fails with "No query provided" whatever its body |
| LiveRouter.AsWrittenBatchFails | mcp/master_control.py:105 | with the message accessors supplied, a batch validation built as written fails whatever its body |
| LiveRouter.ApiRequestUnpatched | mcp/master_control.py:64-115 | exactly as written, an unknown endpoint fails with its message and every known endpoint with the routing error naming the missing `get_type` |
| LiveRouter.UnpatchedQueryNeverReachesAgent | mcp/master_control.py:64-115 | exactly as written, a user query gets the routing error, not the agent's "No query provided" |
| LiveRouter.ApiRequest | mcp/master_control.py:97-115 | the intended request: routed with the body as payload |
| LiveRouter.ApiRequestReadsBody | mcp/master_control.py:97-115 | with the body as payload, a user query succeeds exactly when it holds a truthy question |
| ExportRouter.Register | github_export/mcp/master_control.py:18-24 | always true; the class keys the agent, so a later instance replaces an earlier one |
| ExportRouter.Unregister | github_export/mcp/master_control.py:26-34 | true exactly for a registered class, which is then gone; other entries stay |
| ExportRouter.StatusFollowsRegistration | github_export/mcp/master_control.py:18-41 | after registering an agent its class shows as active in the status; after unregistering a registered type it is gone |
| ExportRouter.Target | github_export/mcp/master_control.py:57-76 | the class and entry point of each of the five types, none for another type |
| ExportRouter.Invoke | github_export/mcp/master_control.py:57-76 | the registered class answers with the corresponding full agent's operation |
| ExportRouter.Route | github_export/mcp/master_control.py:43-80 | an unknown type or an unregistered class gives the failure naming the type; otherwise the class answers |
| ExportRouter.ReRegisterReplaces | github_export/mcp/master_control.py:18-24 | after re-registering a class, the newer instance answers |
| ExportRouter.UnregisterStopsRoutes | github_export/mcp/master_control.py:26-34 | after unregistering a class, its messages fail as unroutable |
| ExportRouter.LiveSpellingsUnroutable | github_export/mcp/master_control.py:57-80 | the live router's spellings of the validation and valuation types are never routed here |
| ExportRouter.ApiRequestWith | github_export/mcp/master_control.py:107-125 | an unknown endpoint is reported; otherwise the routed response is copied |
| ExportRouter.ExportEndpointTypes | github_export/mcp/master_control.py:99-105 | the endpoint table, entry by entry |
| ExportRouter.ApiRequestAsWritten | github_export/mcp/master_control.py:115-125 | with the message accessors supplied, the request is routed with the body in the sender |
| ExportRouter.AsWrittenValueFails | github_export/mcp/master_control.py:115 | with the message accessors supplied, a valuation request built as written fails whatever its body |
| ExportRouter.ApiRequestUnpatched | github_export/mcp/master_control.py:53-125 | exactly as written, an unknown endpoint fails with its message and every known endpoint with the routing error naming the missing `get_type` |
| ExportRouter.ApiRequest | github_export/mcp/master_control.py:107-125 | the intended request: routed with the body as payload |
| ExportRouter.ApiRequestReadsBody | github_export/mcp/master_control.py:115-125 | with the body as payload, the valuation agent values the body's property |
| Validators.MissingFields | utils/validators.py:20 | exactly the required fields absent from the data |
| Validators.MissingFieldsInOrder | utils/validators.py:20 | the missing fields keep the order of the required list |
| Validators.ValidateRequestData | utils/validators.py:17-24 | valid exactly when the data is non-empty and has every required field; otherwise the matching message |
| Validators.MatchCheck | utils/validators.py:54-57 | falsy is invalid; a truthy non-string raises; a string is matched against the pattern |
| Validators.ValidateEmail | utils/validators.py:36-41 | accepted exactly for a non-empty string of the e-mail pattern |
| Validators.ValidateParcelId | utils/validators.py:54-57 | accepted exactly for a non-empty string of the default parcel pattern |
| Validators.AcceptedParcelLength | utils/validators.py:43-57 | an accepted parcel ID has twelve characters, or thirteen ending in a newline |
| Validators.ValidatePropertyClass | utils/validators.py:70-73 | accepted exactly for a non-empty listed class name |
| Validators.PropertyClassNeedsName | utils/validators.py:70-71 | a falsy or non-string class is rejected even if listed |
| Validators.ValidateNumericValue | utils/validators.py:87-102 | accepted exactly when `float` accepts the value and it lies within the given bounds |
| Validators.NumericWidening | utils/validators.py:92-98 | widening the bounds keeps every accepted value accepted |
| Validators.NumericBoundsInclusive | utils/validators.py:92-98 | the bounds themselves are accepted |
| Helpers.PrefixSlice | utils/helpers.py:66 | `text[:n]` with Python's rules for negative and out-of-range bounds |
| Helpers.TruncateText | utils/helpers.py:49-66 | empty stays empty; text that fits is kept; longer text is cut and marked with "..." |
| Helpers.TruncatedKeepsPrefix | utils/helpers.py:63-66 | the result is at most three longer than the limit and keeps the original prefix |
| Helpers.TruncateFixedPoint | utils/helpers.py:60-66 | with a non-negative limit, truncating a truncated text changes nothing, whether it fitted or was cut and marked |
| Helpers.NegativeLimitCutsFromEnd | utils/helpers.py:66 | a negative limit cuts from the end |
| BillStatus.StatusFromText | github_export/services/trackers/wa_legislature.py:416-435 | each status exactly when its term group is the first to match the lowered text |
| BillStatus.StatusIgnoresCase | github_export/services/trackers/wa_legislature.py:426 | a text and its lowered form have the same status |
| BillStatus.UnlistedIsActive | github_export/services/trackers/wa_legislature.py:434-435 | a text with no listed term is active |
| BillStatus.StatusPriority | github_export/services/trackers/wa_legislature.py:428-431 | a text naming a signature and a veto counts as passed |
| Trackers.Tag | services/trackers/__init__.py:25-26 | every bill of a source is kept and marked with that source |
| Trackers.AllTracked | services/trackers/__init__.py:13-58 | the legislature, OpenStates, LegiScan and local bills follow one another in that order, each segment exactly its source's bills tagged with that source; a failed source adds nothing |
| Trackers.LoweredField | services/trackers/__init__.py:77 | a field that is not a string raises; otherwise its lowered text |
| Trackers.Matches | services/trackers/__init__.py:77 | a bill matches exactly when the query is in its title or, failing that, its summary |
| Trackers.Select | services/trackers/__init__.py:76-78 | the loop succeeds exactly when no test raises |
| Trackers.SelectKeepsMatches | services/trackers/__init__.py:76-78 | the result holds exactly the bills that match |
| Trackers.SelectAppend | services/trackers/__init__.py:76-78 | selection keeps order across concatenation |
| Trackers.SearchBills | services/trackers/__init__.py:60-80 | succeeds exactly when no tracked bill's test raises; never returns more than is tracked |
| Trackers.SearchIgnoresCase | services/trackers/__init__.py:73 | the query's case does not matter |
| Trackers.EmptyQueryKeepsAll | services/trackers/__init__.py:76-78 | the empty query keeps every bill whose title is a string |
| Trackers.EmptySearchKeepsAll | services/trackers/__init__.py:60-80 | the empty search returns every tracked bill |
| Trackers.FirstWithId | services/trackers/__init__.py:107-110 | none exactly when no bill has the ID; otherwise one of the bills |
| Trackers.FirstWithIdPrefers | services/trackers/__init__.py:108-110 | an earlier match hides every later one |
| Trackers.BillById | services/trackers/__init__.py:82-112 | a named source asks only its tracker; otherwise the first tracked bill with the ID |
| Trackers.LegislatureFirst | services/trackers/__init__.py:106-110 | without a source, the legislature tracker's bill wins |
| Trackers.AllTrackedStartsWithLegislature | services/trackers/__init__.py:22-27 | the tracked list begins with the legislature's bills |
| Trackers.FirstWithIdTagged | services/trackers/__init__.py:25-26 | a bill found among a source's bills is marked with that source |
| BillAnalysis.ValueChange | services/bill_analysis_service.py:71-75 | "Unknown" exactly without a match; otherwise sign, percentage and "%" |
| BillAnalysis.ConfidenceLevel | services/bill_analysis_service.py:101-106 | low exactly for a doubting term; high exactly for a confident one without doubt; medium otherwise |
| BillAnalysis.ConfidenceIgnoresCase | services/bill_analysis_service.py:103-105 | the level ignores case, and doubt outranks confidence |
| BillAnalysis.OrDefault | services/bill_analysis_service.py:112-113 | `items or [default]`: never empty |
| BillAnalysis.AnalyzeBillImpact | services/bill_analysis_service.py:16-127 | success exactly when the model answered; the fixed error analysis otherwise; extracted implications and recommendations, or exactly the two default strings when none are found |
| BillAnalysis.AddBill | services/bill_analysis_service.py:345-352 | only the bill's source's group changes, and it grows exactly when below the limit; an unseen source becomes the last key, and the other keys keep their order |
| BillAnalysis.OfSource | services/bill_analysis_service.py:345-347 | the reference: the bills of one source, in order |
| BillAnalysis.Take | services/bill_analysis_service.py:351-352 | never longer than the list or the limit |
| BillAnalysis.GroupIsPrefixOfSource | services/bill_analysis_service.py:345-352 | each group is the first `limit` bills of its source, in order |
| BillAnalysis.DistinctSources | services/bill_analysis_service.py:346-348 | the distinct sources carry no duplicate, contain every bill's source, and contain nothing else |
| BillAnalysis.GroupKeys | services/bill_analysis_service.py:345-352 | the grouping has one key per distinct source, in order of first appearance, even when the limit leaves a group empty |
| BillAnalysis.GroupTotal | services/bill_analysis_service.py:354-357 | the total never exceeds the results, and equals them when the limit is large enough |
| BillAnalysis.SearchRelevantBills | services/bill_analysis_service.py:333-365 | a search error becomes the error result; otherwise the keys are the distinct sources in order of first appearance and each group is its source's first `limit` bills |
| TrackedAnalysis.Analysis | github_export/services/bill_analysis_service.py:48-55 | an analysis exactly for the three known types, "summary", "entities" and "impact" each selecting its own |
| TrackedAnalysis.AnalyzeTrackedBill | github_export/services/bill_analysis_service.py:19-63 | not found, no text, unknown type and a failed analysis each give their error; otherwise the analysis |
| TrackedAnalysis.AnalyzeErrorIff | github_export/services/bill_analysis_service.py:19-63 | an error exactly when one of those four cases holds |
| TrackedAnalysis.CategorizeBill | github_export/services/bill_analysis_service.py:65-104 | not found is an error; an impact error passes through; otherwise the three keys with their defaults |
| TrackedAnalysis.CategorizeErrorIff | github_export/services/bill_analysis_service.py:65-104 | an error exactly when the bill is missing or the impact analysis reports one |
| TrackedAnalysis.Partition | github_export/services/bill_analysis_service.py:120-127 | the errors are the failing IDs in order, the results are keyed by the succeeding IDs, and every ID is counted once when IDs are distinct |
| TrackedAnalysis.BatchAnalyzeBills | github_export/services/bill_analysis_service.py:106-135 | total, successful and failed counts match the lists; successful plus failed equals total for distinct IDs |

## Left out

- Rounding and formatting: `round(..., 2)` of values and scores, `format_currency`, `format_date`, the `{:,.2f}` numbers in the validator's messages and `str` of a float are left out (floats are Dafny reals, and how a float prints is a parameter). The other helpers of utils/helpers.py (JSON encoding and decoding) are left out for the same reason.
- The market approach's comparable records: only their confidence weights are modelled, not their addresses and adjusted values.
- The regular expressions: the parcel, ZIP and e-mail patterns are written as character predicates over ASCII digits and letters; `$` admits one trailing newline, as Python's `re` does. A custom pattern passed to `validate_parcel_id` or configured as `PARCEL_ID_PATTERN` is not modelled; the default is used.
- Values.Lower: ASCII case folding only; Python's `lower()` also folds other scripts.
- Validation.AddressCheck: `HasDigit` accepts the ASCII digits only, while `str.isdigit` also accepts other Unicode decimal digits, so an address such as "٤٥ Main Street" draws the no-number warning here and none in the source.
- Values.Raw: has no boolean; JSON `true` and `false` pass Python's `isinstance(x, int)` tests as 1 and 0, so a boolean in an integer field is not representable and its path through the validators is not modelled.
- Interaction.ProcessQuery: answers a general inquiry through the intended model call (see Findings); ProcessQueryAsWritten models the call as written, and the routers use the intended handler.
- Interaction.ProcessInteraction: built on ProcessQuery, so it also uses the intended model call; ProcessInteractionAsWritten is the as-written counterpart.
- The Flask configuration is an explicit `Config` value; the application object is not modelled.
- NaN and infinities: reals have no NaN, so comparisons with a NaN field are not modelled.
- I/O, the database and the language model: `get_ai_response`, the trackers' fetches and lookups, the bill search service and the property-impact agent are parameters. Saving and updating bills in the database (`save_bill` of the legislature tracker, the `update_bill_with_analysis` paths) and the scheduler are left out.
- The legislature tracker's web scraping: only `get_status_from_text` is pure logic; the rest of github_export/services/trackers/wa_legislature.py is I/O.
- The regular-expression extraction inside `analyze_bill_impact` is a parameter; its result feeds the modelled logic.
- The prompt building of the bill services, and an exception raised while building it, are folded into the model answer's `Failure`.
- `summarize_bill` and `extract_entities`, and the top-level `analyze_tracked_bill` of services/bill_analysis_service.py, are left out; the exported `analyze_tracked_bill` is modelled with the analyses as parameters.
- The `except` branches of `route_message` and `process_api_request` are reached only by the missing accessor (see Findings) or by an agent that raises out of its own handler; the modelled agents catch everything themselves, and the external agent is a parameter returning a response.
- The `/ai/...` endpoints of routes/ai_api.py are outside the routers' tables and not part of this model.
- The full valuation agent's "valuation result is None" branch is unreachable, since every approach returns a dict or raises; the model has no such case.
- LiveRouter.Unregister: the handlers of an unregistered agent stay in the pipeline, exactly as the source leaves them; the model does not remove them (UnregisterKeepsRoutes states this).
- Logging is left out everywhere.

## Findings

| source | as written | input that shows it | evidently intended | confidence | as-written member | corrected member |
|---|---|---|---|---|---|---|
| mcp/master_control.py:105 | `MCPMessage(message_type, data)` passes the request body as the second positional argument, which is `sender`, so the message carries no values (the same in github_export/mcp/master_control.py:115) | any request to `/api/mcp/user-query` with body `{"query": "find 123 Main St"}`: once the accessors of the last row exist, the agent sees no query and fails with "No query provided"; without them the routing error of that row comes first | `MCPMessage(message_type, data=data)`, so the body is the payload | high (not executed) | Routing.ApiMessageAsWritten, Routing.AsWrittenMessageLosesBody, LiveRouter.AsWrittenQueryFails, ExportRouter.AsWrittenValueFails | Routing.ApiMessage, LiveRouter.ApiRequestReadsBody, ExportRouter.ApiRequestReadsBody |
| agents/user_interaction_agent.py:287 | `get_ai_response(system_prompt, user_message)` calls `get_ai_response(prompt, model=None, ...)` of services/anthropic_service.py:31, so the system prompt is the prompt and the user's question is sent as the model name | any general inquiry, such as "tell me about levies": every question sends the same prompt | one prompt combining the system prompt and the user message, with the default model | high (not executed) | Interaction.AiCallAsWritten, Interaction.AsWrittenPromptIgnoresQuery, Interaction.ProcessQueryAsWritten, Interaction.AsWrittenInquiryApologises | Interaction.AiCall, Interaction.PromptCarriesQuery, Interaction.ProcessQuery |
| mcp/message_protocol.py:8-65 | `MCPMessage` defines no `get_type` or `get_value`, yet both routers call `message.get_type()` (mcp/master_control.py:65, github_export/mcp/master_control.py:54) and every agent calls `message.get_value` | any message, such as a `user_query` message with a truthy query, routed through either router: the call raises and the router returns "Error routing message: 'MCPMessage' object has no attribute 'get_type'" | `get_type()` returns `type` and `get_value(key, default)` returns `values.get(key, default)` | medium (not executed; the accessors may live in a file outside this model) | Routing.RouteAsWritten, LiveRouter.AsWrittenRoutingFails, LiveRouter.ApiRequestUnpatched, LiveRouter.UnpatchedQueryNeverReachesAgent, ExportRouter.ApiRequestUnpatched | LiveRouter.Route, ExportRouter.Route |

=== FILE: appraisal.dfy ===
/** What both valuation agents share: table lookups with a default, the
    clamp and mean of the confidence scores, the texts of the Python
    exceptions that a non-numeric field raises in the arithmetic, and the
    `process_message` handler, which is written identically in both
    agents and is modelled once here over the agent's three approaches. */
module Appraisal {
  import opened Wrappers
  import opened Values
  import opened Results
  import opened Envelope

  /** A dict from names to factors, in declaration order. */
  type Table = seq<(string, real)>

  /** No name appears twice in a table. A Python dict literal keeps the
      last of two equal keys, so for the source's dicts to agree with a
      first-match lookup the names must be distinct, as they are. */
  predicate DistinctNames(table: Table) {
    forall i, j :: 0 <= i < j < |table| ==> table[i].0 != table[j].0
  }

  /** `table.get(key, default)`: the factor of the first row named `key`,
      the default when no row is. */
  function Lookup(table: Table, key: Raw, default: real): (v: real)
    ensures (forall i :: 0 <= i < |table| ==> key != Str(table[i].0)) ==> v == default
    ensures (exists i :: 0 <= i < |table| && key == Str(table[i].0)) ==>
              exists i :: 0 <= i < |table| && key == Str(table[i].0) && v == table[i].1
  {
    if |table| == 0 then default
    else if key == Str(table[0].0) then table[0].1
    else
      var v := Lookup(table[1..], key, default);
      assert forall i :: 1 <= i < |table| ==> table[i] == table[1..][i - 1];
      v
  }

  /** The first row whose name is the key gives the factor. */
  lemma {:induction false} LookupFinds(table: Table, i: nat, default: real)
    requires i < |table|
    requires forall j :: 0 <= j < i ==> table[j].0 != table[i].0
    ensures Lookup(table, Str(table[i].0), default) == table[i].1
  {
    if i > 0 {
      assert forall j :: 0 <= j < i - 1 ==> table[1..][j].0 != table[1..][i - 1].0 by {
        forall j | 0 <= j < i - 1 ensures table[1..][j].0 != table[1..][i - 1].0 {
          assert table[1..][j] == table[j + 1];
        }
      }
      LookupFinds(table[1..], i - 1, default);
    }
  }

  /** In a table with distinct names, every row's key gets exactly that
      row's factor. */
  lemma LookupDistinct(table: Table, default: real)
    requires DistinctNames(table)
    ensures forall i :: 0 <= i < |table| ==> Lookup(table, Str(table[i].0), default) == table[i].1
  {
    forall i | 0 <= i < |table| ensures Lookup(table, Str(table[i].0), default) == table[i].1 {
      LookupFinds(table, i, default);
    }
  }

  /** The appreciation multiplier of each class, used by both market
      approaches. */
  const ClassMultipliers: Table := [
    ("Residential", 1.05), ("Commercial", 1.03), ("Industrial", 1.02),
    ("Agricultural", 1.01), ("Vacant Land", 1.04), ("Public", 1.00)]

  /** `min(hi, max(lo, x))` */
  function Clamp(x: real, lo: real, hi: real): (c: real)
    requires lo <= hi
    ensures lo <= c <= hi
    ensures lo <= x <= hi ==> c == x
  {
    if x < lo then lo else if x > hi then hi else x
  }

  function Sum(xs: seq<real>): real {
    if |xs| == 0 then 0.0 else xs[0] + Sum(xs[1..])
  }

  /** The mean of scores that all lie in [lo, hi] lies in [lo, hi]. */
  lemma {:induction false} SumBounds(xs: seq<real>, lo: real, hi: real)
    requires forall i :: 0 <= i < |xs| ==> lo <= xs[i] <= hi
    ensures |xs| as real * lo <= Sum(xs) <= |xs| as real * hi
  {
    if |xs| > 0 {
      assert forall i :: 0 <= i < |xs[1..]| ==> xs[1..][i] == xs[i + 1];
      SumBounds(xs[1..], lo, hi);
      var n := |xs[1..]| as real;
      assert |xs| as real * lo == lo + n * lo && |xs| as real * hi == hi + n * hi;
      assert Sum(xs) == xs[0] + Sum(xs[1..]);
    }
  }

  function Mean(xs: seq<real>): (m: real)
    requires |xs| > 0
  {
    Sum(xs) / |xs| as real
  }

  lemma MeanBounds(xs: seq<real>, lo: real, hi: real)
    requires |xs| > 0
    requires forall i :: 0 <= i < |xs| ==> lo <= xs[i] <= hi
    ensures lo <= Mean(xs) <= hi
  {
    SumBounds(xs, lo, hi);
    var n := |xs| as real;
    assert n * lo <= Sum(xs) <= n * hi;
    assert Mean(xs) * n == Sum(xs);
  }

  /** `x * <float>` with a field that is not a number: a string is a
      sequence that cannot be repeated a fractional number of times. */
  function MulFloatError(x: Raw): string {
    if x.Str? then "can't multiply sequence by non-int of type 'float'"
    else OperandError("*", x.TypeName(), "float")
  }

  /** `current_year - year_built` with a `year_built` that is not a number. */
  function AgeError(yearBuilt: Raw): string {
    OperandError("-", "int", yearBuilt.TypeName())
  }

  /** The building age `current_year - year_built`. */
  function Age(currentYear: int, yearBuilt: Raw): (age: real)
    requires yearBuilt.IsNumber()
    ensures age + yearBuilt.Num() == currentYear as real
  {
    currentYear as real - yearBuilt.Num()
  }

  const Approaches: seq<string> := ["market", "cost", "income"]

  /** `process_message` of either valuation agent, given its approaches:
      `value(name, record)` is the result of the approach called `name`
      (a `Failure` is the exception it raises). */
  function HandleValuation(m: Message, value: (string, Record) -> Result<Data>): (r: Response)
    ensures !GetValue(m, "property_data").Truthy() ==> r == Fail("No property data provided for valuation")
    ensures GetValue(m, "property_data").Truthy()
            && !(GetValue(m, "valuation_approach", Scalar(Str("market"))).Scalar?
                 && GetValue(m, "valuation_approach", Scalar(Str("market"))).raw.Str?
                 && GetValue(m, "valuation_approach", Scalar(Str("market"))).raw.s in Approaches)
            ==> r == Fail("Invalid valuation approach. Must be one of: market, cost, income")
    ensures r.success <==>
              GetValue(m, "property_data").Truthy() && GetValue(m, "property_data").Rec?
              && GetValue(m, "valuation_approach", Scalar(Str("market"))).Scalar?
              && GetValue(m, "valuation_approach", Scalar(Str("market"))).raw.Str?
              && GetValue(m, "valuation_approach", Scalar(Str("market"))).raw.s in Approaches
              && value(GetValue(m, "valuation_approach", Scalar(Str("market"))).raw.s,
                       GetValue(m, "property_data").fields).Success?
    ensures r.success ==>
              r.data == value(GetValue(m, "valuation_approach", Scalar(Str("market"))).raw.s,
                              GetValue(m, "property_data").fields).value
              && r.error.None?
  {
    var propertyData := GetValue(m, "property_data");
    var approach := GetValue(m, "valuation_approach", Scalar(Str("market")));
    if !propertyData.Truthy() then Fail("No property data provided for valuation")
    else if !(approach.Scalar? && approach.raw.Str? && approach.raw.s in Approaches) then
      Fail("Invalid valuation approach. Must be one of: market, cost, income")
    else if !propertyData.Rec? then
      Fail("Error in property valuation: " + AttributeError(propertyData.TypeName(), "get"))
    else
      match value(approach.raw.s, propertyData.fields)
      case Failure(e) => Fail("Error in property valuation: " + e)
      case Success(d) => NewResponse(true, Some(d))
  }
}

=== FILE: bill_analysis.dfy ===
/** The pure parts of services/bill_analysis_service.py: how
    `analyze_bill_impact` turns the language model's answer into a
    structured analysis, and how `search_relevant_bills` groups the
    search results by source. The model's answer, and what the regular
    expressions extract from it, are inputs. */
module BillAnalysis {
  import opened Wrappers
  import opened Values
  import Trackers

  // ---------------------------------------------------------------------
  // analyze_bill_impact

  /** What the regular expressions find in the answer: the first
      "increase"/"decrease" ... "N%" match as (direction, percentage), and
      the implication and recommendation items. */
  datatype Extraction = Extraction(
    valueMatch: Option<(string, string)>,
    implications: seq<string>,
    recommendations: seq<string>)

  datatype ImpactAnalysis = ImpactAnalysis(
    impactAnalysis: string,
    propertyValueChange: string,
    assessmentImplications: seq<string>,
    recommendations: seq<string>,
    confidenceLevel: string,
    success: bool)

  /** The value change: "+N%" for an increase, "-N%" for a decrease,
      "Unknown" without a match. The direction matched case-insensitively,
      so it is compared lowered. */
  function ValueChange(valueMatch: Option<(string, string)>): (change: string)
    ensures valueMatch.None? <==> change == "Unknown"
    ensures valueMatch.Some? ==> |change| == |valueMatch.value.1| + 2 && change[|change| - 1] == '%'
    ensures valueMatch.Some? ==>
              change[0] == (if Lower(valueMatch.value.0) == "increase" then '+' else '-')
              && change[1..|change| - 1] == valueMatch.value.1
  {
    match valueMatch
    case None => "Unknown"
    case Some((direction, percentage)) =>
      var change := (if Lower(direction) == "increase" then "+" else "-") + percentage + "%";
      assert change[0] != "Unknown"[0];
      change
  }

  const LowTerms: seq<string> := ["insufficient data", "unclear"]
  const HighTerms: seq<string> := ["clearly", "significant"]

  /** The confidence level: low when the answer admits doubt, else high
      when it claims clarity, else medium. */
  function ConfidenceLevel(answer: string): (level: string)
    ensures level in {"low", "medium", "high"}
    ensures level == "low" <==> ContainsAny(Lower(answer), LowTerms)
    ensures level == "high" <==> !ContainsAny(Lower(answer), LowTerms) && ContainsAny(Lower(answer), HighTerms)
  {
    var t := Lower(answer);
    if Contains(t, "insufficient data") || Contains(t, "unclear") then
      assert ContainsAny(t, LowTerms) by {
        if Contains(t, "insufficient data") { assert LowTerms[0] == "insufficient data"; }
        else { assert LowTerms[1] == "unclear"; }
      }
      "low"
    else if Contains(t, "clearly") || Contains(t, "significant") then
      assert ContainsAny(t, HighTerms) by {
        if Contains(t, "clearly") { assert HighTerms[0] == "clearly"; }
        else { assert HighTerms[1] == "significant"; }
      }
      "high"
    else "medium"
  }

  /** The confidence level depends on the answer only up to case, and a
      doubting term outranks a confident one. */
  lemma ConfidenceIgnoresCase(answer: string)
    ensures ConfidenceLevel(Lower(answer)) == ConfidenceLevel(answer)
    ensures Contains(Lower(answer), "unclear") ==> ConfidenceLevel(answer) == "low"
  {
    LowerIdempotent(answer);
    if Contains(Lower(answer), "unclear") {
      assert LowTerms[1] == "unclear";
    }
  }

  /** `items or [default]` */
  function OrDefault(items: seq<string>, default: string): (r: seq<string>)
    ensures |r| > 0
    ensures items != [] ==> r == items
    ensures items == [] ==> r == [default]
  {
    if items == [] then [default] else items
  }

  /** `analyze_bill_impact` from the model's answer (a `Failure` when the
      call raises) and what is extracted from it. */
  function AnalyzeBillImpact(answer: Result<string>, extract: string -> Extraction): (a: ImpactAnalysis)
    ensures a.success <==> answer.Success?
    ensures |a.assessmentImplications| > 0 && |a.recommendations| > 0
    ensures a.confidenceLevel in {"low", "medium", "high"}
    ensures answer.Failure? ==>
              a == ImpactAnalysis("Error analyzing bill: " + answer.error, "Unknown", ["Analysis error occurred"],
                                  ["Contact technical support"], "low", false)
    ensures answer.Success? ==>
              a.impactAnalysis == answer.value
              && a.propertyValueChange == ValueChange(extract(answer.value).valueMatch)
              && a.confidenceLevel == ConfidenceLevel(answer.value)
              && (extract(answer.value).implications != [] ==>
                    a.assessmentImplications == extract(answer.value).implications)
              && (extract(answer.value).recommendations != [] ==>
                    a.recommendations == extract(answer.value).recommendations)
              && (extract(answer.value).implications == [] ==>
                    a.assessmentImplications == ["No specific implications identified"])
              && (extract(answer.value).recommendations == [] ==>
                    a.recommendations == ["No specific recommendations provided"])
  {
    match answer
    case Failure(e) =>
      ImpactAnalysis("Error analyzing bill: " + e, "Unknown", ["Analysis error occurred"],
                     ["Contact technical support"], "low", false)
    case Success(text) =>
      var x := extract(text);
      ImpactAnalysis(text, ValueChange(x.valueMatch),
                     OrDefault(x.implications, "No specific implications identified"),
                     OrDefault(x.recommendations, "No specific recommendations provided"),
                     ConfidenceLevel(text), true)
  }

  // ---------------------------------------------------------------------
  // search_relevant_bills

  /** The groups, keyed by source in order of first appearance (a Python
      dict keeps insertion order). */
  type Groups = seq<(Raw, seq<Record>)>

  /** `bill.get("source", "unknown")` */
  function SourceOf(bill: Record): Raw {
    GetOr(bill, "source", Str("unknown"))
  }

  /** The group of a source, empty when the source has none. */
  function GroupOf(groups: Groups, source: Raw): seq<Record> {
    if |groups| == 0 then []
    else if groups[0].0 == source then groups[0].1
    else GroupOf(groups[1..], source)
  }

  /** The keys of the groups, in order. */
  function Keys(groups: Groups): seq<Raw> {
    if |groups| == 0 then [] else [groups[0].0] + Keys(groups[1..])
  }

  function Total(groups: Groups): nat {
    if |groups| == 0 then 0 else |groups[0].1| + Total(groups[1..])
  }

  /** A group takes one more bill while it is below the limit. */
  function Append(group: seq<Record>, bill: Record, limit: int): seq<Record> {
    if |group| < limit then group + [bill] else group
  }

  /** One step of the grouping loop: find or create the bill's group, then
      append while below the limit. */
  function AddBill(groups: Groups, source: Raw, bill: Record, limit: int): (r: Groups)
    ensures forall s :: GroupOf(r, s) == if s == source then Append(GroupOf(groups, source), bill, limit) else GroupOf(groups, s)
    ensures Total(r) == Total(groups) + (if |GroupOf(groups, source)| < limit then 1 else 0)
    ensures Keys(r) == Keys(groups) + (if source in Keys(groups) then [] else [source])
  {
    if |groups| == 0 then [(source, Append([], bill, limit))]
    else if groups[0].0 == source then [(source, Append(groups[0].1, bill, limit))] + groups[1..]
    else
      var rest := AddBill(groups[1..], source, bill, limit);
      assert ([groups[0]] + rest)[1..] == rest;
      assert source in Keys(groups) <==> source in Keys(groups[1..]);
      [groups[0]] + rest
  }

  /** The grouping loop over the results in order. */
  function Group(bills: seq<Record>, limit: int): Groups
    decreases |bills|
  {
    if |bills| == 0 then []
    else
      var last := bills[|bills| - 1];
      AddBill(Group(bills[..|bills| - 1], limit), SourceOf(last), last, limit)
  }

  /** The bills of one source, in order: the reference the grouping is
      measured against. */
  function OfSource(bills: seq<Record>, source: Raw): (r: seq<Record>)
    ensures |r| <= |bills|
    decreases |bills|
  {
    if |bills| == 0 then []
    else
      var last := bills[|bills| - 1];
      OfSource(bills[..|bills| - 1], source) + (if SourceOf(last) == source then [last] else [])
  }

  /** The distinct sources of the bills, in order of first appearance:
      the reference the keys of the grouping are measured against. */
  function DistinctSources(bills: seq<Record>): (r: seq<Raw>)
    ensures forall i, j :: 0 <= i < j < |r| ==> r[i] != r[j]
    ensures forall i :: 0 <= i < |bills| ==> SourceOf(bills[i]) in r
    ensures forall s :: s in r ==> exists i :: 0 <= i < |bills| && SourceOf(bills[i]) == s
    decreases |bills|
  {
    if |bills| == 0 then []
    else
      var init, last := bills[..|bills| - 1], bills[|bills| - 1];
      var seen := DistinctSources(init);
      assert forall i :: 0 <= i < |init| ==> init[i] == bills[i];
      seen + (if SourceOf(last) in seen then [] else [SourceOf(last)])
  }

  /** `xs[:limit]` for a limit that is not negative, nothing otherwise. */
  function Take(xs: seq<Record>, limit: int): (r: seq<Record>)
    ensures |r| <= |xs| && (limit >= 0 ==> |r| <= limit)
  {
    if limit <= 0 then [] else if |xs| <= limit then xs else xs[..limit]
  }

  lemma TakeAppend(xs: seq<Record>, bill: Record, limit: int)
    ensures Take(xs + [bill], limit) == Append(Take(xs, limit), bill, limit)
  {
    if limit > 0 && |xs| > limit {
      assert (xs + [bill])[..limit] == xs[..limit];
    }
  }

  /** Each source's group is the first `limit` of that source's bills, in
      their original order. */
  lemma {:induction false} GroupIsPrefixOfSource(bills: seq<Record>, limit: int, source: Raw)
    ensures GroupOf(Group(bills, limit), source) == Take(OfSource(bills, source), limit)
    decreases |bills|
  {
    if |bills| > 0 {
      var init, last := bills[..|bills| - 1], bills[|bills| - 1];
      GroupIsPrefixOfSource(init, limit, source);
      GroupIsPrefixOfSource(init, limit, SourceOf(last));
      if SourceOf(last) == source {
        TakeAppend(OfSource(init, source), last, limit);
      } else {
        assert OfSource(init, source) + [] == OfSource(init, source);
      }
    }
  }

  /** The grouping has one key per distinct source, in order of first
      appearance, even when the limit leaves the groups empty. */
  lemma {:induction false} GroupKeys(bills: seq<Record>, limit: int)
    ensures Keys(Group(bills, limit)) == DistinctSources(bills)
    decreases |bills|
  {
    if |bills| > 0 {
      GroupKeys(bills[..|bills| - 1], limit);
    }
  }

  /** The total never exceeds the number of results, and equals it when
      the limit is at least that number. */
  lemma {:induction false} GroupTotal(bills: seq<Record>, limit: int)
    ensures Total(Group(bills, limit)) <= |bills|
    ensures limit >= |bills| ==> Total(Group(bills, limit)) == |bills|
    decreases |bills|
  {
    if |bills| > 0 {
      var init, last := bills[..|bills| - 1], bills[|bills| - 1];
      GroupTotal(init, limit);
      GroupIsPrefixOfSource(init, limit, SourceOf(last));
    }
  }

  datatype SearchOutcome =
    | Grouped(query: string, resultsBySource: Groups, totalResults: nat)
    | SearchError(error: string)

  /** `search_relevant_bills`: the search, then the grouping; an error
      from the search becomes an error result. */
  function SearchRelevantBills(f: Trackers.Fetched, query: string, limit: int := 10): (r: SearchOutcome)
    ensures Trackers.SearchBills(f, query).Failure? ==>
              r == SearchError("Error searching bills: " + Trackers.SearchBills(f, query).error)
    ensures Trackers.SearchBills(f, query).Success? ==>
              r.Grouped? && r.query == query
              && r.totalResults == Total(r.resultsBySource) <= |Trackers.SearchBills(f, query).value|
              && forall s :: GroupOf(r.resultsBySource, s) == Take(OfSource(Trackers.SearchBills(f, query).value, s), limit)
    ensures Trackers.SearchBills(f, query).Success? ==>
              Keys(r.resultsBySource) == DistinctSources(Trackers.SearchBills(f, query).value)
  {
    match Trackers.SearchBills(f, query)
    case Failure(e) => SearchError("Error searching bills: " + e)
    case Success(results) =>
      var groups := Group(results, limit);
      GroupTotal(results, limit);
      GroupKeys(results, limit);
      assert forall s :: GroupOf(groups, s) == Take(OfSource(results, s), limit) by {
        forall s ensures GroupOf(groups, s) == Take(OfSource(results, s), limit) {
          GroupIsPrefixOfSource(results, limit, s);
        }
      }
      Grouped(query, groups, Total(groups))
  }
}

=== FILE: bill_status.dfy ===
/** `get_status_from_text` (github_export/services/trackers/wa_legislature.py):
    the standard status of a bill from the status text on the
    legislature's site. */
module BillStatus {
  import opened Values

  datatype Status = Passed | Failed | Pending | Active {
    function Name(): string {
      match this
      case Passed => "Passed"
      case Failed => "Failed"
      case Pending => "Pending"
      case Active => "Active"
    }
  }

  const PassedTerms: seq<string> := ["signed", "enacted", "passed both", "chaptered"]
  const FailedTerms: seq<string> := ["died", "failed", "vetoed"]
  const PendingTerms: seq<string> := ["in committee", "first reading", "introduced", "prefiled"]

  /** The first group with a term in the lowered text decides, in the
      order passed, failed, pending; no term at all means active. */
  function StatusFromText(text: string): (st: Status)
    ensures st == Passed <==> ContainsAny(Lower(text), PassedTerms)
    ensures st == Failed <==> !ContainsAny(Lower(text), PassedTerms) && ContainsAny(Lower(text), FailedTerms)
    ensures st == Pending <==>
              !ContainsAny(Lower(text), PassedTerms) && !ContainsAny(Lower(text), FailedTerms)
              && ContainsAny(Lower(text), PendingTerms)
    ensures st.Name() in ["Passed", "Failed", "Pending", "Active"]
  {
    var t := Lower(text);
    if ContainsAny(t, PassedTerms) then Passed
    else if ContainsAny(t, FailedTerms) then Failed
    else if ContainsAny(t, PendingTerms) then Pending
    else Active
  }

  /** The classifier ignores case. */
  lemma StatusIgnoresCase(text: string)
    ensures StatusFromText(Lower(text)) == StatusFromText(text)
  {
    LowerIdempotent(text);
  }

  /** Text with no listed term is active. */
  lemma UnlistedIsActive(text: string)
    requires !ContainsAny(Lower(text), PassedTerms + FailedTerms + PendingTerms)
    ensures StatusFromText(text) == Active
  {
    var all := PassedTerms + FailedTerms + PendingTerms;
    forall j | 0 <= j < |PassedTerms| ensures !Contains(Lower(text), PassedTerms[j]) {
      assert PassedTerms[j] == all[j];
    }
    forall j | 0 <= j < |FailedTerms| ensures !Contains(Lower(text), FailedTerms[j]) {
      assert FailedTerms[j] == all[|PassedTerms| + j];
    }
    forall j | 0 <= j < |PendingTerms| ensures !Contains(Lower(text), PendingTerms[j]) {
      assert PendingTerms[j] == all[|PassedTerms| + |FailedTerms| + j];
    }
  }

  /** A status that names both a veto and a signature is passed: the
      passed terms are looked for first. */
  lemma StatusPriority(text: string)
    requires Contains(Lower(text), "vetoed") && Contains(Lower(text), "signed")
    ensures StatusFromText(text) == Passed
  {
    assert PassedTerms[0] == "signed";
  }
}

=== FILE: diagnostics.dfy ===
/** What both data-validation agents share: the error / warning / info lists
    that the checks append to, the missing-field scan, the result flags,
    and the two message handlers (`process_message`, `process_batch`),
    which are written identically in both agents and are modelled once
    here over the agent's `validate_property_data`. */
module Diagnostics {
  import opened Wrappers
  import opened Values
  import opened Results
  import opened Envelope

  /** What one check contributes to the three lists. */
  datatype Diag = Diag(errors: seq<Finding>, warnings: seq<Finding>, info: seq<Finding>)

  const Clean: Diag := Diag([], [], [])

  function Error(f: Finding): Diag {
    Diag([f], [], [])
  }

  function Warning(f: Finding): Diag {
    Diag([], [f], [])
  }

  function Note(f: Finding): Diag {
    Diag([], [], [f])
  }

  function Plus(a: Diag, b: Diag): Diag {
    Diag(a.errors + b.errors, a.warnings + b.warnings, a.info + b.info)
  }

  /** The three lists after every check has run in order. */
  function Combine(parts: seq<Diag>): Diag {
    if |parts| == 0 then Clean else Plus(parts[0], Combine(parts[1..]))
  }

  /** Nothing a check contributes is lost, and nothing appears that no
      check contributed. */
  lemma {:induction false} CombineCollects(parts: seq<Diag>, f: Finding)
    ensures f in Combine(parts).errors <==> exists k :: 0 <= k < |parts| && f in parts[k].errors
    ensures f in Combine(parts).warnings <==> exists k :: 0 <= k < |parts| && f in parts[k].warnings
    ensures f in Combine(parts).info <==> exists k :: 0 <= k < |parts| && f in parts[k].info
  {
    if |parts| > 0 {
      CombineCollects(parts[1..], f);
      assert forall k :: 1 <= k < |parts| ==> parts[k] == parts[1..][k - 1];
      if f in Combine(parts[1..]).errors {
        var k :| 0 <= k < |parts[1..]| && f in parts[1..][k].errors;
        assert f in parts[k + 1].errors;
      }
      if f in Combine(parts[1..]).warnings {
        var k :| 0 <= k < |parts[1..]| && f in parts[1..][k].warnings;
        assert f in parts[k + 1].warnings;
      }
      if f in Combine(parts[1..]).info {
        var k :| 0 <= k < |parts[1..]| && f in parts[1..][k].info;
        assert f in parts[k + 1].info;
      }
    }
  }

  /** Every finding of `d` belongs to check `k`, where `origin` names the
      check that emits each finding. */
  predicate Owned(d: Diag, origin: Finding -> nat, k: nat) {
    (forall f :: f in d.errors ==> origin(f) == k)
    && (forall f :: f in d.warnings ==> origin(f) == k)
    && (forall f :: f in d.info ==> origin(f) == k)
  }

  lemma OwnedPlus(a: Diag, b: Diag, origin: Finding -> nat, k: nat)
    requires Owned(a, origin, k) && Owned(b, origin, k)
    ensures Owned(Plus(a, b), origin, k)
  {
  }

  /** Six contributions owned by consecutive checks, as a list. */
  lemma OwnedInOrder(a: Diag, b: Diag, c: Diag, d: Diag, e: Diag, g: Diag, origin: Finding -> nat, base: nat)
    requires Owned(a, origin, base) && Owned(b, origin, base + 1) && Owned(c, origin, base + 2)
    requires Owned(d, origin, base + 3) && Owned(e, origin, base + 4) && Owned(g, origin, base + 5)
    ensures forall k :: 0 <= k < 6 ==> Owned([a, b, c, d, e, g][k], origin, k + base)
  {
  }

  /** Ten contributions owned by the checks numbered 0 to 9, as a list. */
  lemma OwnedInOrderTen(a: Diag, b: Diag, c: Diag, d: Diag, e: Diag,
                        g: Diag, h: Diag, i: Diag, j: Diag, l: Diag, origin: Finding -> nat)
    requires Owned(a, origin, 0) && Owned(b, origin, 1) && Owned(c, origin, 2) && Owned(d, origin, 3)
    requires Owned(e, origin, 4) && Owned(g, origin, 5) && Owned(h, origin, 6) && Owned(i, origin, 7)
    requires Owned(j, origin, 8) && Owned(l, origin, 9)
    ensures forall k :: 0 <= k < 10 ==> Owned([a, b, c, d, e, g, h, i, j, l][k], origin, k)
  {
  }

  /** Two findings of a list holding at most one are the same. */
  lemma AtMostOneFinding(fs: seq<Finding>, f: Finding, g: Finding)
    requires |fs| <= 1 && f in fs && g in fs
    ensures f == g
  {
  }

  /** Six contributions without notes, as a list. */
  lemma NoInfoInOrder(a: Diag, b: Diag, c: Diag, d: Diag, e: Diag, g: Diag)
    requires a.info == [] && b.info == [] && c.info == [] && d.info == [] && e.info == [] && g.info == []
    ensures forall k :: 0 <= k < 6 ==> [a, b, c, d, e, g][k].info == []
  {
  }

  /** When every check emits only its own findings, a finding is in the
      combined lists exactly when its own check produced it. */
  lemma CombineByOrigin(parts: seq<Diag>, origin: Finding -> nat, f: Finding)
    requires forall k :: 0 <= k < |parts| ==> Owned(parts[k], origin, k)
    requires origin(f) < |parts|
    ensures f in Combine(parts).errors <==> f in parts[origin(f)].errors
    ensures f in Combine(parts).warnings <==> f in parts[origin(f)].warnings
    ensures f in Combine(parts).info <==> f in parts[origin(f)].info
  {
    CombineCollects(parts, f);
  }

  /** The result dict: `has_errors` / `has_warnings` follow the lists. */
  function Summarize(d: Diag): (r: ValidationResult)
    ensures r.errors == d.errors && r.warnings == d.warnings && r.info == d.info
    ensures r.hasErrors <==> |r.errors| > 0
    ensures r.hasWarnings <==> |r.warnings| > 0
  {
    ValidationResult(|d.errors| > 0, |d.warnings| > 0, d.errors, d.warnings, d.info)
  }

  /** `a` occurs in `b` in order, possibly with gaps. */
  predicate IsSubsequence(a: seq<string>, b: seq<string>) {
    if |a| == 0 then true
    else if |b| == 0 then false
    else if a[0] == b[0] then IsSubsequence(a[1..], b[1..])
    else IsSubsequence(a, b[1..])
  }

  /** `[f for f in fields if keep(f)]` */
  function Select(fields: seq<string>, keep: string -> bool): (kept: seq<string>)
    ensures forall f :: f in kept <==> f in fields && keep(f)
    ensures IsSubsequence(kept, fields)
  {
    if |fields| == 0 then []
    else
      var rest := Select(fields[1..], keep);
      if keep(fields[0]) then [fields[0]] + rest else rest
  }

  /** The completeness scan of both validators: the fields among `fields`
      that are absent or `None`, in the order given. */
  function MissingOf(rec: Record, fields: seq<string>): (names: seq<string>)
    ensures forall f :: f in names <==> f in fields && Missing(rec, f)
    ensures IsSubsequence(names, fields)
  {
    Select(fields, f => Missing(rec, f))
  }

  /** The completeness check: one aggregated error, or nothing. */
  function CompletenessOf(rec: Record, fields: seq<string>): (d: Diag)
    ensures d == Clean || d == Error(MissingFields(MissingOf(rec, fields)))
    ensures d.errors == [] <==> forall f :: f in fields ==> !Missing(rec, f)
  {
    var missing := MissingOf(rec, fields);
    if |missing| > 0 then
      assert missing[0] in missing;
      Error(MissingFields(missing))
    else
      assert forall f :: f in fields ==> f !in missing;
      Clean
  }

  /** The completeness check emits only the missing-fields error. */
  lemma CompletenessOwnedBy(rec: Record, fields: seq<string>, origin: Finding -> nat, k: nat)
    requires forall names :: origin(MissingFields(names)) == k
    ensures Owned(CompletenessOf(rec, fields), origin, k)
  {
  }

  // ---------------------------------------------------------------------
  // Message handlers

  /** `process_message` of either validation agent, given the agent's
      `validate_property_data` (a `Failure` is the exception it raises). */
  function HandleValidation(m: Message, validate: Record -> Result<ValidationResult>): (r: Response)
    ensures !GetValue(m, "property_data").Truthy() ==> r == Fail("No property data provided for validation")
    ensures r.success <==> GetValue(m, "property_data").Truthy() && GetValue(m, "property_data").Rec?
                           && validate(GetValue(m, "property_data").fields).Success?
                           && !validate(GetValue(m, "property_data").fields).value.hasErrors
    ensures r.data.Validated? ==> GetValue(m, "property_data").Rec?
                                  && validate(GetValue(m, "property_data").fields).Success?
                                  && r.data.validation == validate(GetValue(m, "property_data").fields).value
    ensures r.data.Validated? ==> (r.error.Some? <==> r.data.validation.hasErrors)
    ensures GetValue(m, "property_data").Truthy() && GetValue(m, "property_data").Rec?
            && validate(GetValue(m, "property_data").fields).Success? ==>
              r.data == Validated(validate(GetValue(m, "property_data").fields).value)
              && (r.error.Some? <==> validate(GetValue(m, "property_data").fields).value.hasErrors)
    ensures GetValue(m, "property_data").Truthy() && GetValue(m, "property_data").Rec?
            && validate(GetValue(m, "property_data").fields).Failure? ==>
              r == Fail("Error validating property data: " + validate(GetValue(m, "property_data").fields).error)
    ensures GetValue(m, "property_data").Truthy() && !GetValue(m, "property_data").Rec? ==>
              r == Fail("Error validating property data: "
                        + AttributeError(GetValue(m, "property_data").TypeName(), "get"))
  {
    var propertyData := GetValue(m, "property_data");
    if !propertyData.Truthy() then Fail("No property data provided for validation")
    else if !propertyData.Rec? then
      Fail("Error validating property data: " + AttributeError(propertyData.TypeName(), "get"))
    else
      match validate(propertyData.fields)
      case Failure(e) => Fail("Error validating property data: " + e)
      case Success(v) =>
        NewResponse(!v.hasErrors, Some(Validated(v)),
                    if v.hasErrors then Some("Validation errors found") else None)
  }

  /** One element of the batch: the agent validates it as a record. */
  function ValidateEntry(item: Value, validate: Record -> Result<ValidationResult>): (r: Result<BatchEntry>)
    ensures r.Success? <==> item.Rec? && validate(item.fields).Success?
    ensures r.Success? ==> r.value == BatchEntry(item.fields, validate(item.fields).value)
  {
    if !item.Rec? then Failure(AttributeError(item.TypeName(), "get"))
    else
      var v :- validate(item.fields);
      Success(BatchEntry(item.fields, v))
  }

  /** The batch loop: every element in order, stopping at the first
      exception. */
  function ValidateAll(items: seq<Value>, validate: Record -> Result<ValidationResult>): (r: Result<seq<BatchEntry>>)
    ensures r.Success? <==> forall i :: 0 <= i < |items| ==> ValidateEntry(items[i], validate).Success?
    ensures r.Success? ==> |r.value| == |items|
    ensures r.Success? ==> forall i :: 0 <= i < |items| ==> r.value[i] == ValidateEntry(items[i], validate).value
  {
    if |items| == 0 then Success([])
    else
      var first :- ValidateEntry(items[0], validate);
      var rest :- ValidateAll(items[1..], validate);
      assert forall i :: 1 <= i < |items| ==> items[i] == items[1..][i - 1];
      Success([first] + rest)
  }

  function CountValid(entries: seq<BatchEntry>): nat {
    if |entries| == 0 then 0
    else (if entries[0].validation.hasErrors then 0 else 1) + CountValid(entries[1..])
  }

  function CountInvalid(entries: seq<BatchEntry>): nat {
    if |entries| == 0 then 0
    else (if entries[0].validation.hasErrors then 1 else 0) + CountInvalid(entries[1..])
  }

  /** Every record is counted exactly once, as valid or as invalid. */
  lemma {:induction false} CountsPartition(entries: seq<BatchEntry>)
    ensures CountValid(entries) + CountInvalid(entries) == |entries|
  {
    if |entries| > 0 {
      CountsPartition(entries[1..]);
    }
  }

  /** No record is counted invalid exactly when no record has errors. */
  lemma {:induction false} NoInvalidIffAllClean(entries: seq<BatchEntry>)
    ensures CountInvalid(entries) == 0 <==> forall i :: 0 <= i < |entries| ==> !entries[i].validation.hasErrors
  {
    if |entries| > 0 {
      NoInvalidIffAllClean(entries[1..]);
      assert forall i :: 1 <= i < |entries| ==> entries[i] == entries[1..][i - 1];
    }
  }

  /** The response of a batch whose every element was validated. */
  function BatchResponse(entries: seq<BatchEntry>): (r: Response)
    ensures r.data.BatchValidated? && r.data.entries == entries
    ensures r.data.total == |entries| && r.data.valid + r.data.invalid == r.data.total
    ensures r.success <==> forall i :: 0 <= i < |entries| ==> !entries[i].validation.hasErrors
    ensures r.success <==> r.data.invalid == 0
    ensures r.success <==> r.error.None?
  {
    CountsPartition(entries);
    NoInvalidIffAllClean(entries);
    var hasErrors := exists i :: 0 <= i < |entries| && entries[i].validation.hasErrors;
    NewResponse(!hasErrors,
                Some(BatchValidated(entries, |entries|, CountValid(entries), CountInvalid(entries))),
                if hasErrors then Some("Some properties have validation errors") else None)
  }

  /** The exception raised when the batch loop meets its first element,
      for a truthy `properties` value that is not a list: iterating a
      string or a dict yields strings, which have no `.get`; a number is
      not iterable. */
  function IterationError(properties: Value): string {
    match properties
    case Scalar(Str(_)) => AttributeError("str", "get")
    case Rec(_) => AttributeError("str", "get")
    case _ => "'" + properties.TypeName() + "' object is not iterable"
  }

  /** `process_batch` of either validation agent. */
  function HandleBatch(m: Message, validate: Record -> Result<ValidationResult>): (r: Response)
    ensures !GetValue(m, "properties", List([])).Truthy() ==> r == Fail("No properties provided for batch validation")
    ensures r.data.BatchValidated? ==>
              GetValue(m, "properties", List([])).List?
              && |r.data.entries| == r.data.total == |GetValue(m, "properties", List([])).items|
              && r.data.valid + r.data.invalid == r.data.total
    ensures r.data.BatchValidated? ==> (r.success <==> forall i :: 0 <= i < |r.data.entries| ==> !r.data.entries[i].validation.hasErrors)
    ensures !r.data.BatchValidated? ==> !r.success && r.data == Empty
    ensures r.data.BatchValidated? <==>
              GetValue(m, "properties", List([])).Truthy() && GetValue(m, "properties", List([])).List?
              && forall i :: 0 <= i < |GetValue(m, "properties", List([])).items| ==>
                   GetValue(m, "properties", List([])).items[i].Rec?
                   && validate(GetValue(m, "properties", List([])).items[i].fields).Success?
    ensures r.data.BatchValidated? ==>
              forall i :: 0 <= i < |r.data.entries| ==>
                r.data.entries[i] == BatchEntry(GetValue(m, "properties", List([])).items[i].fields,
                                                validate(GetValue(m, "properties", List([])).items[i].fields).value)
    ensures GetValue(m, "properties", List([])).Truthy() && !GetValue(m, "properties", List([])).List? ==>
              r == Fail("Error in batch validation: " + IterationError(GetValue(m, "properties", List([]))))
    ensures GetValue(m, "properties", List([])).Truthy() && GetValue(m, "properties", List([])).List?
            && ValidateAll(GetValue(m, "properties", List([])).items, validate).Failure? ==>
              r == Fail("Error in batch validation: "
                        + ValidateAll(GetValue(m, "properties", List([])).items, validate).error)
  {
    var properties := GetValue(m, "properties", List([]));
    if !properties.Truthy() then Fail("No properties provided for batch validation")
    else if !properties.List? then Fail("Error in batch validation: " + IterationError(properties))
    else
      match ValidateAll(properties.items, validate)
      case Failure(e) => Fail("Error in batch validation: " + e)
      case Success(entries) => BatchResponse(entries)
  }
}

=== FILE: envelope.dfy ===
/** The message/response envelope exchanged between the router and the
    agents (mcp/message_protocol.py), with the `get_value` / `get_type`
    accessors every caller uses, supplied here as a dictionary lookup. */
module Envelope {
  import opened Wrappers
  import opened Values
  import opened Results

  /** The payload of a response. `Empty` is the normalised `{}`; the other
      constructors are the dicts the modelled agents build. */
  datatype Data =
    | Empty
    | Validated(validation: ValidationResult)                      // {'validation_results': ...}
    | BatchValidated(entries: seq<BatchEntry>, total: int, valid: int, invalid: int)
    | Valued(valuation: Valuation, approach: string)              // {'valuation_results': ..., 'approach': ...}
    | LeanValued(leanValuation: LeanValuation, approach: string)
    | Answered(reply: Reply)                                       // a user-interaction reply
    | Opaque(fields: map<string, Value>)                           // built by an agent outside this model

  /** Who sent a message: normally a name, but the routers' positional
      call `MCPMessage(type, data)` stores the request body here. */
  datatype Sender = Named(name: string) | RequestBody(body: map<string, Value>)

  datatype Message = Message(
    msgType: string,
    sender: Sender,
    values: map<string, Value>,
    timestamp: Option<string>)

  datatype Response = Response(success: bool, data: Data, error: Option<string>)

  const SystemSender: Sender := Named("system")

  /** `MCPMessage(message_type, sender='system', data=None)`: the second
      positional argument is the sender, and the payload is `data or {}`. */
  function NewMessage(messageType: string, sender: Sender := SystemSender,
                      data: Option<map<string, Value>> := None): (m: Message)
    ensures m.msgType == messageType && m.sender == sender
    ensures data.None? ==> m.values == map[]
    ensures data.Some? ==> m.values == data.value
    ensures m.timestamp.None?
  {
    Message(messageType, sender, if data.Some? then data.value else map[], None)
  }

  /** `message.get_value(key, default=None)` */
  function GetValue(m: Message, key: string, default: Value := Scalar(Null)): (v: Value)
    ensures key in m.values ==> v == m.values[key]
    ensures key !in m.values ==> v == default
  {
    if key in m.values then m.values[key] else default
  }

  /** `message.get_type()` */
  function GetType(m: Message): string {
    m.msgType
  }

  /** `MCPResponse(success=True, data=None, error=None)`: missing or empty
      data is normalised to `{}`. */
  function NewResponse(success: bool := true, data: Option<Data> := None,
                       error: Option<string> := None): (r: Response)
    ensures r.success == success && r.error == error
    ensures r.data == Empty <==> (data.None? || data == Some(Empty))
    ensures data.Some? ==> r.data == data.value
  {
    Response(success, if data.Some? then data.value else Empty, error)
  }

  /** `MCPResponse(success=False, error=text)`, the shape of every failure. */
  function Fail(text: string): (r: Response)
    ensures !r.success && r.data == Empty && r.error == Some(text)
  {
    NewResponse(false, None, Some(text))
  }

  /** `str(None)` / `str(text)` for the error field. */
  function ErrorText(error: Option<string>): string {
    if error.Some? then error.value else "None"
  }

  /** `MCPMessage.__str__`; how values print is left to `show`. */
  function ShowMessage(m: Message, show: Sender -> string,
                       showValues: map<string, Value> -> string): (s: string)
    ensures StartsWith(s, "MCPMessage(type=" + m.msgType + ", sender=")
  {
    var s := "MCPMessage(type=" + m.msgType + ", sender=" + show(m.sender)
             + ", values=" + showValues(m.values) + ")";
    assert s[..|"MCPMessage(type=" + m.msgType + ", sender="|]
        == "MCPMessage(type=" + m.msgType + ", sender=";
    s
  }

  /** `MCPResponse.__str__`: the data on success, only the error on
      failure; how data prints is left to `showData`. */
  function ShowResponse(r: Response, showData: Data -> string): (s: string)
    ensures r.success ==> s == "MCPResponse(success=True, data=" + showData(r.data) + ")"
    ensures !r.success ==> s == "MCPResponse(success=False, error=" + ErrorText(r.error) + ")"
  {
    if r.success then "MCPResponse(success=True, data=" + showData(r.data) + ")"
    else "MCPResponse(success=False, error=" + ErrorText(r.error) + ")"
  }

  /** A failure prints the same whatever its data, and a success the same
      whatever its error. */
  lemma ShowResponseIgnoresHiddenPart(r1: Response, r2: Response, showData: Data -> string)
    requires r1.success == r2.success
    requires r1.success ==> r1.data == r2.data
    requires !r1.success ==> r1.error == r2.error
    ensures ShowResponse(r1, showData) == ShowResponse(r2, showData)
  {
  }

  /** The printed form tells success from failure. */
  lemma ShowResponseDistinguishesOutcome(r1: Response, r2: Response, showData: Data -> string)
    requires r1.success && !r2.success
    ensures ShowResponse(r1, showData) != ShowResponse(r2, showData)
  {
    var p1 := "MCPResponse(success=True, data=";
    var p2 := "MCPResponse(success=False, error=";
    var s1 := ShowResponse(r1, showData);
    var s2 := ShowResponse(r2, showData);
    assert s1 == p1 + (showData(r1.data) + ")");
    assert s2 == p2 + (ErrorText(r2.error) + ")");
    assert s1[20] == p1[20] == 'T';
    assert s2[20] == p2[20] == 'F';
  }
}

=== FILE: export_router.dfy ===
/** The older router (github_export/mcp/master_control.py): agents are
    kept in a dict keyed by class name, and each message type names the
    class and entry point that answers it. It serves the exported agents:
    the full validation and valuation agents, the user-interaction agent,
    and the property-impact agent, which is outside this model. */
module ExportRouter {
  import opened Wrappers
  import opened Values
  import opened Envelope
  import opened Routing
  import Validation
  import FullValuation
  import Interaction

  datatype Registry = Registry(agents: map<string, Agent>, status: map<string, string>)

  const Initial: Registry := Registry(map[], map[])

  /** `register_agent`: the class name keys the agent, so registering a
      class again replaces the earlier instance. */
  function Register(s: Registry, a: Agent): (r: (Registry, bool))
    ensures r.1
    ensures a.className in r.0.agents && r.0.agents[a.className] == a
    ensures r.0.status == s.status[a.className := "active"]
    ensures forall k :: k in s.agents && k != a.className ==> k in r.0.agents && r.0.agents[k] == s.agents[k]
    ensures r.0.agents.Keys == s.agents.Keys + {a.className}
  {
    (Registry(s.agents[a.className := a], s.status[a.className := "active"]), true)
  }

  /** `unregister_agent`: true, and the entry is gone, exactly when the
      class was registered. */
  function Unregister(s: Registry, name: string): (r: (Registry, bool))
    ensures r.1 <==> name in s.agents
    ensures name !in r.0.agents
    ensures r.0.agents.Keys == s.agents.Keys - {name}
    ensures forall k :: k in r.0.agents ==> r.0.agents[k] == s.agents[k]
    ensures name !in s.agents ==> r.0 == s
  {
    if name in s.agents then (Registry(s.agents - {name}, s.status - {name}), true)
    else (s, false)
  }

  /** After registering, the status reports the class as active; after
      unregistering a registered class, it no longer reports it. */
  lemma StatusFollowsRegistration(s: Registry, a: Agent, name: string)
    ensures a.className in GetStatus(Register(s, a).0.status).agents
            && GetStatus(Register(s, a).0.status).agents[a.className] == "active"
    ensures name in s.agents ==> name !in GetStatus(Unregister(s, name).0.status).agents
  {
  }

  /** The class and entry point fixed for each message type. */
  function Target(messageType: string): (t: Option<(string, Method)>)
    ensures messageType == "batch_validate" <==> t == Some(("DataValidationAgent", ProcessBatch))
    ensures messageType == "property_validate" <==> t == Some(("DataValidationAgent", ProcessMessage))
    ensures messageType == "property_value" <==> t == Some(("ValuationAgent", ProcessMessage))
    ensures messageType == "property_impact" <==> t == Some(("PropertyImpactAgent", ProcessMessage))
    ensures messageType == "user_query" <==> t == Some(("UserInteractionAgent", ProcessMessage))
    ensures t.None? <==>
              messageType !in {"property_validate", "property_value", "property_impact", "user_query", "batch_validate"}
  {
    match messageType
    case "property_validate" => Some(("DataValidationAgent", ProcessMessage))
    case "property_value" => Some(("ValuationAgent", ProcessMessage))
    case "property_impact" => Some(("PropertyImpactAgent", ProcessMessage))
    case "user_query" => Some(("UserInteractionAgent", ProcessMessage))
    case "batch_validate" => Some(("DataValidationAgent", ProcessBatch))
    case _ => None
  }

  /** The registered agent of a class answers a call, given the services. */
  function Invoke(svc: Services, className: string, a: Agent, entry: Method, m: Message): (r: Response)
    ensures className == "DataValidationAgent" && entry == ProcessMessage ==>
              r == Validation.ProcessMessage(m, svc.rules, svc.parsers)
    ensures className == "DataValidationAgent" && entry == ProcessBatch ==>
              r == Validation.ProcessBatch(m, svc.rules, svc.parsers)
    ensures className == "ValuationAgent" ==> r == FullValuation.ProcessValuation(m, svc.currentYear)
    ensures className == "UserInteractionAgent" ==> r == Interaction.ProcessInteraction(m, svc.ai, svc.show)
    ensures className !in {"DataValidationAgent", "ValuationAgent", "UserInteractionAgent"} ==>
              r == svc.external(a, entry, m)
  {
    match className
    case "DataValidationAgent" =>
      if entry == ProcessBatch then Validation.ProcessBatch(m, svc.rules, svc.parsers)
      else Validation.ProcessMessage(m, svc.rules, svc.parsers)
    case "ValuationAgent" => FullValuation.ProcessValuation(m, svc.currentYear)
    case "UserInteractionAgent" => Interaction.ProcessInteraction(m, svc.ai, svc.show)
    case _ => svc.external(a, entry, m)
  }

  /** `route_message`: the fixed agent answers when it is registered;
      an unknown type or a missing agent is a failure naming the type. */
  function Route(s: Registry, m: Message, svc: Services): (r: Response)
    ensures Target(GetType(m)).None? || Target(GetType(m)).value.0 !in s.agents
            ==> r == Fail("No agent available to handle message type: " + GetType(m))
    ensures Target(GetType(m)).Some? && Target(GetType(m)).value.0 in s.agents ==>
              r == Invoke(svc, Target(GetType(m)).value.0, s.agents[Target(GetType(m)).value.0],
                          Target(GetType(m)).value.1, m)
  {
    match Target(GetType(m))
    case None => Fail("No agent available to handle message type: " + GetType(m))
    case Some((cls, entry)) =>
      if cls in s.agents then Invoke(svc, cls, s.agents[cls], entry, m)
      else Fail("No agent available to handle message type: " + GetType(m))
  }

  /** Re-registering a class replaces its instance: the newer one
      answers. */
  lemma ReRegisterReplaces(s: Registry, older: Agent, newer: Agent, m: Message, svc: Services)
    requires older.className == newer.className
    requires Target(GetType(m)).Some? && Target(GetType(m)).value.0 == newer.className
    ensures Route(Register(Register(s, older).0, newer).0, m, svc)
            == Invoke(svc, newer.className, newer, Target(GetType(m)).value.1, m)
  {
  }

  /** Unregistering a class stops its messages: they now fail as
      unroutable (the live router, by contrast, keeps routing them). */
  lemma UnregisterStopsRoutes(s: Registry, m: Message, svc: Services)
    requires Target(GetType(m)).Some?
    ensures Route(Unregister(s, Target(GetType(m)).value.0).0, m, svc)
            == Fail("No agent available to handle message type: " + GetType(m))
  {
  }

  /** The live router's spellings of the validation and valuation types
      are unknown here. */
  lemma LiveSpellingsUnroutable(s: Registry, m: Message, svc: Services)
    requires GetType(m) in {"property_validation", "property_valuation"}
    ensures Route(s, m, svc) == Fail("No agent available to handle message type: " + GetType(m))
  {
  }

  /** `process_api_request` given how the message is built from the
      request body. */
  function ApiRequestWith(s: Registry, endpoint: string, build: string -> Message, svc: Services): (a: ApiResult)
    ensures Find(ExportEndpoints, endpoint).None? ==> a == ApiResult(false, None, Some("Unknown endpoint: " + endpoint))
    ensures Find(ExportEndpoints, endpoint).Some? ==>
              a == ApiResultOf(Route(s, build(Find(ExportEndpoints, endpoint).value), svc))
  {
    match Find(ExportEndpoints, endpoint)
    case None => ApiResult(false, None, Some("Unknown endpoint: " + endpoint))
    case Some(t) => ApiResultOf(Route(s, build(t), svc))
  }

  /** The endpoint table, entry by entry. */
  lemma ExportEndpointTypes()
    ensures Find(ExportEndpoints, "/api/mcp/property-validate") == Some("property_validate")
    ensures Find(ExportEndpoints, "/api/mcp/property-value") == Some("property_value")
    ensures Find(ExportEndpoints, "/api/mcp/property-impact") == Some("property_impact")
    ensures Find(ExportEndpoints, "/api/mcp/user-query") == Some("user_query")
    ensures Find(ExportEndpoints, "/api/mcp/batch-validate") == Some("batch_validate")
  {
  }

  /** `process_api_request` with its constructor call as written, the
      body becoming the sender, but with the `get_type` and `get_value`
      accessors supplied (Routing.RouteAsWritten shows what happens without
      them). */
  function ApiRequestAsWritten(s: Registry, endpoint: string, data: map<string, Value>, svc: Services): (a: ApiResult)
    ensures Find(ExportEndpoints, endpoint).None? ==> a == ApiResult(false, None, Some("Unknown endpoint: " + endpoint))
    ensures Find(ExportEndpoints, endpoint).Some? ==>
              a == ApiResultOf(Route(s, ApiMessageAsWritten(Find(ExportEndpoints, endpoint).value, data), svc))
  {
    ApiRequestWith(s, endpoint, t => ApiMessageAsWritten(t, data), svc)
  }

  /** With the accessors supplied, a registered valuation agent is asked
      with an empty message, so a valuation request built as written
      fails whatever its body. */
  lemma AsWrittenValueFails(s: Registry, data: map<string, Value>, svc: Services)
    requires "ValuationAgent" in s.agents
    ensures ApiRequestAsWritten(s, "/api/mcp/property-value", data, svc)
            == ApiResult(false, Some(Empty), Some("No property data provided for valuation"))
  {
    ExportEndpointTypes();
    var m := ApiMessageAsWritten("property_value", data);
    assert Route(s, m, svc) == FullValuation.ProcessValuation(m, svc.currentYear) by {
      assert Target(GetType(m)) == Some(("ValuationAgent", ProcessMessage));
    }
    assert !GetValue(m, "property_data").Truthy();
  }

  /** `process_api_request` exactly as written: the body becomes the
      sender, and routing the message then raises on the missing
      `get_type`, so every known endpoint answers with the routing error. */
  function ApiRequestUnpatched(endpoint: string, data: map<string, Value>): (a: ApiResult)
    ensures Find(ExportEndpoints, endpoint).None? ==> a == ApiResult(false, None, Some("Unknown endpoint: " + endpoint))
    ensures Find(ExportEndpoints, endpoint).Some? ==>
              a == ApiResult(false, Some(Empty), Some("Error routing message: " + AttributeError("MCPMessage", "get_type")))
  {
    match Find(ExportEndpoints, endpoint)
    case None => ApiResult(false, None, Some("Unknown endpoint: " + endpoint))
    case Some(t) => ApiResultOf(RouteAsWritten(ApiMessageAsWritten(t, data)))
  }

  /** `process_api_request` with the body passed as the payload. */
  function ApiRequest(s: Registry, endpoint: string, data: map<string, Value>, svc: Services): (a: ApiResult)
    ensures Find(ExportEndpoints, endpoint).None? ==> a == ApiResult(false, None, Some("Unknown endpoint: " + endpoint))
    ensures Find(ExportEndpoints, endpoint).Some? ==>
              a == ApiResultOf(Route(s, ApiMessage(Find(ExportEndpoints, endpoint).value, data), svc))
  {
    ApiRequestWith(s, endpoint, t => ApiMessage(t, data), svc)
  }

  /** With the body as payload, the registered valuation agent values the
      body's property data. */
  lemma ApiRequestReadsBody(s: Registry, data: map<string, Value>, svc: Services)
    requires "ValuationAgent" in s.agents
    ensures ApiRequest(s, "/api/mcp/property-value", data, svc)
            == ApiResultOf(FullValuation.ProcessValuation(ApiMessage("property_value", data), svc.currentYear))
  {
    ExportEndpointTypes();
    var m := ApiMessage("property_value", data);
    assert Target(GetType(m)) == Some(("ValuationAgent", ProcessMessage));
  }
}

=== FILE: full_valuation.dfy ===
/** The valuation agent of the exported application: the market, cost
    and income approaches (`market_approach`, `cost_approach`,
    `income_approach`) and their message handler. The current year, which
    the source fixes at 2025, is a parameter. A field of the wrong type
    makes Python raise inside the arithmetic; each approach returns that
    exception as a `Failure`, in the order the source would meet it. */
module FullValuation {
  import opened Wrappers
  import opened Values
  import opened Results
  import opened Envelope
  import opened Appraisal

  // ---------------------------------------------------------------------
  // Market approach

  const MarketLocationFactors: Table := [
    ("Kennewick", 1.02), ("Richland", 1.03), ("West Richland", 1.04),
    ("Prosser", 0.95), ("Benton City", 0.93)]

  /** Newer buildings are worth more: five age bands. */
  function AgeAdjustment(age: int): (a: real)
    ensures 0.9 <= a <= 1.1
    ensures age <= 5 ==> a == 1.1
    ensures age > 40 ==> a == 0.9
  {
    if age <= 5 then 1.10
    else if age <= 10 then 1.05
    else if age <= 20 then 1.0
    else if age <= 40 then 0.95
    else 0.90
  }

  lemma AgeAdjustmentNonIncreasing(older: int, newer: int)
    requires newer <= older
    ensures AgeAdjustment(newer) >= AgeAdjustment(older)
  {
  }

  /** Larger buildings are worth more: five area bands. */
  function SizeAdjustment(area: real): (a: real)
    ensures 0.95 <= a <= 1.05
    ensures area < 1000.0 ==> a == 0.95
    ensures area >= 3500.0 ==> a == 1.05
  {
    if area < 1000.0 then 0.95
    else if area < 1500.0 then 0.98
    else if area < 2500.0 then 1.0
    else if area < 3500.0 then 1.03
    else 1.05
  }

  lemma SizeAdjustmentNonDecreasing(smaller: real, larger: real)
    requires smaller <= larger
    ensures SizeAdjustment(smaller) <= SizeAdjustment(larger)
  {
  }

  /** The residential feature block for truthy bedrooms and bathrooms,
      including the comparisons that build its comparable: a premium for
      large homes, a smaller one for mid-size homes. Comparing a string
      with a number raises; which comparison meets it first depends on
      the bedroom count. */
  function FeatureAdjustment(bedrooms: Raw, bathrooms: Raw): (r: Result<real>)
    ensures r.Failure? <==> !bedrooms.IsNumber() || !bathrooms.IsNumber()
    ensures r.Success? ==> r.value == 1.0 || r.value == 1.04 || r.value == 1.08
    ensures r.Success? ==>
              (r.value == 1.08 <==> bedrooms.Num() >= 4.0 && bathrooms.Num() >= 2.5)
    ensures r.Success? ==>
              (r.value == 1.04 <==>
                 bedrooms.Num() >= 3.0 && bathrooms.Num() >= 2.0
                 && !(bedrooms.Num() >= 4.0 && bathrooms.Num() >= 2.5))
  {
    if !bedrooms.IsNumber() then Failure(CompareError(">=", bedrooms.TypeName(), "int"))
    else if bedrooms.Num() >= 4.0 then
      if !bathrooms.IsNumber() then Failure(CompareError(">=", bathrooms.TypeName(), "float"))
      else if bathrooms.Num() >= 2.5 then Success(1.08)
      else if bathrooms.Num() >= 2.0 then Success(1.04)
      else Success(1.0)
    else if bedrooms.Num() >= 3.0 then
      if !bathrooms.IsNumber() then Failure(CompareError(">=", bathrooms.TypeName(), "int"))
      else if bathrooms.Num() >= 2.0 then Success(1.04)
      else Success(1.0)
    else if !bathrooms.IsNumber() then Failure(CompareError(">", bathrooms.TypeName(), "float"))
    else Success(1.0)
  }

  /** The confidence of a market valuation from the quality weights of
      its comparables. */
  function MarketConfidence(weights: seq<real>): (c: real)
    requires |weights| > 0
    ensures 0.6 <= c <= 0.95
    ensures |weights| < 3 ==> c == 0.68
  {
    Clamp(if |weights| >= 3 then 0.85 * Mean(weights) else 0.85 * 0.8, 0.6, 0.95)
  }

  /** The comparables' weights all lie in [0.88, 0.95], so the clamp of
      the market confidence never binds. */
  lemma MarketConfidenceUnclamped(weights: seq<real>)
    requires |weights| >= 3
    requires forall i :: 0 <= i < |weights| ==> 0.88 <= weights[i] <= 0.95
    ensures MarketConfidence(weights) == 0.85 * Mean(weights)
    ensures 0.748 <= MarketConfidence(weights) <= 0.8075
  {
    MeanBounds(weights, 0.88, 0.95);
  }

  /** The inputs of the market approach, with the source's defaults. */
  function MarketBase(rec: Record): Raw { GetOr(rec, "assessed_value", Int(0)) }
  function ClassOf(rec: Record): Raw { GetOr(rec, "property_class", Str("Residential")) }
  function CityOf(rec: Record): Raw { GetOr(rec, "property_city", Str("Kennewick")) }

  /** Which optional blocks of the market approach run. */
  predicate AgeBlock(rec: Record) {
    Get(rec, "year_built").Truthy() && Get(rec, "year_built").Int?
  }

  predicate SizeBlock(rec: Record) {
    Get(rec, "building_area").IsNumber() && Get(rec, "building_area").Num() > 0.0
  }

  predicate FeatureBlock(rec: Record) {
    ClassOf(rec) == Str("Residential") && Get(rec, "bedrooms").Truthy() && Get(rec, "bathrooms").Truthy()
  }

  /** One comparable per block that ran, plus the nearest comparable. */
  function ComparableWeights(rec: Record): (weights: seq<real>)
    ensures 1 <= |weights| <= 4
    ensures forall i :: 0 <= i < |weights| ==> 0.88 <= weights[i] <= 0.95
  {
    (if AgeBlock(rec) then [0.92] else []) + (if SizeBlock(rec) then [0.9] else [])
    + (if FeatureBlock(rec) then [0.88] else []) + [0.95]
  }

  /** The exception `market_approach` raises, if any: multiplying a
      non-numeric assessed value happens in the age or size block when
      one runs, before the feature block's comparisons, and otherwise in
      the final product. */
  function MarketError(rec: Record): (e: Option<string>)
    ensures e.None? <==>
              MarketBase(rec).IsNumber()
              && (FeatureBlock(rec) ==> Get(rec, "bedrooms").IsNumber() && Get(rec, "bathrooms").IsNumber())
  {
    var base := MarketBase(rec);
    if (AgeBlock(rec) || SizeBlock(rec)) && !base.IsNumber() then Some(MulFloatError(base))
    else if FeatureBlock(rec) && FeatureAdjustment(Get(rec, "bedrooms"), Get(rec, "bathrooms")).Failure? then
      Some(FeatureAdjustment(Get(rec, "bedrooms"), Get(rec, "bathrooms")).error)
    else if !base.IsNumber() then Some(MulFloatError(base))
    else None
  }

  /** The five factors that scale the assessed value. */
  datatype MarketFactors = MarketFactors(multiplier: real, location: real, age: real, size: real, feature: real)
  {
    function Product(): real {
      multiplier * location * age * size * feature
    }
  }

  /** The factors of a record that raises nothing; a block that does not
      run contributes 1. */
  function FactorsOf(rec: Record, currentYear: int): (f: MarketFactors)
    requires MarketError(rec).None?
    ensures (forall i :: 0 <= i < |ClassMultipliers| ==> ClassOf(rec) != Str(ClassMultipliers[i].0))
            ==> f.multiplier == 1.0
    ensures (forall i :: 0 <= i < |MarketLocationFactors| ==> CityOf(rec) != Str(MarketLocationFactors[i].0))
            ==> f.location == 1.0
    ensures forall i :: 0 <= i < |ClassMultipliers| && ClassOf(rec) == Str(ClassMultipliers[i].0)
              ==> f.multiplier == ClassMultipliers[i].1
    ensures forall i :: 0 <= i < |MarketLocationFactors| && CityOf(rec) == Str(MarketLocationFactors[i].0)
              ==> f.location == MarketLocationFactors[i].1
    ensures AgeBlock(rec) ==> f.age == AgeAdjustment(currentYear - Get(rec, "year_built").i)
    ensures !AgeBlock(rec) ==> f.age == 1.0
    ensures SizeBlock(rec) ==> f.size == SizeAdjustment(Get(rec, "building_area").Num())
    ensures !SizeBlock(rec) ==> f.size == 1.0
    ensures FeatureBlock(rec) ==> f.feature == FeatureAdjustment(Get(rec, "bedrooms"), Get(rec, "bathrooms")).value
    ensures !FeatureBlock(rec) ==> f.feature == 1.0
  {
    LookupDistinct(ClassMultipliers, 1.0);
    LookupDistinct(MarketLocationFactors, 1.0);
    MarketFactors(
      Lookup(ClassMultipliers, ClassOf(rec), 1.0),
      Lookup(MarketLocationFactors, CityOf(rec), 1.0),
      if AgeBlock(rec) then AgeAdjustment(currentYear - Get(rec, "year_built").i) else 1.0,
      if SizeBlock(rec) then SizeAdjustment(Get(rec, "building_area").Num()) else 1.0,
      if FeatureBlock(rec) then FeatureAdjustment(Get(rec, "bedrooms"), Get(rec, "bathrooms")).value else 1.0)
  }

  /** A market valuation from its parts: the assessed value times the
      product of the factors. */
  function MarketOf(base: real, f: MarketFactors, cls: Raw, city: Raw, weights: seq<real>): (v: Valuation)
    requires |weights| > 0
    ensures v.Market? && v.baseValue == base
    ensures MarketFactors(v.marketMultiplier, v.locationMultiplier, v.ageAdjustment, v.sizeAdjustment,
                          v.featureAdjustment) == f
    ensures v.marketValue == base * f.Product()
    ensures v.comparableWeights == weights && v.confidence == MarketConfidence(weights)
  {
    Market(base * f.Product(), base, f.multiplier, f.location, f.age, f.size, f.feature, cls, city,
           weights, MarketConfidence(weights))
  }

  /** The market valuation of a record that raises nothing. */
  function MarketValuation(rec: Record, currentYear: int): (v: Valuation)
    requires MarketError(rec).None?
    ensures v.Market? && v.baseValue == MarketBase(rec).Num()
    ensures MarketFactors(v.marketMultiplier, v.locationMultiplier, v.ageAdjustment, v.sizeAdjustment,
                          v.featureAdjustment) == FactorsOf(rec, currentYear)
    ensures v == MarketOf(MarketBase(rec).Num(), FactorsOf(rec, currentYear), ClassOf(rec), CityOf(rec),
                          ComparableWeights(rec))
    ensures 0.6 <= v.confidence <= 0.95
    ensures |v.comparableWeights| < 3 ==> v.confidence == 0.68
  {
    MarketOf(MarketBase(rec).Num(), FactorsOf(rec, currentYear), ClassOf(rec), CityOf(rec), ComparableWeights(rec))
  }

  /** `market_approach`: the valuation, or the exception raised. */
  function MarketApproach(rec: Record, currentYear: int): (r: Result<Valuation>)
    ensures r.Failure? <==>
              !MarketBase(rec).IsNumber()
              || (FeatureBlock(rec) && !(Get(rec, "bedrooms").IsNumber() && Get(rec, "bathrooms").IsNumber()))
    ensures r.Success? ==> MarketError(rec).None? && r.value == MarketValuation(rec, currentYear)
  {
    match MarketError(rec)
    case Some(e) => Failure(e)
    case None => Success(MarketValuation(rec, currentYear))
  }

  /** Scaling the assessed value scales the market value by the same
      ratio. */
  lemma MarketOfProportional(b1: real, b2: real, f: MarketFactors, cls: Raw, city: Raw, weights: seq<real>)
    requires |weights| > 0
    ensures b2 * MarketOf(b1, f, cls, city, weights).marketValue == b1 * MarketOf(b2, f, cls, city, weights).marketValue
  {
    var p := f.Product();
    assert b2 * (b1 * p) == b1 * (b2 * p);
  }

  /** None of the factors reads the assessed value. */
  lemma FactorsIgnoreAssessedValue(rec: Record, currentYear: int, x: Raw)
    requires MarketError(rec).None? && x.IsNumber()
    ensures MarketError(rec["assessed_value" := x]).None?
    ensures FactorsOf(rec["assessed_value" := x], currentYear) == FactorsOf(rec, currentYear)
    ensures ComparableWeights(rec["assessed_value" := x]) == ComparableWeights(rec)
  {
    var r := rec["assessed_value" := x];
    assert ClassOf(r) == ClassOf(rec) && CityOf(r) == CityOf(rec);
    assert Get(r, "bedrooms") == Get(rec, "bedrooms") && Get(r, "bathrooms") == Get(rec, "bathrooms");
    assert Get(r, "year_built") == Get(rec, "year_built") && Get(r, "building_area") == Get(rec, "building_area");
  }

  /** Changing only the assessed value of a record keeps every factor,
      comparable and the confidence: the new valuation is the old one
      rebuilt on the new base, so by `MarketOfProportional` the market
      value scales with the assessed value. */
  lemma MarketRebasedValuation(rec: Record, currentYear: int, v1: real, v2: real)
    requires MarketApproach(rec["assessed_value" := Real(v1)], currentYear).Success?
    ensures MarketApproach(rec["assessed_value" := Real(v2)], currentYear).Success?
    ensures MarketApproach(rec["assessed_value" := Real(v1)], currentYear).value
            == MarketOf(v1, FactorsOf(rec["assessed_value" := Real(v1)], currentYear), ClassOf(rec), CityOf(rec),
                        ComparableWeights(rec["assessed_value" := Real(v1)]))
    ensures MarketApproach(rec["assessed_value" := Real(v2)], currentYear).value
            == MarketOf(v2, FactorsOf(rec["assessed_value" := Real(v1)], currentYear), ClassOf(rec), CityOf(rec),
                        ComparableWeights(rec["assessed_value" := Real(v1)]))
  {
    var r1 := rec["assessed_value" := Real(v1)];
    var r2 := r1["assessed_value" := Real(v2)];
    assert r2 == rec["assessed_value" := Real(v2)];
    FactorsIgnoreAssessedValue(r1, currentYear, Real(v2));
    assert MarketBase(r1) == Real(v1) && MarketBase(r2) == Real(v2);
    assert ClassOf(r2) == ClassOf(r1) == ClassOf(rec) && CityOf(r2) == CityOf(r1) == CityOf(rec);
  }

  // ---------------------------------------------------------------------
  // Cost approach

  const CostLandFactors: Table := [
    ("Kennewick", 12.0), ("Richland", 14.0), ("West Richland", 13.0),
    ("Prosser", 8.0), ("Benton City", 7.0)]

  function Min(a: real, b: real): real {
    if a <= b then a else b
  }

  /** The residential curve: 0.5% a year for seven years, 1% a year to
      year twenty, then 0.5% a year. */
  function ResidentialDepreciation(age: real): real {
    if age <= 7.0 then age * 0.005
    else if age <= 20.0 then 0.035 + (age - 7.0) * 0.01
    else 0.035 + 0.13 + (age - 20.0) * 0.005
  }

  /** The curve never falls and rises by at most 1% a year, so it has
      no jump where its bands meet at seven and twenty years. */
  lemma ResidentialDepreciationLipschitz(a: real, b: real)
    requires a <= b
    ensures 0.0 <= ResidentialDepreciation(b) - ResidentialDepreciation(a) <= (b - a) * 0.01
  {
  }

  /** The depreciation rate, capped at 70%; other classes lose 1.5% a
      year up to 60%. */
  function DepreciationRate(residential: bool, age: real): (rate: real)
    ensures rate <= 0.7
    ensures age >= 0.0 ==> 0.0 <= rate
    ensures !residential ==> rate <= 0.6
  {
    Min(0.7, if residential then ResidentialDepreciation(age) else Min(0.6, age * 0.015))
  }

  /** Older buildings never depreciate less. */
  lemma DepreciationNonDecreasing(residential: bool, newer: real, older: real)
    requires newer <= older
    ensures DepreciationRate(residential, newer) <= DepreciationRate(residential, older)
  {
  }

  /** The quality factor from the bathroom/bedroom ratio. */
  function QualityFactor(ratio: real, bedrooms: real): (q: real)
    ensures q == 0.95 || q == 1.0 || q == 1.08 || q == 1.15
    ensures q == 1.15 <==> ratio >= 1.0 && bedrooms >= 3.0
  {
    if ratio >= 1.0 && bedrooms >= 3.0 then 1.15
    else if ratio >= 0.75 && bedrooms >= 3.0 then 1.08
    else if ratio >= 0.5 then 1.0
    else 0.95
  }

  /** The residential quality block for truthy bedrooms and bathrooms; a
      non-positive bedroom count gives ratio 0 without reading the
      bathrooms. */
  function QualityBlock(bedrooms: Raw, bathrooms: Raw): (r: Result<real>)
    ensures r.Failure? <==> !bedrooms.IsNumber() || (bedrooms.Num() > 0.0 && !bathrooms.IsNumber())
    ensures r.Success? && bedrooms.Num() <= 0.0 ==> r.value == 0.95
    ensures r.Success? && bedrooms.Num() > 0.0 ==>
              r.value == QualityFactor(bathrooms.Num() / bedrooms.Num(), bedrooms.Num())
  {
    if !bedrooms.IsNumber() then Failure(CompareError(">", bedrooms.TypeName(), "int"))
    else if bedrooms.Num() > 0.0 then
      if !bathrooms.IsNumber() then Failure(OperandError("/", bathrooms.TypeName(), bedrooms.TypeName()))
      else Success(QualityFactor(bathrooms.Num() / bedrooms.Num(), bedrooms.Num()))
    else Success(QualityFactor(0.0, bedrooms.Num()))
  }

  function ReplacementCostPerSqft(cls: Raw, quality: real): real {
    if cls == Str("Residential") then 225.0 * quality
    else if cls == Str("Commercial") then 180.0
    else if cls == Str("Industrial") then 150.0
    else 100.0
  }

  function LandValuePerSqft(cls: Raw, city: Raw): real {
    var perSqft := Lookup(CostLandFactors, city, 10.0);
    if cls == Str("Commercial") then perSqft * 1.5
    else if cls == Str("Agricultural") then perSqft * 0.2
    else perSqft
  }

  /** Confidence from data completeness and from age. */
  function CostConfidence(area: Raw, land: Raw, yearBuilt: Raw, age: real): (c: real)
    ensures 0.6 <= c <= 0.9
    ensures area.Truthy() && land.Truthy() && yearBuilt.Truthy() && age < 20.0 ==> c == (0.9 + 0.85) / 2.0
  {
    var completeness :=
      if area.Truthy() && land.Truthy() && yearBuilt.Truthy() then 0.9
      else if area.Truthy() && yearBuilt.Truthy() then 0.75
      else 0.6;
    var ageScore := if age < 20.0 then 0.85 else if age < 40.0 then 0.75 else 0.65;
    Clamp((completeness + ageScore) / 2.0, 0.6, 0.9)
  }

  function YearBuiltOf(rec: Record): Raw { GetOr(rec, "year_built", Int(2000)) }
  function AreaOf(rec: Record): Raw { GetOr(rec, "building_area", Int(1500)) }
  function LandAreaOf(rec: Record): Raw { GetOr(rec, "land_area", Int(5000)) }

  predicate QualityBlockRuns(rec: Record) {
    ClassOf(rec) == Str("Residential") && Get(rec, "bedrooms").Truthy() && Get(rec, "bathrooms").Truthy()
  }

  /** The exception `cost_approach` raises, if any, in the order the
      source meets them: the age, the quality block's comparisons, then
      the two area products. */
  function CostError(rec: Record): (e: Option<string>)
    ensures e.None? <==>
              YearBuiltOf(rec).IsNumber()
              && (QualityBlockRuns(rec) ==> QualityBlock(Get(rec, "bedrooms"), Get(rec, "bathrooms")).Success?)
              && AreaOf(rec).IsNumber() && LandAreaOf(rec).IsNumber()
  {
    if !YearBuiltOf(rec).IsNumber() then Some(AgeError(YearBuiltOf(rec)))
    else if QualityBlockRuns(rec) && QualityBlock(Get(rec, "bedrooms"), Get(rec, "bathrooms")).Failure? then
      Some(QualityBlock(Get(rec, "bedrooms"), Get(rec, "bathrooms")).error)
    else if !AreaOf(rec).IsNumber() then Some(MulFloatError(AreaOf(rec)))
    else if !LandAreaOf(rec).IsNumber() then Some(MulFloatError(LandAreaOf(rec)))
    else None
  }

  /** A cost valuation from its parts: replacement cost less
      depreciation, less functional obsolescence for buildings over
      thirty years old, plus the land value. */
  function CostOf(age: real, rate: real, quality: real, area: real, land: real, costPerSqft: real,
                  landPerSqft: real, cls: Raw, city: Raw, confidence: real): (v: Valuation)
    ensures v.Cost? && v.buildingAge == age && v.depreciationRate == rate && v.qualityFactor == quality
    ensures v.buildingArea == area && v.landArea == land && v.confidence == confidence
    ensures v.replacementCostPerSqft == costPerSqft && v.landValuePerSqft == landPerSqft
    ensures v.replacementCost == area * costPerSqft
    ensures v.depreciatedCost == v.replacementCost * (1.0 - rate)
    ensures v.landValue == land * landPerSqft
    ensures age > 30.0 ==> v.functionalObsolescence == 0.05 * v.depreciatedCost
    ensures age <= 30.0 ==> v.functionalObsolescence == 0.0
    ensures v.externalObsolescence == 0.0
    ensures v.costValue == v.depreciatedCost - v.functionalObsolescence - v.externalObsolescence + v.landValue
  {
    var replacement := area * costPerSqft;
    var depreciated := replacement * (1.0 - rate);
    var functional := if age > 30.0 then depreciated * 0.05 else 0.0;
    Cost(depreciated - functional - 0.0 + land * landPerSqft, replacement, depreciated, land * landPerSqft,
         functional, 0.0, rate, age, area, land, quality, costPerSqft, landPerSqft, cls, city, confidence)
  }

  /** Depreciation never takes more than 70% and obsolescence at most
      5% of what is left, so the cost value keeps at least 28.5% of a
      non-negative replacement cost on top of the land value. */
  lemma CostValueKeepsResidual(age: real, rate: real, quality: real, area: real, land: real, costPerSqft: real,
                               landPerSqft: real, cls: Raw, city: Raw, confidence: real)
    requires rate <= 0.7 && area * costPerSqft >= 0.0
    ensures CostOf(age, rate, quality, area, land, costPerSqft, landPerSqft, cls, city, confidence).costValue
            >= land * landPerSqft + 0.95 * 0.3 * (area * costPerSqft)
  {
    var replacement := area * costPerSqft;
    assert replacement * (1.0 - rate) - replacement * 0.3 == replacement * (0.7 - rate);
    assert replacement * (0.7 - rate) >= 0.0;
  }

  /** The quality factor, 1 unless the residential quality block runs. */
  function QualityOf(rec: Record): (q: real)
    requires CostError(rec).None?
    ensures !QualityBlockRuns(rec) ==> q == 1.0
    ensures q == 0.95 || q == 1.0 || q == 1.08 || q == 1.15
  {
    if QualityBlockRuns(rec) then QualityBlock(Get(rec, "bedrooms"), Get(rec, "bathrooms")).value else 1.0
  }

  /** The cost valuation of a record that raises nothing. */
  function CostValuation(rec: Record, currentYear: int): (v: Valuation)
    requires CostError(rec).None?
    ensures v.Cost? && v.buildingAge + YearBuiltOf(rec).Num() == currentYear as real
    ensures v.depreciationRate == DepreciationRate(ClassOf(rec) == Str("Residential"), v.buildingAge)
    ensures v.depreciationRate <= 0.7
    ensures v.qualityFactor == QualityOf(rec)
    ensures v.replacementCostPerSqft == ReplacementCostPerSqft(ClassOf(rec), v.qualityFactor)
    ensures v.landValuePerSqft == LandValuePerSqft(ClassOf(rec), CityOf(rec))
    ensures v.buildingArea == AreaOf(rec).Num() && v.landArea == LandAreaOf(rec).Num()
    ensures 0.6 <= v.confidence <= 0.9
    ensures v == CostOf(v.buildingAge, v.depreciationRate, v.qualityFactor, v.buildingArea, v.landArea,
                        v.replacementCostPerSqft, v.landValuePerSqft, ClassOf(rec), CityOf(rec), v.confidence)
  {
    var age := Age(currentYear, YearBuiltOf(rec));
    var quality := QualityOf(rec);
    CostOf(age, DepreciationRate(ClassOf(rec) == Str("Residential"), age), quality, AreaOf(rec).Num(),
           LandAreaOf(rec).Num(), ReplacementCostPerSqft(ClassOf(rec), quality),
           LandValuePerSqft(ClassOf(rec), CityOf(rec)), ClassOf(rec), CityOf(rec),
           CostConfidence(AreaOf(rec), LandAreaOf(rec), YearBuiltOf(rec), age))
  }

  /** `cost_approach`: the valuation, or the exception raised. */
  function CostApproach(rec: Record, currentYear: int): (r: Result<Valuation>)
    ensures r.Failure? <==>
              !YearBuiltOf(rec).IsNumber()
              || (QualityBlockRuns(rec) && QualityBlock(Get(rec, "bedrooms"), Get(rec, "bathrooms")).Failure?)
              || !AreaOf(rec).IsNumber() || !LandAreaOf(rec).IsNumber()
    ensures r.Success? ==> CostError(rec).None? && r.value == CostValuation(rec, currentYear)
  {
    match CostError(rec)
    case Some(e) => Failure(e)
    case None => Success(CostValuation(rec, currentYear))
  }

  // ---------------------------------------------------------------------
  // Income approach

  const IncomeLocationFactors: Table := [
    ("Kennewick", 1.0), ("Richland", 1.05), ("West Richland", 1.02),
    ("Prosser", 0.85), ("Benton City", 0.8)]

  function IncomeAgeFactor(age: real): (f: real)
    ensures 0.8 <= f <= 1.1
  {
    if age < 5.0 then 1.1 else if age < 15.0 then 1.0 else if age < 30.0 then 0.9 else 0.8
  }

  /** The rent per square foot before location and age: a commercial
      bulk discount and small-space premium, an industrial bulk
      discount. Comparing a non-numeric area raises. */
  function BaseRentalRate(commercial: bool, area: Raw): (r: Result<real>)
    ensures r.Failure? <==> !area.IsNumber()
  {
    if !area.IsNumber() then Failure(CompareError(">", area.TypeName(), "int"))
    else if commercial then
      if area.Num() > 10000.0 then Success(18.0 * 0.85)
      else if area.Num() < 2000.0 then Success(18.0 * 1.1)
      else Success(18.0)
    else if area.Num() > 15000.0 then Success(12.0 * 0.8)
    else Success(12.0)
  }

  function VacancyRate(commercial: bool, locationFactor: real, area: real): (v: real)
    ensures 0.03 <= v <= 0.08
  {
    if commercial then
      if locationFactor < 0.9 then 0.08 else if locationFactor > 1.03 then 0.03 else 0.05
    else if area > 10000.0 then 0.07
    else 0.04
  }

  function ExpenseRatio(industrial: bool, age: real): (e: real)
    ensures 0.3 <= e <= 0.5
  {
    (if age > 30.0 then 0.35 + 0.1 else if age < 10.0 then 0.35 - 0.05 else 0.35)
    + (if industrial then 0.05 else 0.0)
  }

  function BaseCapRate(commercial: bool, locationFactor: real): (c: real)
    ensures 0.065 <= c <= 0.08
  {
    if commercial then
      if locationFactor > 1.03 then 0.065 else if locationFactor < 0.9 then 0.075 else 0.07
    else 0.08
  }

  function IncomeConfidence(area: Raw, yearBuilt: Raw, income: Raw, capRate: Raw): (c: real)
    ensures 0.6 <= c <= 0.9
    ensures income.Truthy() && capRate.Truthy() && area.Truthy() && yearBuilt.Truthy()
            ==> c == (0.85 + 0.9 + 0.9) / 3.0
  {
    var completeness := if area.Truthy() && yearBuilt.Truthy() then 0.85 else 0.7;
    var incomeScore := if income.Truthy() then 0.9 else 0.75;
    var capScore := if capRate.Truthy() then 0.9 else 0.8;
    Clamp((completeness + incomeScore + capScore) / 3.0, 0.6, 0.9)
  }

  predicate IncomeApplies(cls: Raw) {
    cls == Str("Commercial") || cls == Str("Industrial")
  }

  /** The exception `income_approach` raises for an applicable class, if
      any: the age, the area comparisons of the rental rate, the division
      of a non-numeric cap rate, then the product of a non-numeric income
      with the occupancy. */
  function IncomeError(rec: Record): (e: Option<string>)
    ensures e.None? <==>
              YearBuiltOf(rec).IsNumber() && AreaOf(rec).IsNumber()
              && (Get(rec, "cap_rate").Truthy() ==> Get(rec, "cap_rate").IsNumber())
              && (Get(rec, "annual_income").Truthy() ==> Get(rec, "annual_income").IsNumber())
  {
    var capOverride, incomeOverride := Get(rec, "cap_rate"), Get(rec, "annual_income");
    if !YearBuiltOf(rec).IsNumber() then Some(AgeError(YearBuiltOf(rec)))
    else if !AreaOf(rec).IsNumber() then Some(CompareError(">", AreaOf(rec).TypeName(), "int"))
    else if capOverride.Truthy() && !capOverride.IsNumber() then
      Some(OperandError("/", capOverride.TypeName(), "int"))
    else if incomeOverride.Truthy() && !incomeOverride.IsNumber() then Some(MulFloatError(incomeOverride))
    else None
  }

  /** An income valuation from its parts: the potential gross income less
      vacancy and expenses, capitalised at the cap rate. */
  function IncomeOf(gross: real, vacancy: real, expenses: real, capRate: real, area: real, rentalRate: real,
                    ageFactor: real, locationFactor: real, cls: Raw, city: Raw, age: real, confidence: real)
    : (v: Valuation)
    requires capRate != 0.0
    ensures v.Income? && v.potentialGrossIncome == gross && v.capRate == capRate
    ensures v.vacancyRate == vacancy && v.expenseRatio == expenses && v.confidence == confidence
    ensures v.buildingArea == area && v.rentalRatePerSqft == rentalRate && v.buildingAge == age
    ensures v.ageFactor == ageFactor && v.locationFactor == locationFactor
    ensures v.effectiveGrossIncome == gross * (1.0 - vacancy)
    ensures v.netOperatingIncome == v.effectiveGrossIncome * (1.0 - expenses)
    ensures v.incomeValue * capRate == v.netOperatingIncome
  {
    var effective := gross * (1.0 - vacancy);
    var net := effective * (1.0 - expenses);
    Income(net / capRate, gross, effective, net, vacancy, expenses, capRate, area, rentalRate,
           ageFactor, locationFactor, cls, city, age, confidence)
  }

  /** With positive gross income, a positive cap rate, and vacancy and
      expenses below 100%, the income value is positive. */
  lemma IncomeValuePositive(gross: real, vacancy: real, expenses: real, capRate: real, area: real,
                            rentalRate: real, ageFactor: real, locationFactor: real, cls: Raw, city: Raw,
                            age: real, confidence: real)
    requires gross > 0.0 && capRate > 0.0 && vacancy < 1.0 && expenses < 1.0
    ensures IncomeOf(gross, vacancy, expenses, capRate, area, rentalRate, ageFactor, locationFactor, cls, city,
                     age, confidence).incomeValue > 0.0
  {
    var v := IncomeOf(gross, vacancy, expenses, capRate, area, rentalRate, ageFactor, locationFactor, cls, city,
                      age, confidence);
    var occupied, kept := 1.0 - vacancy, 1.0 - expenses;
    assert occupied > 0.0 && kept > 0.0;
    var effective := gross * occupied;
    assert effective > 0.0;
    assert v.netOperatingIncome == effective * kept > 0.0;
  }

  /** The rent per square foot: the base rate adjusted for location and
      age. */
  function RentalRate(commercial: bool, area: Raw, locationFactor: real, ageFactor: real): (rate: real)
    requires area.IsNumber()
  {
    BaseRentalRate(commercial, area).value * locationFactor * ageFactor
  }

  /** The cap rate: a truthy override is a percentage. */
  function CapRateOf(rec: Record, commercial: bool, locationFactor: real): (c: real)
    requires IncomeError(rec).None?
    ensures c != 0.0
    ensures Get(rec, "cap_rate").Truthy() ==> c == Get(rec, "cap_rate").Num() / 100.0
    ensures !Get(rec, "cap_rate").Truthy() ==> 0.065 <= c <= 0.08
  {
    if Get(rec, "cap_rate").Truthy() then Get(rec, "cap_rate").Num() / 100.0
    else BaseCapRate(commercial, locationFactor)
  }

  /** The potential gross income: a truthy override replaces the area
      times the rent. */
  function GrossIncomeOf(rec: Record, rentalRate: real): (g: real)
    requires IncomeError(rec).None?
    ensures Get(rec, "annual_income").Truthy() ==> g == Get(rec, "annual_income").Num()
    ensures !Get(rec, "annual_income").Truthy() ==> g == AreaOf(rec).Num() * rentalRate
  {
    if Get(rec, "annual_income").Truthy() then Get(rec, "annual_income").Num()
    else AreaOf(rec).Num() * rentalRate
  }

  /** The income valuation of a commercial or industrial record that
      raises nothing. */
  function IncomeValuation(rec: Record, currentYear: int): (v: Valuation)
    requires IncomeApplies(ClassOf(rec)) && IncomeError(rec).None?
    ensures v.Income? && v.buildingAge + YearBuiltOf(rec).Num() == currentYear as real
    ensures v.ageFactor == IncomeAgeFactor(v.buildingAge)
    ensures v.locationFactor == Lookup(IncomeLocationFactors, CityOf(rec), 1.0)
    ensures v.rentalRatePerSqft == RentalRate(ClassOf(rec) == Str("Commercial"), AreaOf(rec), v.locationFactor, v.ageFactor)
    ensures v.vacancyRate == VacancyRate(ClassOf(rec) == Str("Commercial"), v.locationFactor, AreaOf(rec).Num())
    ensures v.expenseRatio == ExpenseRatio(ClassOf(rec) == Str("Industrial"), v.buildingAge)
    ensures v.capRate == CapRateOf(rec, ClassOf(rec) == Str("Commercial"), v.locationFactor)
    ensures v.potentialGrossIncome == GrossIncomeOf(rec, v.rentalRatePerSqft)
    ensures 0.6 <= v.confidence <= 0.9
    ensures v == IncomeOf(v.potentialGrossIncome, v.vacancyRate, v.expenseRatio, v.capRate, AreaOf(rec).Num(),
                          v.rentalRatePerSqft, v.ageFactor, v.locationFactor, ClassOf(rec), CityOf(rec),
                          v.buildingAge, v.confidence)
  {
    var commercial := ClassOf(rec) == Str("Commercial");
    var age := Age(currentYear, YearBuiltOf(rec));
    var ageFactor := IncomeAgeFactor(age);
    var locationFactor := Lookup(IncomeLocationFactors, CityOf(rec), 1.0);
    var rentalRate := RentalRate(commercial, AreaOf(rec), locationFactor, ageFactor);
    IncomeOf(GrossIncomeOf(rec, rentalRate), VacancyRate(commercial, locationFactor, AreaOf(rec).Num()),
             ExpenseRatio(!commercial, age), CapRateOf(rec, commercial, locationFactor), AreaOf(rec).Num(),
             rentalRate, ageFactor, locationFactor, ClassOf(rec), CityOf(rec), age,
             IncomeConfidence(AreaOf(rec), YearBuiltOf(rec), Get(rec, "annual_income"), Get(rec, "cap_rate")))
  }

  /** `income_approach`: not applicable outside commercial and industrial
      property, otherwise the valuation or the exception raised. */
  function IncomeApproach(rec: Record, currentYear: int): (r: Result<Valuation>)
    ensures !IncomeApplies(ClassOf(rec)) <==> r == Success(IncomeNotApplicable)
    ensures r.Failure? <==> IncomeApplies(ClassOf(rec)) && IncomeError(rec).Some?
    ensures r.Success? && IncomeApplies(ClassOf(rec)) ==> r.value == IncomeValuation(rec, currentYear)
  {
    if !IncomeApplies(ClassOf(rec)) then Success(IncomeNotApplicable)
    else match IncomeError(rec)
      case Some(e) => Failure(e)
      case None => Success(IncomeValuation(rec, currentYear))
  }

  // ---------------------------------------------------------------------
  // The handler

  /** The approach called `name`, as the `valuation_results` payload. */
  function Approach(name: string, rec: Record, currentYear: int): (r: Result<Data>)
    ensures r.Success? ==> r.value.Valued? && r.value.approach == name
  {
    var v :-
      if name == "market" then MarketApproach(rec, currentYear)
      else if name == "cost" then CostApproach(rec, currentYear)
      else IncomeApproach(rec, currentYear);
    Success(Valued(v, name))
  }

  /** `process_message` of the full valuation agent. */
  function ProcessValuation(m: Message, currentYear: int): (r: Response)
    ensures !GetValue(m, "property_data").Truthy() ==> r == Fail("No property data provided for valuation")
    ensures r.success ==> r.data.Valued? && r.data.approach in Approaches
                          && GetValue(m, "valuation_approach", Scalar(Str("market"))) == Scalar(Str(r.data.approach))
  {
    HandleValuation(m, (name, rec) => Approach(name, rec, currentYear))
  }

  /** An income request for a class the approach does not apply to still
      succeeds, with a confidence of zero. */
  lemma IncomeNotApplicableSucceeds(m: Message, currentYear: int)
    requires GetValue(m, "property_data").Rec? && GetValue(m, "property_data").Truthy()
    requires GetValue(m, "valuation_approach", Scalar(Str("market"))) == Scalar(Str("income"))
    requires !IncomeApplies(ClassOf(GetValue(m, "property_data").fields))
    ensures ProcessValuation(m, currentYear).success
    ensures ProcessValuation(m, currentYear).data == Valued(IncomeNotApplicable, "income")
    ensures ProcessValuation(m, currentYear).data.valuation.ConfidenceScore() == 0.0
  {
  }
}

=== FILE: helpers.dfy ===
/** The two pure helpers of utils/helpers.py that the rest of the code
    relies on (github_export/utils/helpers.py is the same file), and how
    the assessment-year helper agrees with the validators' year checks. */
module Helpers {
  import Values
  import Validation
  import LeanValidation

  /** `text[:n]` with Python's slice rules: a negative bound counts from
      the end, and bounds past either end are cut back. */
  function PrefixSlice(text: string, n: int): (t: string)
    ensures 0 <= n <= |text| ==> t == text[..n]
    ensures n > |text| ==> t == text
    ensures n < 0 ==> t == text[..if |text| + n < 0 then 0 else |text| + n]
  {
    if n >= 0 then (if n > |text| then text else text[..n])
    else if |text| + n < 0 then []
    else text[..|text| + n]
  }

  /** `truncate_text`: empty text stays empty; text that fits is returned
      as is; longer text is cut to `maxLength` and marked with "...". */
  function TruncateText(text: string, maxLength: int := 100): (t: string)
    ensures text == "" ==> t == ""
    ensures |text| <= maxLength ==> t == text
    ensures 0 <= maxLength < |text| ==> t == text[..maxLength] + "..." && |t| == maxLength + 3
    ensures |t| <= |text| + 3
  {
    if text == "" then ""
    else if |text| <= maxLength then text
    else PrefixSlice(text, maxLength) + "..."
  }

  /** Truncating with a non-negative limit keeps the text within the
      limit plus the marker, and a truncated text starts with the
      original's first `maxLength` characters. */
  lemma TruncatedKeepsPrefix(text: string, maxLength: nat)
    ensures |TruncateText(text, maxLength)| <= maxLength + 3
    ensures |text| > maxLength ==> TruncateText(text, maxLength)[..maxLength] == text[..maxLength]
  {
    if |text| > maxLength {
      var t := TruncateText(text, maxLength);
      assert t == text[..maxLength] + "...";
      assert t[..maxLength] == text[..maxLength];
    }
  }

  /** Truncation is idempotent for every text: a text that fits comes
      back unchanged, and a marked text is cut again at the same place,
      which gives back the same prefix and marker. */
  lemma TruncateFixedPoint(text: string, maxLength: int)
    requires maxLength >= 0
    ensures TruncateText(TruncateText(text, maxLength), maxLength) == TruncateText(text, maxLength)
  {
    if |text| > maxLength {
      assert TruncateText(text, maxLength)[..maxLength] == text[..maxLength];
    }
  }

  /** A negative limit still cuts from the end, so the result is shorter
      than `maxLength + 3` would suggest. */
  lemma NegativeLimitCutsFromEnd(text: string, maxLength: int)
    requires maxLength < 0 && |text| + maxLength >= 0 && text != ""
    ensures TruncateText(text, maxLength) == text[..|text| + maxLength] + "..."
  {
  }

  /** `is_valid_assessment_year`, with the current year as a parameter. */
  predicate IsValidAssessmentYear(year: int, currentYear: int) {
    2020 <= year <= currentYear + 1
  }

  /** The valid years are exactly 2020 through next year: none when the
      current year is before 2019. */
  lemma AssessmentYearRange(year: int, currentYear: int)
    ensures IsValidAssessmentYear(year, currentYear) ==> 2020 <= year && year <= currentYear + 1
    ensures currentYear + 1 < 2020 ==> !IsValidAssessmentYear(year, currentYear)
    ensures 2020 <= currentYear + 1 ==> IsValidAssessmentYear(currentYear + 1, currentYear)
  {
  }

  /** `is_valid_assessment_year` accepts exactly the integer years that
      both validators' year checks pass without an error. */
  lemma AssessmentYearMatchesValidators(year: int, rules: Validation.Rules, p: Values.Parsers)
    ensures IsValidAssessmentYear(year, rules.currentYear)
            <==> LeanValidation.LeanYearCheck(map["assessment_year" := Values.Int(year)], rules.currentYear).errors == []
    ensures IsValidAssessmentYear(year, rules.currentYear)
            <==> Validation.YearCheck(map["assessment_year" := Values.Int(year)], rules, p).errors == []
  {
    var rec := map["assessment_year" := Values.Int(year)];
    assert Values.Get(rec, "assessment_year") == Values.Int(year);
  }
}

=== FILE: interaction.dfy ===
/** The user-interaction agent (agents/user_interaction_agent.py): a
    keyword classifier picks one of five intents, four of which answer
    with a fixed reply and one of which asks the language model. The model
    call `get_ai_response(prompt, model)` is a parameter; its failure is a
    `Failure`. */
module Interaction {
  import opened Wrappers
  import opened Values
  import opened Results
  import opened Envelope

  datatype Intent = PropertySearch | ValuationRequest | DataValidation | HelpRequest | GeneralInquiry
  {
    function Name(): string {
      match this
      case PropertySearch => "property_search"
      case ValuationRequest => "valuation_request"
      case DataValidation => "data_validation"
      case HelpRequest => "help_request"
      case GeneralInquiry => "general_inquiry"
    }
  }

  const SearchKeywords: seq<string> := ["find", "search", "lookup", "locate", "get property"]
  const ValuationKeywords: seq<string> := ["value", "assess", "worth", "price", "appraise"]
  const ValidationKeywords: seq<string> := ["validate", "check", "verify", "review"]
  const HelpKeywords: seq<string> := ["help", "guide", "how to", "instructions", "explain"]

  /** `determine_intent`: the first keyword group found in the lowered
      query wins, in the order search, valuation, validation, help. */
  function DetermineIntent(query: string): (intent: Intent)
    ensures intent == PropertySearch <==> ContainsAny(Lower(query), SearchKeywords)
    ensures intent == ValuationRequest <==>
              !ContainsAny(Lower(query), SearchKeywords) && ContainsAny(Lower(query), ValuationKeywords)
    ensures intent == DataValidation <==>
              !ContainsAny(Lower(query), SearchKeywords) && !ContainsAny(Lower(query), ValuationKeywords)
              && ContainsAny(Lower(query), ValidationKeywords)
    ensures intent == HelpRequest <==>
              !ContainsAny(Lower(query), SearchKeywords) && !ContainsAny(Lower(query), ValuationKeywords)
              && !ContainsAny(Lower(query), ValidationKeywords) && ContainsAny(Lower(query), HelpKeywords)
  {
    var q := Lower(query);
    if ContainsAny(q, SearchKeywords) then PropertySearch
    else if ContainsAny(q, ValuationKeywords) then ValuationRequest
    else if ContainsAny(q, ValidationKeywords) then DataValidation
    else if ContainsAny(q, HelpKeywords) then HelpRequest
    else GeneralInquiry
  }

  /** The classifier ignores case: a query and its lowered form have the
      same intent. */
  lemma IntentIgnoresCase(query: string)
    ensures DetermineIntent(Lower(query)) == DetermineIntent(query)
  {
    LowerIdempotent(query);
  }

  /** `sub in s` carries over to any part of `sub`. */
  lemma ContainsPart(s: string, sub: string, from: nat, to: nat)
    requires Contains(s, sub) && from <= to <= |sub|
    ensures Contains(s, sub[from..to])
  {
    var i :| 0 <= i <= |s| && StartsWith(s[i..], sub);
    assert s[i..][..|sub|] == sub;
    var part := sub[from..to];
    assert s[i + from..][..|part|] == part by {
      assert forall k :: 0 <= k < |part| ==> s[i + from..][..|part|][k] == part[k];
    }
    assert StartsWith(s[i + from..], part);
  }

  /** A query that mentions "property search" is always classified as a
      search, so the help reply on property search is never given by
      `process_query`. */
  lemma PropertySearchHelpUnreachable(query: string)
    requires Contains(Lower(query), "property search")
    ensures DetermineIntent(query) == PropertySearch
  {
    ContainsPart(Lower(query), "property search", 9, 15);
    assert "property search"[9..15] == SearchKeywords[1];
  }

  /** A query that mentions both a search and a valuation keyword is a
      search: the earlier group wins. */
  lemma SearchOutranksValuation(query: string)
    requires ContainsAny(Lower(query), SearchKeywords) && ContainsAny(Lower(query), ValuationKeywords)
    ensures DetermineIntent(query) == PropertySearch
  {
  }

  // ---------------------------------------------------------------------
  // Replies

  /** The context as a dict; calling `get` on anything else raises. */
  function ContextRecord(context: Value): (r: Result<Record>)
    ensures r.Success? <==> context.Rec?
    ensures context.Rec? ==> r.value == context.fields
    ensures !context.Rec? ==> r == Failure(AttributeError(context.TypeName(), "get"))
  {
    if context.Rec? then Success(context.fields)
    else Failure(AttributeError(context.TypeName(), "get"))
  }

  /** The three fixed replies, each tagged with its own intent and a
      confidence of 0.85. */
  function HandleSearch(query: string, context: Value): (r: Result<Reply>)
    ensures r.Success? <==> context.Rec?
    ensures r.Success? ==> r.value.intent == "property_search" && r.value.confidence == 0.85
                           && r.value.details == SearchParameters(query, Get(context.fields, "address"),
                                                                  Get(context.fields, "parcel_id"))
  {
    var fields :- ContextRecord(context);
    Success(Reply("I'll search for properties based on: '" + query + "'", "property_search", 0.85,
                  SearchParameters(query, Get(fields, "address"), Get(fields, "parcel_id"))))
  }

  function HandleValuation(query: string, context: Value): (r: Result<Reply>)
    ensures r.Success? <==> context.Rec?
    ensures r.Success? ==> r.value.intent == "valuation_request" && r.value.confidence == 0.85
                           && r.value.details == ValuationParameters(query, Get(context.fields, "property_id"))
  {
    var fields :- ContextRecord(context);
    Success(Reply("I'll calculate the value for the property based on: '" + query + "'", "valuation_request",
                  0.85, ValuationParameters(query, Get(fields, "property_id"))))
  }

  function HandleValidation(query: string, context: Value): (r: Result<Reply>)
    ensures r.Success? <==> context.Rec?
    ensures r.Success? ==> r.value.intent == "data_validation" && r.value.confidence == 0.85
                           && r.value.details == ValidationParameters(query, Get(context.fields, "property_id"))
  {
    var fields :- ContextRecord(context);
    Success(Reply("I'll validate the property data for: '" + query + "'", "data_validation", 0.85,
                  ValidationParameters(query, Get(fields, "property_id"))))
  }

  /** The help topic: the first of the three topics named in the lowered
      query, else general. */
  function HelpTopicOf(query: string): (topic: string)
    ensures topic in ["property_search", "valuation", "validation", "general"]
    ensures topic == "property_search" <==> Contains(Lower(query), "property search")
    ensures topic == "general" <==>
              !Contains(Lower(query), "property search") && !Contains(Lower(query), "valuation")
              && !Contains(Lower(query), "validation")
  {
    var q := Lower(query);
    if Contains(q, "property search") then "property_search"
    else if Contains(q, "valuation") then "valuation"
    else if Contains(q, "validation") then "validation"
    else "general"
  }

  function HelpText(topic: string): string {
    if topic == "property_search" then
      "To search for a property, you can ask me things like: 'Find property at 123 Main St' or 'Search for parcel ID 12345678-123'."
    else if topic == "valuation" then
      "To get a property valuation, you can ask me things like: 'What is the value of 123 Main St?' or 'Calculate value for parcel 12345678-123 using the income approach'."
    else if topic == "validation" then
      "To validate property data, you can ask me things like: 'Validate data for 123 Main St' or 'Check if parcel 12345678-123 meets standards'."
    else
      "I can help you with property searches, valuations, and data validation. Just ask me what you need!"
  }

  /** `handle_help_request`: always a help reply with confidence 0.9. */
  function HandleHelp(query: string): (r: Reply)
    ensures r.intent == "help_request" && r.confidence == 0.9
    ensures r.details == HelpTopic(HelpTopicOf(query))
  {
    var topic := HelpTopicOf(query);
    Reply(HelpText(topic), "help_request", 0.9, HelpTopic(topic))
  }

  // ---------------------------------------------------------------------
  // The language-model path

  /** `get_ai_response(prompt, model)`: the text, or the exception raised. */
  type LanguageModel = (string, Option<string>) -> Result<string>

  const AgentSystemPrompt: string :=
    "\n            You are an AI assistant for the Benton County Assessor's Office in Washington State. "
    + "\n            You help assessor staff with property assessments, valuations, and Washington State "
    + "\n            property tax regulations. Answer questions concisely and accurately, focusing on "
    + "\n            Benton County and Washington State property assessment practices. If you don't know "
    + "\n            the answer, say so and suggest how the user might find the information.\n            "

  const AiTroubleText: string :=
    "I'm sorry, but I'm having trouble generating a response right now. Please try again later."

  /** The query, with the context appended when it is truthy; `show` is
      `str(context)`. */
  function UserMessage(query: string, context: Value, show: Value -> string): (msg: string)
    ensures StartsWith(msg, query)
    ensures !context.Truthy() ==> msg == query
  {
    var msg := if context.Truthy() then query + "\n\nContext: " + show(context) else query;
    assert msg[..|query|] == query;
    msg
  }

  /** The arguments of the model call as written: the agent's system
      prompt goes in the prompt position and the user's message in the
      `model` position. */
  function AiCallAsWritten(query: string, context: Value, show: Value -> string): (call: (string, Option<string>))
    ensures call.0 == AgentSystemPrompt
    ensures call.1 == Some(UserMessage(query, context, show))
  {
    (AgentSystemPrompt, Some(UserMessage(query, context, show)))
  }

  /** As written, the prompt the model receives is the same whatever the
      user asked. */
  lemma AsWrittenPromptIgnoresQuery(q1: string, q2: string, c1: Value, c2: Value, show: Value -> string)
    requires q1 != q2
    ensures AiCallAsWritten(q1, c1, show).0 == AiCallAsWritten(q2, c2, show).0
    ensures AiCallAsWritten(q1, c1, show).1 != AiCallAsWritten(q2, c2, show).1 || c1 != c2
  {
    if c1 == c2 && !c1.Truthy() {
      assert UserMessage(q1, c1, show) == q1;
    }
  }

  /** The intended call: the user's message, after the agent's
      instructions, is the prompt, and the configured model is used. */
  function AiCall(query: string, context: Value, show: Value -> string): (call: (string, Option<string>))
    ensures call.1.None?
    ensures Contains(call.0, query)
    ensures StartsWith(call.0, AgentSystemPrompt)
  {
    var prompt := AgentSystemPrompt + UserMessage(query, context, show);
    assert prompt[..|AgentSystemPrompt|] == AgentSystemPrompt;
    var msg := UserMessage(query, context, show);
    assert prompt[|AgentSystemPrompt|..] == msg;
    assert StartsWith(prompt[|AgentSystemPrompt|..], query);
    (prompt, None)
  }

  /** Different questions reach the model as different prompts. */
  lemma PromptCarriesQuery(q1: string, q2: string, context: Value, show: Value -> string)
    requires !context.Truthy() && q1 != q2
    ensures AiCall(q1, context, show).0 != AiCall(q2, context, show).0
  {
    var p1, p2 := AiCall(q1, context, show).0, AiCall(q2, context, show).0;
    assert p1[|AgentSystemPrompt|..] == q1;
    assert p2[|AgentSystemPrompt|..] == q2;
  }

  /** `get_ai_assisted_response` over a given call: the model's text as a
      general inquiry, or the apology when the call raises. */
  function AiReply(call: (string, Option<string>), ai: LanguageModel): (r: Reply)
    ensures ai(call.0, call.1).Success? ==>
              r == Reply(ai(call.0, call.1).value, "general_inquiry", 0.7, AiGenerated)
    ensures ai(call.0, call.1).Failure? ==> r == Reply(AiTroubleText, "error", 0.0, NoDetails)
  {
    match ai(call.0, call.1)
    case Success(text) => Reply(text, "general_inquiry", 0.7, AiGenerated)
    case Failure(_) => Reply(AiTroubleText, "error", 0.0, NoDetails)
  }

  // ---------------------------------------------------------------------
  // Dispatch

  /** The reply to an exception inside `process_query`. */
  function QueryError(text: string): (r: Reply)
    ensures r.intent == "error" && r.confidence == 0.0
  {
    Reply("I'm sorry, but I encountered an error while processing your query: " + text, "error", 0.0, NoDetails)
  }

  /** The arguments a general inquiry passes to the model. */
  type ModelCall = (string, Value, Value -> string) -> (string, Option<string>)

  /** `process_query` over the call a general inquiry makes: classify,
      then dispatch to the intent's handler; a query that is not a string
      cannot be lowered. */
  function AnswerQuery(query: Value, context: Value, ai: LanguageModel, show: Value -> string, call: ModelCall): (r: Reply)
    ensures !(query.Scalar? && query.raw.Str?) ==> r == QueryError(AttributeError(query.TypeName(), "lower"))
    ensures query.Scalar? && query.raw.Str? && DetermineIntent(query.raw.s) == HelpRequest
            ==> r == HandleHelp(query.raw.s)
    ensures query.Scalar? && query.raw.Str? && DetermineIntent(query.raw.s) == GeneralInquiry
            ==> r == AiReply(call(query.raw.s, context, show), ai)
    ensures query.Scalar? && query.raw.Str? && DetermineIntent(query.raw.s) !in {HelpRequest, GeneralInquiry}
            ==> (r.intent == DetermineIntent(query.raw.s).Name() && r.confidence == 0.85 <==> context.Rec?)
    ensures r.intent in ["property_search", "valuation_request", "data_validation", "help_request",
                         "general_inquiry", "error"]
  {
    if !(query.Scalar? && query.raw.Str?) then QueryError(AttributeError(query.TypeName(), "lower"))
    else
      var q := query.raw.s;
      var handled :=
        match DetermineIntent(q)
        case PropertySearch => HandleSearch(q, context)
        case ValuationRequest => HandleValuation(q, context)
        case DataValidation => HandleValidation(q, context)
        case HelpRequest => Success(HandleHelp(q))
        case GeneralInquiry => Success(AiReply(call(q, context, show), ai));
      match handled
      case Success(reply) => reply
      case Failure(e) => QueryError(e)
  }

  /** `process_query` as written: a general inquiry sends the system
      prompt as the prompt and the user's message as the model name. */
  function ProcessQueryAsWritten(query: Value, context: Value, ai: LanguageModel, show: Value -> string): (r: Reply)
    ensures query.Scalar? && query.raw.Str? && DetermineIntent(query.raw.s) == GeneralInquiry
            ==> r == AiReply((AgentSystemPrompt, Some(UserMessage(query.raw.s, context, show))), ai)
    ensures !(query.Scalar? && query.raw.Str? && DetermineIntent(query.raw.s) == GeneralInquiry)
            ==> r == AnswerQuery(query, context, ai, show, AiCall)
  {
    AnswerQuery(query, context, ai, show, AiCallAsWritten)
  }

  /** As written, a service that accepts no user message as a model name
      answers every general inquiry with the apology. */
  lemma AsWrittenInquiryApologises(query: Value, context: Value, ai: LanguageModel, show: Value -> string)
    requires query.Scalar? && query.raw.Str? && DetermineIntent(query.raw.s) == GeneralInquiry
    requires forall prompt: string :: ai(prompt, Some(UserMessage(query.raw.s, context, show))).Failure?
    ensures ProcessQueryAsWritten(query, context, ai, show).intent == "error"
    ensures ProcessQueryAsWritten(query, context, ai, show) == Reply(AiTroubleText, "error", 0.0, NoDetails)
  {
    assert ai(AgentSystemPrompt, Some(UserMessage(query.raw.s, context, show))).Failure?;
  }

  /** `process_query` with the intended model call, which the rest of the
      model uses. */
  function ProcessQuery(query: Value, context: Value, ai: LanguageModel, show: Value -> string): (r: Reply)
    ensures !(query.Scalar? && query.raw.Str?) ==> r == QueryError(AttributeError(query.TypeName(), "lower"))
    ensures query.Scalar? && query.raw.Str? && DetermineIntent(query.raw.s) == HelpRequest
            ==> r == HandleHelp(query.raw.s)
    ensures query.Scalar? && query.raw.Str? && DetermineIntent(query.raw.s) == GeneralInquiry
            ==> r == AiReply(AiCall(query.raw.s, context, show), ai)
    ensures query.Scalar? && query.raw.Str? && DetermineIntent(query.raw.s) !in {HelpRequest, GeneralInquiry}
            ==> (r.intent == DetermineIntent(query.raw.s).Name() && r.confidence == 0.85 <==> context.Rec?)
    ensures r.intent in ["property_search", "valuation_request", "data_validation", "help_request",
                         "general_inquiry", "error"]
  {
    AnswerQuery(query, context, ai, show, AiCall)
  }

  /** The written and the intended handler differ only on general
      inquiries. */
  lemma AsWrittenDiffersOnlyOnInquiries(query: Value, context: Value, ai: LanguageModel, show: Value -> string)
    requires !(query.Scalar? && query.raw.Str? && DetermineIntent(query.raw.s) == GeneralInquiry)
    ensures ProcessQueryAsWritten(query, context, ai, show) == ProcessQuery(query, context, ai, show)
  {
  }

  /** Only a general inquiry reaches the language model: for every other
      query the reply is the same whatever the model does. */
  lemma OnlyGeneralInquiryAsksModel(query: Value, context: Value, ai1: LanguageModel, ai2: LanguageModel,
                                    show: Value -> string)
    requires query.Scalar? && query.raw.Str? && DetermineIntent(query.raw.s) != GeneralInquiry
    ensures ProcessQuery(query, context, ai1, show) == ProcessQuery(query, context, ai2, show)
  {
  }

  /** `process_message` over a query handler: a falsy query fails;
      anything else is answered, since `process_query` turns every
      exception into a reply. */
  function RespondTo(m: Message, answer: (Value, Value) -> Reply): (r: Response)
    ensures !GetValue(m, "query").Truthy() <==> r == Fail("No query provided")
    ensures r.success <==> GetValue(m, "query").Truthy()
    ensures r.success ==>
              r.data == Answered(answer(GetValue(m, "query"), GetValue(m, "context", Rec(map[]))))
              && r.error.None?
  {
    var query := GetValue(m, "query");
    if !query.Truthy() then Fail("No query provided")
    else NewResponse(true, Some(Answered(answer(query, GetValue(m, "context", Rec(map[]))))))
  }

  /** `process_message` as written. */
  function ProcessInteractionAsWritten(m: Message, ai: LanguageModel, show: Value -> string): (r: Response)
    ensures r.success <==> GetValue(m, "query").Truthy()
    ensures r.success ==>
              r.data == Answered(ProcessQueryAsWritten(GetValue(m, "query"), GetValue(m, "context", Rec(map[])), ai, show))
  {
    RespondTo(m, (q, c) => ProcessQueryAsWritten(q, c, ai, show))
  }

  /** `process_message` with the intended model call. */
  function ProcessInteraction(m: Message, ai: LanguageModel, show: Value -> string): (r: Response)
    ensures !GetValue(m, "query").Truthy() <==> r == Fail("No query provided")
    ensures r.success <==> GetValue(m, "query").Truthy()
    ensures r.success ==>
              r.data == Answered(ProcessQuery(GetValue(m, "query"), GetValue(m, "context", Rec(map[])), ai, show))
              && r.error.None?
  {
    RespondTo(m, (q, c) => ProcessQuery(q, c, ai, show))
  }
}

=== FILE: lean_validation.dfy ===
/** The simplified data-validation agent that the top-level application
    registers (`agents/data_validation_agent.py`): six checks over five
    required fields, errors and warnings only, no string-to-number
    coercion. Its message handlers are the shared ones of `Diagnostics`. */
module LeanValidation {
  import opened Wrappers
  import opened Values
  import opened Results
  import opened Envelope
  import opened Patterns
  import opened Diagnostics
  import opened Validation

  /** The position, in the run, of the check that emits each finding
      (6 for findings this validator never emits). */
  function LeanOrigin(f: Finding): nat {
    match f
    case ParcelRequired | ParcelFormat => 0
    case AddressRequired | AddressNotInState => 1
    case YearRequired | YearNotInteger | YearOutOfRange(_) => 2
    case AssessedRequired | AssessedNotNumber | AssessedBelowMin(_) | AssessedAboveMax(_) => 3
    case ClassRequired | ClassInvalid(_) => 4
    case MissingFields(_) => 5
    case _ => 6
  }

  /** Parcel ID: required, then the default pattern; a truthy non-string
      makes `re.match` raise. */
  function LeanParcelCheck(rec: Record): (r: Result<Diag>)
    ensures r.Failure? <==> TruthyNonString(Get(rec, "parcel_id"))
    ensures r.Success? ==> r.value.warnings == [] && r.value.info == []
    ensures r.Success? ==> (r.value.errors == [ParcelRequired] <==> !Get(rec, "parcel_id").Truthy())
    ensures r.Success? ==> (r.value.errors == [ParcelFormat] <==>
                              Get(rec, "parcel_id").Str? && Get(rec, "parcel_id").s != ""
                              && !ParcelPattern(Get(rec, "parcel_id").s))
    ensures r.Success? ==> |r.value.errors| <= 1
  {
    var parcelId := Get(rec, "parcel_id");
    if !parcelId.Truthy() then Success(Error(ParcelRequired))
    else if !parcelId.Str? then Failure(ReTypeError(parcelId))
    else if !ParcelPattern(parcelId.s) then Success(Error(ParcelFormat))
    else Success(Clean)
  }

  /** `address.endswith(('WA', 'Washington'))` */
  predicate InState(address: string) {
    EndsWith(address, "WA") || EndsWith(address, "Washington")
  }

  /** Address: required; an address outside Washington only warns; a
      truthy non-string has no `endswith` and raises. */
  function LeanAddressCheck(rec: Record): (r: Result<Diag>)
    ensures r.Failure? <==> TruthyNonString(Get(rec, "property_address"))
    ensures r.Success? ==> r.value.info == []
    ensures r.Success? ==> (r.value.errors != [] <==> !Get(rec, "property_address").Truthy())
    ensures r.Success? ==>
              (r.value.warnings != [] <==>
                 Get(rec, "property_address").Str? && Get(rec, "property_address").s != ""
                 && !InState(Get(rec, "property_address").s))
    ensures r.Success? ==> r.value.errors == [] || r.value.errors == [AddressRequired]
    ensures r.Success? ==> r.value.warnings == [] || r.value.warnings == [AddressNotInState]
  {
    var address := Get(rec, "property_address");
    if !address.Truthy() then Success(Error(AddressRequired))
    else if !address.Str? then Failure(AttributeError(address.TypeName(), "endswith"))
    else if !InState(address.s) then Success(Warning(AddressNotInState))
    else Success(Clean)
  }

  /** Assessment year: a truthy `int` inside [2020, currentYear + 1];
      other types are rejected without conversion, and a year in the past
      draws no warning. */
  function LeanYearCheck(rec: Record, currentYear: int): (d: Diag)
    ensures d.warnings == [] && d.info == [] && |d.errors| <= 1
    ensures d.errors == [] <==>
              Get(rec, "assessment_year").Int? && 2020 <= Get(rec, "assessment_year").i <= currentYear + 1
    ensures d.errors == [YearNotInteger] <==>
              Get(rec, "assessment_year").Truthy() && !Get(rec, "assessment_year").Int?
    ensures d.errors == [YearOutOfRange(currentYear + 1)] <==>
              Get(rec, "assessment_year").Int? && Get(rec, "assessment_year").i != 0
              && !(2020 <= Get(rec, "assessment_year").i <= currentYear + 1)
  {
    var year := Get(rec, "assessment_year");
    if !year.Truthy() then Error(YearRequired)
    else if !year.Int? then Error(YearNotInteger)
    else if year.i < 2020 || year.i > currentYear + 1 then Error(YearOutOfRange(currentYear + 1))
    else Clean
  }

  /** Assessed value: at most one error, in the order required, not a
      number, below the minimum, above the maximum. */
  function LeanAssessedCheck(rec: Record, rules: Rules): (d: Diag)
    ensures d.warnings == [] && d.info == [] && |d.errors| <= 1
    ensures d.errors == [] <==>
              Get(rec, "assessed_value").IsNumber()
              && rules.minValue <= Get(rec, "assessed_value").Num() <= rules.maxValue
    ensures d.errors == [AssessedRequired] <==> Get(rec, "assessed_value").Null?
    ensures d.errors == [AssessedNotNumber] <==> Get(rec, "assessed_value").Str?
  {
    var assessed := Get(rec, "assessed_value");
    if assessed.Null? then Error(AssessedRequired)
    else if !assessed.IsNumber() then Error(AssessedNotNumber)
    else if assessed.Num() < rules.minValue then Error(AssessedBelowMin(rules.minValue))
    else if assessed.Num() > rules.maxValue then Error(AssessedAboveMax(rules.maxValue))
    else Clean
  }

  /** Property class: required, and one of the configured class names. */
  function LeanClassCheck(rec: Record, rules: Rules): (d: Diag)
    ensures d.warnings == [] && d.info == [] && |d.errors| <= 1
    ensures d.errors == [] <==>
              Get(rec, "property_class").Truthy() && KnownClass(rules.classes, Get(rec, "property_class"))
    ensures d.errors == [ClassInvalid(ClassNames(rules.classes))] <==>
              Get(rec, "property_class").Truthy() && !KnownClass(rules.classes, Get(rec, "property_class"))
  {
    var cls := Get(rec, "property_class");
    if !cls.Truthy() then Error(ClassRequired)
    else if !KnownClass(rules.classes, cls) then Error(ClassInvalid(ClassNames(rules.classes)))
    else Clean
  }

  const LeanRequired: seq<string> :=
    ["parcel_id", "property_address", "assessment_year", "assessed_value", "property_class"]

  /** When `validate_property_data` raises: a truthy parcel ID or address
      that is not a string. */
  predicate LeanRaises(rec: Record) {
    TruthyNonString(Get(rec, "parcel_id")) || TruthyNonString(Get(rec, "property_address"))
  }

  /** The six contributions, in source order; `Failure` when one raises. */
  function LeanChecks(rec: Record, rules: Rules): (r: Result<seq<Diag>>)
    ensures r.Failure? <==> LeanRaises(rec)
    ensures r.Success? ==> |r.value| == 6
  {
    var parcel :- LeanParcelCheck(rec);
    var address :- LeanAddressCheck(rec);
    Success([parcel, address, LeanYearCheck(rec, rules.currentYear), LeanAssessedCheck(rec, rules),
             LeanClassCheck(rec, rules), CompletenessOf(rec, LeanRequired)])
  }

  lemma LeanChecksParts(rec: Record, rules: Rules)
    requires LeanChecks(rec, rules).Success?
    ensures LeanParcelCheck(rec).Success? && LeanAddressCheck(rec).Success?
    ensures LeanChecks(rec, rules).value
         == [LeanParcelCheck(rec).value, LeanAddressCheck(rec).value,
             LeanYearCheck(rec, rules.currentYear), LeanAssessedCheck(rec, rules),
             LeanClassCheck(rec, rules), CompletenessOf(rec, LeanRequired)]
  {
  }

  // Each check emits only its own findings.

  lemma LeanParcelOwned(rec: Record)
    requires LeanParcelCheck(rec).Success?
    ensures Owned(LeanParcelCheck(rec).value, LeanOrigin, 0)
  {
  }

  lemma LeanAddressOwned(rec: Record)
    requires LeanAddressCheck(rec).Success?
    ensures Owned(LeanAddressCheck(rec).value, LeanOrigin, 1)
  {
  }

  lemma LeanYearOwned(rec: Record, currentYear: int)
    ensures Owned(LeanYearCheck(rec, currentYear), LeanOrigin, 2)
  {
  }

  lemma LeanAssessedOwned(rec: Record, rules: Rules)
    ensures Owned(LeanAssessedCheck(rec, rules), LeanOrigin, 3)
  {
  }

  lemma LeanClassOwned(rec: Record, rules: Rules)
    ensures Owned(LeanClassCheck(rec, rules), LeanOrigin, 4)
  {
  }

  lemma LeanCompletenessOwned(rec: Record)
    ensures Owned(CompletenessOf(rec, LeanRequired), LeanOrigin, 5)
  {
    CompletenessOwnedBy(rec, LeanRequired, LeanOrigin, 5);
  }

  lemma LeanChecksOwnTheirFindings(rec: Record, rules: Rules)
    requires LeanChecks(rec, rules).Success?
    ensures forall k :: 0 <= k < 6 ==> Owned(LeanChecks(rec, rules).value[k], LeanOrigin, k)
  {
    LeanChecksParts(rec, rules);
    LeanParcelOwned(rec);
    LeanAddressOwned(rec);
    LeanYearOwned(rec, rules.currentYear);
    LeanAssessedOwned(rec, rules);
    LeanClassOwned(rec, rules);
    LeanCompletenessOwned(rec);
    OwnedInOrder(LeanParcelCheck(rec).value, LeanAddressCheck(rec).value, LeanYearCheck(rec, rules.currentYear),
                 LeanAssessedCheck(rec, rules), LeanClassCheck(rec, rules), CompletenessOf(rec, LeanRequired),
                 LeanOrigin, 0);
  }

  lemma LeanChecksGiveNoInfo(rec: Record, rules: Rules)
    requires LeanChecks(rec, rules).Success?
    ensures forall k :: 0 <= k < 6 ==> LeanChecks(rec, rules).value[k].info == []
  {
    LeanChecksParts(rec, rules);
    NoInfoInOrder(LeanParcelCheck(rec).value, LeanAddressCheck(rec).value, LeanYearCheck(rec, rules.currentYear),
                  LeanAssessedCheck(rec, rules), LeanClassCheck(rec, rules), CompletenessOf(rec, LeanRequired));
  }

  /** The check each finding the reporting lemmas mention belongs to. */
  lemma LeanOrigins(limit: int, valid: seq<string>, names: seq<string>)
    ensures LeanOrigin(ParcelRequired) == 0 && LeanOrigin(ParcelFormat) == 0
    ensures LeanOrigin(AddressNotInState) == 1
    ensures LeanOrigin(YearOutOfRange(limit)) == 2 && LeanOrigin(YearNotInteger) == 2
    ensures LeanOrigin(ClassInvalid(valid)) == 4
    ensures LeanOrigin(MissingFields(names)) == 5
    ensures forall y :: LeanOrigin(YearInPast(y)) == 6
  {
  }

  /** `validate_property_data` of the simplified agent. */
  function LeanValidate(rec: Record, rules: Rules): (r: Result<ValidationResult>)
    ensures r.Failure? <==> LeanRaises(rec)
    ensures r.Success? ==> (r.value.hasErrors <==> |r.value.errors| > 0)
    ensures r.Success? ==> (r.value.hasWarnings <==> |r.value.warnings| > 0)
  {
    var parts :- LeanChecks(rec, rules);
    Success(Summarize(Combine(parts)))
  }

  /** A finding is in the result exactly when its own check produced it;
      findings of the full validator's other checks never appear. */
  lemma LeanFindingsComeFromTheirCheck(rec: Record, rules: Rules, f: Finding)
    requires LeanValidate(rec, rules).Success?
    ensures LeanOrigin(f) < 6 ==>
              (f in LeanValidate(rec, rules).value.errors <==> f in LeanChecks(rec, rules).value[LeanOrigin(f)].errors)
              && (f in LeanValidate(rec, rules).value.warnings
                  <==> f in LeanChecks(rec, rules).value[LeanOrigin(f)].warnings)
    ensures LeanOrigin(f) == 6 ==>
              f !in LeanValidate(rec, rules).value.errors && f !in LeanValidate(rec, rules).value.warnings
    ensures f !in LeanValidate(rec, rules).value.info
  {
    var parts := LeanChecks(rec, rules).value;
    LeanChecksOwnTheirFindings(rec, rules);
    LeanChecksGiveNoInfo(rec, rules);
    CombineCollects(parts, f);
    assert LeanValidate(rec, rules).value == Summarize(Combine(parts));
  }

  /** A missing or falsy parcel ID is reported; a malformed one is
      reported as a format error. */
  lemma LeanParcelReported(rec: Record, rules: Rules)
    requires LeanValidate(rec, rules).Success?
    ensures ParcelRequired in LeanValidate(rec, rules).value.errors <==> !Get(rec, "parcel_id").Truthy()
    ensures ParcelFormat in LeanValidate(rec, rules).value.errors <==>
              Get(rec, "parcel_id").Str? && Get(rec, "parcel_id").s != "" && !ParcelPattern(Get(rec, "parcel_id").s)
  {
    LeanChecksParts(rec, rules);
    LeanOrigins(rules.currentYear + 1, ClassNames(rules.classes), []);
    LeanFindingsComeFromTheirCheck(rec, rules, ParcelRequired);
    LeanFindingsComeFromTheirCheck(rec, rules, ParcelFormat);
  }

  /** Of six contributions where only the second may warn, a warning
      found at any position is the second's. */
  lemma OnlySecondWarns(a: Diag, b: Diag, c: Diag, d: Diag, e: Diag, g: Diag, j: nat, f: Finding)
    requires a.warnings == [] && c.warnings == [] && d.warnings == [] && e.warnings == [] && g.warnings == []
    requires j < 6 && f in [a, b, c, d, e, g][j].warnings
    ensures f in b.warnings
  {
  }

  /** Every warning in the result comes from the address check. */
  lemma LeanWarningIsAddress(rec: Record, rules: Rules, f: Finding)
    requires LeanValidate(rec, rules).Success?
    requires f in LeanValidate(rec, rules).value.warnings
    ensures LeanAddressCheck(rec).Success? && f in LeanAddressCheck(rec).value.warnings
  {
    LeanFindingsComeFromTheirCheck(rec, rules, f);
    LeanChecksParts(rec, rules);
    var c := CompletenessOf(rec, LeanRequired);
    assert c.warnings == [];
    OnlySecondWarns(LeanParcelCheck(rec).value, LeanAddressCheck(rec).value, LeanYearCheck(rec, rules.currentYear),
                    LeanAssessedCheck(rec, rules), LeanClassCheck(rec, rules), c, LeanOrigin(f), f);
  }

  /** An address finding is in the result exactly when the address check
      made it. */
  lemma LeanAddressFindingReported(rec: Record, rules: Rules, f: Finding)
    requires LeanValidate(rec, rules).Success?
    requires LeanOrigin(f) == 1
    ensures LeanAddressCheck(rec).Success?
    ensures f in LeanValidate(rec, rules).value.errors <==> f in LeanAddressCheck(rec).value.errors
    ensures f in LeanValidate(rec, rules).value.warnings <==> f in LeanAddressCheck(rec).value.warnings
  {
    LeanChecksParts(rec, rules);
    LeanFindingsComeFromTheirCheck(rec, rules, f);
  }

  /** The only warning is the out-of-state address, and it is given
      exactly for a non-empty address not ending in WA or Washington. */
  lemma LeanAddressOnlyWarns(rec: Record, rules: Rules)
    requires LeanValidate(rec, rules).Success?
    ensures forall f :: f in LeanValidate(rec, rules).value.warnings ==> f == AddressNotInState
    ensures AddressNotInState in LeanValidate(rec, rules).value.warnings <==>
              Get(rec, "property_address").Str? && Get(rec, "property_address").s != ""
              && !InState(Get(rec, "property_address").s)
    ensures AddressNotInState !in LeanValidate(rec, rules).value.errors
  {
    LeanOrigins(rules.currentYear + 1, ClassNames(rules.classes), []);
    forall f | f in LeanValidate(rec, rules).value.warnings
      ensures f == AddressNotInState
    {
      LeanWarningIsAddress(rec, rules, f);
    }
    LeanAddressFindingReported(rec, rules, AddressNotInState);
  }

  lemma LeanYearPart(rec: Record, rules: Rules)
    requires LeanChecks(rec, rules).Success?
    ensures LeanChecks(rec, rules).value[2] == LeanYearCheck(rec, rules.currentYear)
  {
  }

  lemma LeanYearFindings(rec: Record, currentYear: int)
    ensures YearOutOfRange(currentYear + 1) in LeanYearCheck(rec, currentYear).errors <==>
              Get(rec, "assessment_year").Int? && Get(rec, "assessment_year").i != 0
              && !(2020 <= Get(rec, "assessment_year").i <= currentYear + 1)
    ensures YearNotInteger in LeanYearCheck(rec, currentYear).errors <==>
              Get(rec, "assessment_year").Truthy() && !Get(rec, "assessment_year").Int?
  {
  }

  /** A year finding is in the result exactly when the year check made it. */
  lemma LeanYearFindingReported(rec: Record, rules: Rules, f: Finding)
    requires LeanValidate(rec, rules).Success?
    requires LeanOrigin(f) == 2
    ensures f in LeanValidate(rec, rules).value.errors <==> f in LeanYearCheck(rec, rules.currentYear).errors
  {
    LeanYearPart(rec, rules);
    LeanFindingsComeFromTheirCheck(rec, rules, f);
  }

  lemma LeanLateYearReported(rec: Record, rules: Rules)
    requires LeanValidate(rec, rules).Success?
    ensures YearOutOfRange(rules.currentYear + 1) in LeanValidate(rec, rules).value.errors <==>
              Get(rec, "assessment_year").Int? && Get(rec, "assessment_year").i != 0
              && !(2020 <= Get(rec, "assessment_year").i <= rules.currentYear + 1)
  {
    LeanOrigins(rules.currentYear + 1, [], []);
    LeanYearFindingReported(rec, rules, YearOutOfRange(rules.currentYear + 1));
    LeanYearFindings(rec, rules.currentYear);
  }

  lemma LeanNonIntegerYearReported(rec: Record, rules: Rules)
    requires LeanValidate(rec, rules).Success?
    ensures YearNotInteger in LeanValidate(rec, rules).value.errors <==>
              Get(rec, "assessment_year").Truthy() && !Get(rec, "assessment_year").Int?
  {
    LeanOrigins(rules.currentYear + 1, [], []);
    LeanYearFindingReported(rec, rules, YearNotInteger);
    LeanYearFindings(rec, rules.currentYear);
  }

  /** A nonzero integer year outside [2020, currentYear + 1] is an error,
      and a truthy year of another type is rejected. */
  lemma LeanYearReported(rec: Record, rules: Rules)
    requires LeanValidate(rec, rules).Success?
    ensures YearOutOfRange(rules.currentYear + 1) in LeanValidate(rec, rules).value.errors <==>
              Get(rec, "assessment_year").Int? && Get(rec, "assessment_year").i != 0
              && !(2020 <= Get(rec, "assessment_year").i <= rules.currentYear + 1)
    ensures YearNotInteger in LeanValidate(rec, rules).value.errors <==>
              Get(rec, "assessment_year").Truthy() && !Get(rec, "assessment_year").Int?
  {
    LeanLateYearReported(rec, rules);
    LeanNonIntegerYearReported(rec, rules);
  }

  /** Unlike the full validator, no year draws a past-year warning and no
      value is reported as converted. */
  lemma LeanNeverWarnsPastYearOrConverts(rec: Record, rules: Rules, year: int)
    requires LeanValidate(rec, rules).Success?
    ensures YearInPast(year) !in LeanValidate(rec, rules).value.warnings
    ensures LeanValidate(rec, rules).value.info == []
  {
    LeanOrigins(0, [], []);
    LeanFindingsComeFromTheirCheck(rec, rules, YearInPast(year));
    var info := LeanValidate(rec, rules).value.info;
    if info != [] {
      LeanFindingsComeFromTheirCheck(rec, rules, info[0]);
    }
  }

  /** An assessed-value finding is in the result exactly when that block
      made it. */
  lemma LeanAssessedFindingReported(rec: Record, rules: Rules, f: Finding)
    requires LeanValidate(rec, rules).Success?
    requires LeanOrigin(f) == 3
    ensures f in LeanValidate(rec, rules).value.errors <==> f in LeanAssessedCheck(rec, rules).errors
  {
    LeanChecksParts(rec, rules);
    LeanFindingsComeFromTheirCheck(rec, rules, f);
  }

  /** The assessed-value block contributes at most one error. */
  lemma LeanAssessedAtMostOne(rec: Record, rules: Rules, f: Finding, g: Finding)
    requires LeanValidate(rec, rules).Success?
    requires f in LeanValidate(rec, rules).value.errors && g in LeanValidate(rec, rules).value.errors
    requires LeanOrigin(f) == 3 && LeanOrigin(g) == 3
    ensures f == g
  {
    LeanAssessedFindingReported(rec, rules, f);
    LeanAssessedFindingReported(rec, rules, g);
    AtMostOneFinding(LeanAssessedCheck(rec, rules).errors, f, g);
  }

  /** An unknown class is an error naming the configured classes. */
  lemma LeanClassReported(rec: Record, rules: Rules)
    requires LeanValidate(rec, rules).Success?
    ensures ClassInvalid(ClassNames(rules.classes)) in LeanValidate(rec, rules).value.errors <==>
              Get(rec, "property_class").Truthy() && !KnownClass(rules.classes, Get(rec, "property_class"))
  {
    LeanChecksParts(rec, rules);
    LeanOrigins(rules.currentYear + 1, ClassNames(rules.classes), []);
    LeanFindingsComeFromTheirCheck(rec, rules, ClassInvalid(ClassNames(rules.classes)));
  }

  /** The missing-fields error names exactly the absent or `None` fields
      among the five required ones, in their order, and there is none
      when all five are present. */
  lemma LeanMissingReported(rec: Record, rules: Rules, names: seq<string>)
    requires LeanValidate(rec, rules).Success?
    ensures MissingFields(names) in LeanValidate(rec, rules).value.errors <==>
              names == MissingOf(rec, LeanRequired) && names != []
  {
    LeanChecksParts(rec, rules);
    LeanOrigins(rules.currentYear + 1, ClassNames(rules.classes), names);
    LeanFindingsComeFromTheirCheck(rec, rules, MissingFields(names));
    var missing := MissingOf(rec, LeanRequired);
    if missing != [] {
      assert missing[0] in missing;
    }
  }

  /** `process_message` of the simplified agent. */
  function LeanProcessMessage(m: Message, rules: Rules): (r: Response)
    ensures !GetValue(m, "property_data").Truthy() ==> r == Fail("No property data provided for validation")
    ensures r.success <==> GetValue(m, "property_data").Truthy() && GetValue(m, "property_data").Rec?
                           && LeanValidate(GetValue(m, "property_data").fields, rules).Success?
                           && !LeanValidate(GetValue(m, "property_data").fields, rules).value.hasErrors
  {
    HandleValidation(m, rec => LeanValidate(rec, rules))
  }

  /** `process_batch` of the simplified agent. */
  function LeanProcessBatch(m: Message, rules: Rules): (r: Response)
    ensures !GetValue(m, "properties", List([])).Truthy() ==> r == Fail("No properties provided for batch validation")
    ensures r.data.BatchValidated? ==>
              GetValue(m, "properties", List([])).List?
              && r.data.total == |GetValue(m, "properties", List([])).items|
              && r.data.valid + r.data.invalid == r.data.total
              && (r.success <==> forall i :: 0 <= i < |r.data.entries| ==> !r.data.entries[i].validation.hasErrors)
    ensures r.data.BatchValidated? <==>
              GetValue(m, "properties", List([])).Truthy() && GetValue(m, "properties", List([])).List?
              && forall i :: 0 <= i < |GetValue(m, "properties", List([])).items| ==>
                   GetValue(m, "properties", List([])).items[i].Rec? && LeanValidate(GetValue(m, "properties", List([])).items[i].fields, rules).Success?
    ensures r.success <==>
              GetValue(m, "properties", List([])).Truthy() && GetValue(m, "properties", List([])).List?
              && forall i :: 0 <= i < |GetValue(m, "properties", List([])).items| ==>
                   GetValue(m, "properties", List([])).items[i].Rec? && LeanValidate(GetValue(m, "properties", List([])).items[i].fields, rules).Success? && !LeanValidate(GetValue(m, "properties", List([])).items[i].fields, rules).value.hasErrors
  {
    HandleBatch(m, rec => LeanValidate(rec, rules))
  }
}

=== FILE: lean_valuation.dfy ===
/** The valuation agent the live application registers: the same three
    approaches and the same handler as the full agent, with fixed rates
    and no adjustments. */
module LeanValuationAgent {
  import opened Wrappers
  import opened Values
  import opened Results
  import opened Envelope
  import opened Appraisal
  import opened FullValuation

  /** `market_approach`: the assessed value times the class multiplier. */
  function LeanMarketApproach(rec: Record): (r: Result<LeanValuation>)
    ensures r.Failure? <==> !MarketBase(rec).IsNumber()
    ensures r.Success? ==>
              r.value.LeanMarket? && r.value.baseValue == MarketBase(rec).Num()
              && r.value.marketValue == r.value.baseValue * r.value.marketMultiplier
              && r.value.marketMultiplier == Lookup(ClassMultipliers, ClassOf(rec), 1.0)
              && r.value.propertyClass == ClassOf(rec) && r.value.confidence == 0.85
  {
    var base := MarketBase(rec);
    if !base.IsNumber() then Failure(MulFloatError(base))
    else
      var multiplier := Lookup(ClassMultipliers, ClassOf(rec), 1.0);
      Success(LeanMarket(base.Num() * multiplier, base.Num(), multiplier, ClassOf(rec), 0.85))
  }

  /** Both agents read the same class table: the simplified multiplier
      is the full agent's class factor, applied to the same assessed
      value. */
  lemma LeanMarketUsesFullClassMultiplier(rec: Record, currentYear: int)
    requires MarketError(rec).None?
    ensures LeanMarketApproach(rec).Success?
    ensures LeanMarketApproach(rec).value.marketMultiplier == FactorsOf(rec, currentYear).multiplier
    ensures LeanMarketApproach(rec).value.baseValue == MarketValuation(rec, currentYear).baseValue
  {
  }

  /** The depreciation rate: 1% a year, at most 50%. */
  function LeanDepreciationRate(age: real): (rate: real)
    ensures rate <= 0.5
    ensures age >= 0.0 ==> 0.0 <= rate
    ensures age <= 50.0 ==> rate == age * 0.01
  {
    Min(0.5, age * 0.01)
  }

  lemma LeanDepreciationNonDecreasing(newer: real, older: real)
    requires newer <= older
    ensures LeanDepreciationRate(newer) <= LeanDepreciationRate(older)
  {
  }

  /** Up to forty years the simplified rate is exactly two thirds of the
      full agent's rate for property other than residential. */
  lemma LeanDepreciationIsTwoThirdsOfFull(age: real)
    requires age <= 40.0
    ensures LeanDepreciationRate(age) * 3.0 == DepreciationRate(false, age) * 2.0
  {
  }

  /** A cost valuation from its parts. */
  function LeanCostOf(age: real, area: real, land: real): (v: LeanValuation)
    ensures v.LeanCost? && v.buildingAge == age && v.buildingArea == area && v.landArea == land
    ensures v.depreciationRate == LeanDepreciationRate(age)
    ensures v.replacementCost == area * 200.0
    ensures v.depreciatedCost == v.replacementCost * (1.0 - v.depreciationRate)
    ensures v.landValue == land * 10.0
    ensures v.costValue == v.depreciatedCost + v.landValue
    ensures v.confidence == 0.80
  {
    var rate := LeanDepreciationRate(age);
    var replacement := area * 200.0;
    LeanCost(replacement * (1.0 - rate) + land * 10.0, replacement, replacement * (1.0 - rate),
             land * 10.0, rate, age, area, land, 0.80)
  }

  /** Depreciation takes at most half, so a non-negative building keeps
      at least half its replacement cost on top of the land value. */
  lemma LeanCostKeepsHalf(age: real, area: real, land: real)
    requires area >= 0.0
    ensures LeanCostOf(age, area, land).costValue >= land * 10.0 + 0.5 * (area * 200.0)
  {
    var replacement, rate := area * 200.0, LeanDepreciationRate(age);
    assert replacement * (1.0 - rate) - replacement * 0.5 == replacement * (0.5 - rate);
    assert replacement * (0.5 - rate) >= 0.0;
  }

  /** `cost_approach`: the age, then the two area products, may raise. */
  function LeanCostApproach(rec: Record, currentYear: int): (r: Result<LeanValuation>)
    ensures r.Failure? <==>
              !YearBuiltOf(rec).IsNumber() || !AreaOf(rec).IsNumber() || !LandAreaOf(rec).IsNumber()
    ensures !YearBuiltOf(rec).IsNumber() ==> r == Failure(AgeError(YearBuiltOf(rec)))
    ensures r.Success? ==>
              r.value == LeanCostOf(Age(currentYear, YearBuiltOf(rec)), AreaOf(rec).Num(), LandAreaOf(rec).Num())
  {
    var yearBuilt, area, land := YearBuiltOf(rec), AreaOf(rec), LandAreaOf(rec);
    if !yearBuilt.IsNumber() then Failure(AgeError(yearBuilt))
    else if !area.IsNumber() then Failure(MulFloatError(area))
    else if !land.IsNumber() then Failure(MulFloatError(land))
    else Success(LeanCostOf(Age(currentYear, yearBuilt), area.Num(), land.Num()))
  }

  /** `income_approach`: fixed rent, vacancy, expenses and cap rate. */
  function LeanIncomeApproach(rec: Record): (r: Result<LeanValuation>)
    ensures !IncomeApplies(ClassOf(rec)) <==> r == Success(LeanIncomeNotApplicable)
    ensures r.Failure? <==> IncomeApplies(ClassOf(rec)) && !AreaOf(rec).IsNumber()
    ensures r.Success? && IncomeApplies(ClassOf(rec)) ==>
              r.value.LeanIncome? && r.value.buildingArea == AreaOf(rec).Num()
              && r.value.potentialGrossIncome == r.value.buildingArea * r.value.rentalRatePerSqft
              && r.value.effectiveGrossIncome == r.value.potentialGrossIncome * (1.0 - r.value.vacancyRate)
              && r.value.netOperatingIncome == r.value.effectiveGrossIncome * (1.0 - r.value.expenseRatio)
              && r.value.incomeValue * r.value.capRate == r.value.netOperatingIncome
              && r.value.rentalRatePerSqft == 15.0 && r.value.vacancyRate == 0.05
              && r.value.expenseRatio == 0.40 && r.value.capRate == 0.07 && r.value.confidence == 0.75
  {
    var area := AreaOf(rec);
    if !IncomeApplies(ClassOf(rec)) then Success(LeanIncomeNotApplicable)
    else if !area.IsNumber() then Failure(MulFloatError(area))
    else
      var gross := area.Num() * 15.0;
      var effective := gross * (1.0 - 0.05);
      var net := effective * (1.0 - 0.40);
      Success(LeanIncome(net / 0.07, gross, effective, net, 0.05, 0.40, 0.07, area.Num(), 15.0, 0.75))
  }

  /** With the fixed rates, the income value is the building area times
      a constant: 15 * 0.95 * 0.6 / 0.07 dollars per square foot. */
  lemma LeanIncomePerSquareFoot(rec: Record)
    requires LeanIncomeApproach(rec).Success? && LeanIncomeApproach(rec).value.LeanIncome?
    ensures LeanIncomeApproach(rec).value.incomeValue == AreaOf(rec).Num() * (15.0 * 0.95 * 0.6 / 0.07)
  {
  }

  /** The approach called `name`, as the `valuation_results` payload. */
  function LeanApproach(name: string, rec: Record, currentYear: int): (r: Result<Data>)
    ensures r.Success? ==> r.value.LeanValued? && r.value.approach == name
  {
    var v :-
      if name == "market" then LeanMarketApproach(rec)
      else if name == "cost" then LeanCostApproach(rec, currentYear)
      else LeanIncomeApproach(rec);
    Success(LeanValued(v, name))
  }

  /** `process_message` of the simplified valuation agent. */
  function LeanProcessValuation(m: Message, currentYear: int): (r: Response)
    ensures !GetValue(m, "property_data").Truthy() ==> r == Fail("No property data provided for valuation")
    ensures r.success ==> r.data.LeanValued? && r.data.approach in Approaches
                          && GetValue(m, "valuation_approach", Scalar(Str("market"))) == Scalar(Str(r.data.approach))
  {
    HandleValuation(m, (name, rec) => LeanApproach(name, rec, currentYear))
  }

  /** Without a residential feature block the two market approaches
      raise on the same records, so both handlers succeed on the same
      market requests. */
  lemma MarketAgentsFailAlike(m: Message, currentYear: int)
    requires GetValue(m, "property_data").Rec?
    requires GetValue(m, "valuation_approach", Scalar(Str("market"))) == Scalar(Str("market"))
    requires !FeatureBlock(GetValue(m, "property_data").fields)
    ensures LeanProcessValuation(m, currentYear).success == ProcessValuation(m, currentYear).success
  {
  }
}

=== FILE: live_router.dfy ===
/** The live router (mcp/master_control.py): registering an agent appends
    its (message type, entry point) pairs to an ordered handler list, and
    a message goes to the first handler whose key is its type. The agents
    are the ones bootstrap.py registers: the simplified validation and
    valuation agents, the user-interaction agent, and the property-impact
    agent, which is outside this model. */
module LiveRouter {
  import opened Wrappers
  import opened Values
  import opened Envelope
  import opened Routing
  import LeanValidation
  import LeanValuationAgent
  import Interaction

  /** One pipeline entry: the message type it handles and the bound
      method it calls. */
  datatype Handler = Handler(key: string, agent: Agent, entry: Method)

  datatype Router = Router(agents: map<string, Agent>, status: map<string, string>, handlers: seq<Handler>)

  const Initial: Router := Router(map[], map[], [])

  /** `_add_handlers_for`: what registering each known class adds. */
  function HandlersFor(a: Agent): (hs: seq<Handler>)
    ensures a.className == "DataValidationAgent" ==>
              hs == [Handler("property_validation", a, ProcessMessage), Handler("batch_validate", a, ProcessBatch)]
    ensures a.className == "ValuationAgent" ==> hs == [Handler("property_valuation", a, ProcessMessage)]
    ensures a.className == "PropertyImpactAgent" ==> hs == [Handler("property_impact", a, ProcessMessage)]
    ensures a.className == "UserInteractionAgent" ==> hs == [Handler("user_query", a, ProcessMessage)]
    ensures a.className !in {"DataValidationAgent", "ValuationAgent", "PropertyImpactAgent", "UserInteractionAgent"}
            ==> hs == []
    ensures forall i :: 0 <= i < |hs| ==> hs[i].agent == a
  {
    match a.className
    case "DataValidationAgent" =>
      [Handler("property_validation", a, ProcessMessage), Handler("batch_validate", a, ProcessBatch)]
    case "ValuationAgent" => [Handler("property_valuation", a, ProcessMessage)]
    case "PropertyImpactAgent" => [Handler("property_impact", a, ProcessMessage)]
    case "UserInteractionAgent" => [Handler("user_query", a, ProcessMessage)]
    case _ => []
  }

  /** `register_agent`: always succeeds; the class name keys the agent and
      its status, and its handlers go to the end of the pipeline. */
  function Register(s: Router, a: Agent): (r: (Router, bool))
    ensures r.1
    ensures r.0.agents == s.agents[a.className := a]
    ensures r.0.status == s.status[a.className := "active"]
    ensures |r.0.handlers| == |s.handlers| + |HandlersFor(a)|
    ensures r.0.handlers[..|s.handlers|] == s.handlers
    ensures r.0.handlers[|s.handlers|..] == HandlersFor(a)
  {
    var t := Router(s.agents[a.className := a], s.status[a.className := "active"], s.handlers + HandlersFor(a));
    assert t.handlers[..|s.handlers|] == s.handlers;
    (t, true)
  }

  /** `unregister_agent`: forgets the agent and its status but leaves its
      handlers in the pipeline. */
  function Unregister(s: Router, name: string): (r: (Router, bool))
    ensures r.1 <==> name in s.agents
    ensures r.0.agents.Keys == s.agents.Keys - {name}
    ensures forall k :: k in r.0.agents ==> r.0.agents[k] == s.agents[k]
    ensures name in s.agents ==> r.0.status == s.status - {name}
    ensures name !in s.agents ==> r.0 == s
    ensures r.0.handlers == s.handlers
  {
    if name in s.agents then (Router(s.agents - {name}, s.status - {name}, s.handlers), true)
    else (s, false)
  }

  /** After registering, the status reports the class as active; after
      unregistering a registered class, it no longer reports it. */
  lemma StatusFollowsRegistration(s: Router, a: Agent, name: string)
    ensures a.className in GetStatus(Register(s, a).0.status).agents
            && GetStatus(Register(s, a).0.status).agents[a.className] == "active"
    ensures name in s.agents ==> name !in GetStatus(Unregister(s, name).0.status).agents
  {
  }

  /** The position of the first handler for `key`. */
  function FirstMatch(hs: seq<Handler>, key: string): (r: Option<nat>)
    ensures r.None? <==> forall i :: 0 <= i < |hs| ==> hs[i].key != key
    ensures r.Some? ==> r.value < |hs| && hs[r.value].key == key
                        && forall j :: 0 <= j < r.value ==> hs[j].key != key
  {
    if |hs| == 0 then None
    else if hs[0].key == key then Some(0)
    else
      match FirstMatch(hs[1..], key)
      case None => None
      case Some(i) => Some(i + 1)
  }

  /** A handler appended later never takes a key that an earlier handler
      already answers. */
  lemma {:induction false} FirstMatchAppend(hs: seq<Handler>, more: seq<Handler>, key: string)
    ensures FirstMatch(hs, key).Some? ==> FirstMatch(hs + more, key) == FirstMatch(hs, key)
    ensures FirstMatch(hs, key).None? && FirstMatch(more, key).Some? ==>
              FirstMatch(hs + more, key) == Some(|hs| + FirstMatch(more, key).value)
    ensures FirstMatch(hs, key).None? && FirstMatch(more, key).None? ==> FirstMatch(hs + more, key).None?
  {
    if |hs| > 0 && hs[0].key != key {
      assert (hs + more)[0] == hs[0];
      assert (hs + more)[1..] == hs[1..] + more;
      FirstMatchAppend(hs[1..], more, key);
    } else if |hs| > 0 {
      assert (hs + more)[0] == hs[0];
    } else {
      assert hs + more == more;
    }
  }

  /** The agent that answers a handler's call, given the services. */
  function Invoke(svc: Services, h: Handler, m: Message): (r: Response)
    ensures h.agent.className == "DataValidationAgent" && h.entry == ProcessMessage ==>
              r == LeanValidation.LeanProcessMessage(m, svc.rules)
    ensures h.agent.className == "DataValidationAgent" && h.entry == ProcessBatch ==>
              r == LeanValidation.LeanProcessBatch(m, svc.rules)
    ensures h.agent.className == "ValuationAgent" ==> r == LeanValuationAgent.LeanProcessValuation(m, svc.currentYear)
    ensures h.agent.className == "UserInteractionAgent" ==> r == Interaction.ProcessInteraction(m, svc.ai, svc.show)
    ensures h.agent.className !in {"DataValidationAgent", "ValuationAgent", "UserInteractionAgent"} ==>
              r == svc.external(h.agent, h.entry, m)
  {
    match h.agent.className
    case "DataValidationAgent" =>
      if h.entry == ProcessBatch then LeanValidation.LeanProcessBatch(m, svc.rules)
      else LeanValidation.LeanProcessMessage(m, svc.rules)
    case "ValuationAgent" => LeanValuationAgent.LeanProcessValuation(m, svc.currentYear)
    case "UserInteractionAgent" => Interaction.ProcessInteraction(m, svc.ai, svc.show)
    case _ => svc.external(h.agent, h.entry, m)
  }

  /** `route_message`: the first handler for the type answers; with none,
      a failure naming the type. */
  function Route(s: Router, m: Message, svc: Services): (r: Response)
    ensures FirstMatch(s.handlers, GetType(m)).None? ==> r == Fail("No handler for message type: " + GetType(m))
    ensures FirstMatch(s.handlers, GetType(m)).Some? ==>
              r == Invoke(svc, s.handlers[FirstMatch(s.handlers, GetType(m)).value], m)
  {
    match FirstMatch(s.handlers, GetType(m))
    case None => Fail("No handler for message type: " + GetType(m))
    case Some(i) => Invoke(svc, s.handlers[i], m)
  }

  /** Registering another agent never changes where an already answered
      type goes: a second instance of a class is shadowed by the first. */
  lemma RegisterKeepsRoutes(s: Router, a: Agent, m: Message, svc: Services)
    requires FirstMatch(s.handlers, GetType(m)).Some?
    ensures Route(Register(s, a).0, m, svc) == Route(s, m, svc)
  {
    FirstMatchAppend(s.handlers, HandlersFor(a), GetType(m));
  }

  /** Unregistering an agent leaves every route in place: its handlers
      still answer. */
  lemma UnregisterKeepsRoutes(s: Router, name: string, m: Message, svc: Services)
    ensures Route(Unregister(s, name).0, m, svc) == Route(s, m, svc)
  {
  }

  /** `init_mcp` in bootstrap.py: the four agents, in order. */
  function Bootstrap(): (s: Router)
    ensures s.agents.Keys == {"DataValidationAgent", "ValuationAgent", "PropertyImpactAgent", "UserInteractionAgent"}
    ensures forall k :: k in s.status ==> s.status[k] == "active"
  {
    var s0 := Register(Initial, Agent("DataValidationAgent", 0)).0;
    var s1 := Register(s0, Agent("ValuationAgent", 1)).0;
    var s2 := Register(s1, Agent("PropertyImpactAgent", 2)).0;
    Register(s2, Agent("UserInteractionAgent", 3)).0
  }

  /** After bootstrap every endpoint's type has exactly the handler its
      agent added. */
  lemma BootstrapPipeline()
    ensures Bootstrap().handlers == [
      Handler("property_validation", Agent("DataValidationAgent", 0), ProcessMessage),
      Handler("batch_validate", Agent("DataValidationAgent", 0), ProcessBatch),
      Handler("property_valuation", Agent("ValuationAgent", 1), ProcessMessage),
      Handler("property_impact", Agent("PropertyImpactAgent", 2), ProcessMessage),
      Handler("user_query", Agent("UserInteractionAgent", 3), ProcessMessage)]
  {
  }

  /** The handler that answers each endpoint type after bootstrap. */
  lemma BootstrapFirstMatch(t: string)
    ensures t == "property_validation" ==> FirstMatch(Bootstrap().handlers, t) == Some(0)
    ensures t == "batch_validate" ==> FirstMatch(Bootstrap().handlers, t) == Some(1)
    ensures t == "property_valuation" ==> FirstMatch(Bootstrap().handlers, t) == Some(2)
    ensures t == "property_impact" ==> FirstMatch(Bootstrap().handlers, t) == Some(3)
    ensures t == "user_query" ==> FirstMatch(Bootstrap().handlers, t) == Some(4)
  {
    BootstrapPipeline();
    var hs := Bootstrap().handlers;
    assert hs[0].key != "batch_validate" && hs[0].key != "property_valuation" && hs[1].key != "property_valuation";
    assert forall j :: 0 <= j < 3 ==> hs[j].key != "property_impact";
    assert forall j :: 0 <= j < 4 ==> hs[j].key != "user_query";
  }

  /** Where each type goes in the bootstrapped pipeline. */
  lemma BootstrapRoutes(m: Message, svc: Services)
    ensures GetType(m) == "property_validation" ==>
              Route(Bootstrap(), m, svc) == LeanValidation.LeanProcessMessage(m, svc.rules)
    ensures GetType(m) == "batch_validate" ==>
              Route(Bootstrap(), m, svc) == LeanValidation.LeanProcessBatch(m, svc.rules)
    ensures GetType(m) == "property_valuation" ==>
              Route(Bootstrap(), m, svc) == LeanValuationAgent.LeanProcessValuation(m, svc.currentYear)
    ensures GetType(m) == "property_impact" ==>
              Route(Bootstrap(), m, svc) == svc.external(Agent("PropertyImpactAgent", 2), ProcessMessage, m)
    ensures GetType(m) == "user_query" ==>
              Route(Bootstrap(), m, svc) == Interaction.ProcessInteraction(m, svc.ai, svc.show)
  {
    BootstrapPipeline();
    BootstrapFirstMatch(GetType(m));
  }

  /** As written, even a well-formed question to the bootstrapped
      pipeline fails, where the router with the accessors answers it. */
  lemma AsWrittenRoutingFails(m: Message, svc: Services)
    requires GetType(m) == "user_query" && GetValue(m, "query").Truthy()
    ensures !RouteAsWritten(m).success
    ensures Route(Bootstrap(), m, svc).success
  {
    BootstrapRoutes(m, svc);
  }

  /** The endpoint table, entry by entry. */
  lemma LiveEndpointTypes()
    ensures Find(LiveEndpoints, "/api/mcp/property-validate") == Some("property_validation")
    ensures Find(LiveEndpoints, "/api/mcp/property-value") == Some("property_valuation")
    ensures Find(LiveEndpoints, "/api/mcp/property-impact") == Some("property_impact")
    ensures Find(LiveEndpoints, "/api/mcp/user-query") == Some("user_query")
    ensures Find(LiveEndpoints, "/api/mcp/batch-validate") == Some("batch_validate")
  {
  }

  /** `process_api_request` given how the message is built from the
      request body. */
  function ApiRequestWith(s: Router, endpoint: string, build: string -> Message, svc: Services): (a: ApiResult)
    ensures Find(LiveEndpoints, endpoint).None? ==> a == ApiResult(false, None, Some("Unknown endpoint: " + endpoint))
    ensures Find(LiveEndpoints, endpoint).Some? ==> a == ApiResultOf(Route(s, build(Find(LiveEndpoints, endpoint).value), svc))
  {
    match Find(LiveEndpoints, endpoint)
    case None => ApiResult(false, None, Some("Unknown endpoint: " + endpoint))
    case Some(t) => ApiResultOf(Route(s, build(t), svc))
  }

  /** `process_api_request` with its constructor call as written, the
      body becoming the sender, but with the `get_type` and `get_value`
      accessors supplied (Routing.RouteAsWritten shows what happens without
      them). */
  function ApiRequestAsWritten(s: Router, endpoint: string, data: map<string, Value>, svc: Services): (a: ApiResult)
    ensures Find(LiveEndpoints, endpoint).None? ==> a == ApiResult(false, None, Some("Unknown endpoint: " + endpoint))
    ensures Find(LiveEndpoints, endpoint).Some? ==>
              a == ApiResultOf(Route(s, ApiMessageAsWritten(Find(LiveEndpoints, endpoint).value, data), svc))
  {
    ApiRequestWith(s, endpoint, t => ApiMessageAsWritten(t, data), svc)
  }

  /** With the accessors supplied, a validation request built as written
      fails whatever its body: the agent finds no property data in the
      message. */
  lemma AsWrittenValidateFails(data: map<string, Value>, svc: Services)
    ensures ApiRequestAsWritten(Bootstrap(), "/api/mcp/property-validate", data, svc)
            == ApiResult(false, Some(Empty), Some("No property data provided for validation"))
  {
    LiveEndpointTypes();
    var m := ApiMessageAsWritten("property_validation", data);
    BootstrapRoutes(m, svc);
    assert !GetValue(m, "property_data").Truthy();
  }

  /** With the accessors supplied, a valuation request built as written
      fails whatever its body. */
  lemma AsWrittenValueFails(data: map<string, Value>, svc: Services)
    ensures ApiRequestAsWritten(Bootstrap(), "/api/mcp/property-value", data, svc)
            == ApiResult(false, Some(Empty), Some("No property data provided for valuation"))
  {
    LiveEndpointTypes();
    var m := ApiMessageAsWritten("property_valuation", data);
    BootstrapRoutes(m, svc);
    assert !GetValue(m, "property_data").Truthy();
  }

  /** With the accessors supplied, a user query built as written fails
      whatever its body. */
  lemma AsWrittenQueryFails(data: map<string, Value>, svc: Services)
    ensures ApiRequestAsWritten(Bootstrap(), "/api/mcp/user-query", data, svc)
            == ApiResult(false, Some(Empty), Some("No query provided"))
  {
    LiveEndpointTypes();
    var m := ApiMessageAsWritten("user_query", data);
    BootstrapRoutes(m, svc);
    assert !GetValue(m, "query").Truthy();
  }

  /** With the accessors supplied, a batch validation built as written
      fails whatever its body. */
  lemma AsWrittenBatchFails(data: map<string, Value>, svc: Services)
    ensures ApiRequestAsWritten(Bootstrap(), "/api/mcp/batch-validate", data, svc)
            == ApiResult(false, Some(Empty), Some("No properties provided for batch validation"))
  {
    LiveEndpointTypes();
    var m := ApiMessageAsWritten("batch_validate", data);
    BootstrapRoutes(m, svc);
    assert !GetValue(m, "properties", List([])).Truthy();
  }

  /** `process_api_request` exactly as written: the body becomes the
      sender, and routing the message then raises on the missing
      `get_type`, so every known endpoint answers with the routing error. */
  function ApiRequestUnpatched(endpoint: string, data: map<string, Value>): (a: ApiResult)
    ensures Find(LiveEndpoints, endpoint).None? ==> a == ApiResult(false, None, Some("Unknown endpoint: " + endpoint))
    ensures Find(LiveEndpoints, endpoint).Some? ==>
              a == ApiResult(false, Some(Empty), Some("Error routing message: " + AttributeError("MCPMessage", "get_type")))
  {
    match Find(LiveEndpoints, endpoint)
    case None => ApiResult(false, None, Some("Unknown endpoint: " + endpoint))
    case Some(t) => ApiResultOf(RouteAsWritten(ApiMessageAsWritten(t, data)))
  }

  /** The unpatched program never reaches the agent: a user query gets
      the routing error, not the agent's "No query provided". */
  lemma UnpatchedQueryNeverReachesAgent(data: map<string, Value>, svc: Services)
    ensures ApiRequestUnpatched("/api/mcp/user-query", data).error
            != ApiRequestAsWritten(Bootstrap(), "/api/mcp/user-query", data, svc).error
  {
    AsWrittenQueryFails(data, svc);
    LiveEndpointTypes();
    var e := "Error routing message: " + AttributeError("MCPMessage", "get_type");
    assert e[0] != "No query provided"[0];
  }

  /** `process_api_request` with the body passed as the payload. */
  function ApiRequest(s: Router, endpoint: string, data: map<string, Value>, svc: Services): (a: ApiResult)
    ensures Find(LiveEndpoints, endpoint).None? ==> a == ApiResult(false, None, Some("Unknown endpoint: " + endpoint))
    ensures Find(LiveEndpoints, endpoint).Some? ==>
              a == ApiResultOf(Route(s, ApiMessage(Find(LiveEndpoints, endpoint).value, data), svc))
  {
    ApiRequestWith(s, endpoint, t => ApiMessage(t, data), svc)
  }

  /** With the body as payload, a user query with a question is answered,
      and a valuation request sees the body's property data. */
  lemma ApiRequestReadsBody(data: map<string, Value>, svc: Services)
    ensures ("query" in data && data["query"].Truthy()) <==>
              ApiRequest(Bootstrap(), "/api/mcp/user-query", data, svc).success
    ensures ApiRequest(Bootstrap(), "/api/mcp/property-value", data, svc)
            == ApiResultOf(LeanValuationAgent.LeanProcessValuation(ApiMessage("property_valuation", data), svc.currentYear))
  {
    LiveEndpointTypes();
    var query := ApiMessage("user_query", data);
    BootstrapRoutes(query, svc);
    BootstrapRoutes(ApiMessage("property_valuation", data), svc);
    assert GetValue(query, "query") == if "query" in data then data["query"] else Scalar(Null);
  }
}

=== FILE: patterns.dfy ===
/** The fixed regular expressions of the assessment code, written as
    character predicates, and `str.split` on a one-character separator.
    Python's `re.match(...$)` also succeeds when the subject ends in one
    extra newline, so every pattern is matched against the subject with one final
    newline removed. Digits and letters are ASCII. */
module Patterns {
  import opened Values

  /** The part of `s` that a `$`-anchored match must cover. */
  function WithoutFinalNewline(s: string): (t: string)
    ensures |s| > 0 && s[|s| - 1] == '\n' ==> t + "\n" == s
    ensures !(|s| > 0 && s[|s| - 1] == '\n') ==> t == s
  {
    if |s| > 0 && s[|s| - 1] == '\n' then s[..|s| - 1] else s
  }

  /** `^\d{8}-\d{3}$`, the parcel ID pattern. */
  predicate ParcelPattern(s: string) {
    var t := WithoutFinalNewline(s);
    |t| == 12 && AllDigits(t[..8]) && t[8] == '-' && AllDigits(t[9..])
  }

  /** `^\d{5}(-\d{4})?$`, the ZIP code pattern. */
  predicate ZipPattern(s: string) {
    var t := WithoutFinalNewline(s);
    (|t| == 5 && AllDigits(t))
    || (|t| == 10 && AllDigits(t[..5]) && t[5] == '-' && AllDigits(t[6..]))
  }

  predicate LocalPartChar(c: char) {
    IsLetter(c) || IsDigit(c) || c in "._%+-"
  }

  predicate DomainChar(c: char) {
    IsLetter(c) || IsDigit(c) || c in ".-"
  }

  predicate AllLetters(s: string) {
    forall i :: 0 <= i < |s| ==> IsLetter(s[i])
  }

  /** `^[a-zA-Z0-9._%+-]+@[a-zA-Z0-9.-]+\.[a-zA-Z]{2,}$`, read as the regex
      reads: a local part, `@`, then a domain that splits at some dot into
      a non-empty name and a top-level part of at least two letters. */
  predicate EmailPattern(s: string) {
    var t := WithoutFinalNewline(s);
    exists at, dot :: 0 < at && at + 1 < dot && dot + 3 <= |t|
      && t[at] == '@' && t[dot] == '.'
      && (forall i :: 0 <= i < at ==> LocalPartChar(t[i]))
      && (forall i :: at < i < dot ==> DomainChar(t[i]))
      && AllLetters(t[dot + 1..])
  }

  /** `s.split(sep)` for a single-character separator. */
  function Split(s: string, sep: char): (parts: seq<string>)
    ensures |parts| >= 1
  {
    if |s| == 0 then [""]
    else
      var rest := Split(s[1..], sep);
      if s[0] == sep then [""] + rest
      else [[s[0]] + rest[0]] + rest[1..]
  }

  /** No piece of a split holds the separator. */
  lemma {:induction false} SplitPiecesAvoidSeparator(s: string, sep: char)
    ensures forall k :: 0 <= k < |Split(s, sep)| ==> sep !in Split(s, sep)[k]
  {
    if |s| > 0 {
      SplitPiecesAvoidSeparator(s[1..], sep);
    }
  }

  /** Joining the pieces with the separator gives the string back. */
  lemma {:induction false} SplitJoinRoundTrip(s: string, sep: char)
    ensures Join(Split(s, sep), [sep]) == s
  {
    if |s| > 0 {
      var rest := Split(s[1..], sep);
      SplitJoinRoundTrip(s[1..], sep);
      if s[0] == sep {
        assert Split(s, sep) == [""] + rest;
        assert ([""] + rest)[1..] == rest;
        assert Join([""] + rest, [sep]) == "" + [sep] + Join(rest, [sep]);
      } else if |rest| == 1 {
        assert Split(s, sep) == [[s[0]] + rest[0]];
        assert Join(rest, [sep]) == rest[0];
      } else {
        var parts := [[s[0]] + rest[0]] + rest[1..];
        assert Split(s, sep) == parts;
        assert parts[1..] == rest[1..];
        assert Join(parts, [sep]) == [s[0]] + rest[0] + [sep] + Join(rest[1..], [sep]);
        assert Join(rest, [sep]) == rest[0] + [sep] + Join(rest[1..], [sep]);
      }
    }
  }

  /** A string without the separator splits into itself. */
  lemma {:induction false} SplitWithoutSeparator(s: string, sep: char)
    requires sep !in s
    ensures Split(s, sep) == [s]
  {
    if |s| > 0 {
      assert sep !in s[1..];
      SplitWithoutSeparator(s[1..], sep);
      assert [s[0]] + s[1..] == s;
    }
  }

  /** The first separator at index `k` ends the first piece. */
  lemma {:induction false} SplitAtFirstSeparator(s: string, sep: char, k: nat)
    requires k < |s| && s[k] == sep
    requires forall i :: 0 <= i < k ==> s[i] != sep
    ensures Split(s, sep) == [s[..k]] + Split(s[k + 1..], sep)
    decreases k
  {
    if k > 0 {
      SplitAtFirstSeparator(s[1..], sep, k - 1);
      assert s[1..][k..] == s[k + 1..];
      assert [s[0]] + s[1..][..k - 1] == s[..k];
    }
  }

  /** A well-formed parcel ID splits on `-` into its 8-digit prefix and the
      rest, so the county-prefix test always sees exactly two parts. */
  lemma ParcelSplit(s: string)
    requires ParcelPattern(s)
    ensures Split(s, '-') == [s[..8], s[9..]]
  {
    var t := WithoutFinalNewline(s);
    assert s[..8] == t[..8] && s[8] == '-';
    forall i | 0 <= i < 8 ensures s[i] != '-' {
      assert IsDigit(t[..8][i]);
    }
    SplitAtFirstSeparator(s, '-', 8);
    forall i | 0 <= i < |s[9..]| ensures s[9..][i] != '-' {
      if 9 + i < 12 {
        assert s[9..][i] == t[9..][i];
        assert IsDigit(t[9..][i]);
      }
    }
    SplitWithoutSeparator(s[9..], '-');
  }
}

=== FILE: results.dfy ===
/** The result shapes the agents return: validation diagnostics, valuation
    breakdowns and conversational replies. Diagnostics are identified by
    their message, with the variable parts of the message as fields; the
    comment on each constructor gives the message text. */
module Results {
  import opened Values

  datatype Finding =
    // ---- errors
    | ParcelRequired            // "Parcel ID is required"
    | ParcelFormat              // "Invalid parcel ID format. Must match pattern: ^\d{8}-\d{3}$"
    | AddressRequired           // "Property address is required"
    | AddressTooShort           // "Property address is too short"
    | CityRequired              // "Property city is required"
    | StateRequired             // "Property state is required"
    | StateNotAllowed(code: string)   // "Property must be located in Washington State ({code})"
    | ZipRequired               // "Property ZIP code is required"
    | ZipFormat                 // "Invalid ZIP code format. Must be 5 digits or 5+4 digits ..."
    | YearRequired              // "Assessment year is required"
    | YearNotInteger            // "Assessment year must be an integer"
    | YearTooEarly              // "Assessment year cannot be earlier than 2020"
    | YearTooLate(limit: int)   // "Assessment year cannot be later than {limit}"
    | YearOutOfRange(limit: int)      // "Assessment year must be between 2020 and {limit}"
    | AssessedRequired          // "Assessed value is required"
    | AssessedNotNumber         // "Assessed value must be a number"
    | AssessedBelowMin(min: real)     // "Assessed value cannot be less than ${min}"
    | AssessedAboveMax(max: real)     // "Assessed value cannot exceed ${max}"
    | LandValueNotNumber        // "Land value must be a number"
    | LandValueNegative         // "Land value cannot be negative"
    | ImprovementNotNumber      // "Improvement value must be a number"
    | ImprovementNegative       // "Improvement value cannot be negative"
    | ClassRequired             // "Property class is required"
    | ClassInvalid(valid: seq<string>)  // "Invalid property class. Must be one of: {valid}"
    | SubcodeInvalid(subcode: Raw, cls: Raw, valid: seq<string>)
                                // "Invalid property class code '{subcode}' for class {cls}. Valid codes are: {valid}"
    | BedroomsNotInteger        // "Bedrooms must be an integer"
    | BedroomsNegative          // "Bedrooms cannot be negative"
    | BathroomsNotNumber        // "Bathrooms must be a number"
    | BathroomsNegative         // "Bathrooms cannot be negative"
    | YearBuiltNotInteger       // "Year built must be an integer"
    | YearBuiltFuture(current: int)   // "Year built cannot be in the future (current year: {current})"
    | BuildingAreaNotNumber     // "Building area must be a number"
    | BuildingAreaNotPositive   // "Building area must be positive"
    | LandAreaNotNumber         // "Land area must be a number"
    | LandAreaNotPositive       // "Land area must be positive"
    | MissingFields(names: seq<string>) // "Missing required fields: {names}"
    | MethodInvalid(valid: seq<string>) // "Invalid valuation method. Must be one of: {valid}"
    // ---- warnings
    | CountyPrefix(county: string)    // "Parcel ID should start with Benton County code {county}"
    | AddressNoNumber           // "Property address should typically include a street number"
    | AddressNotInState         // "Property address should include Washington state"
    | ZipOutsideCounty          // "ZIP code may not be in Benton County (should start with 993)"
    | YearInPast(year: int)     // "Assessment year {year} is in the past"
    | LandExceedsAssessed       // "Land value exceeds total assessed value"
    | Unbalanced(land: real, improvement: real, assessed: real)
                                // "Land value ({land}) + improvement value ({improvement}) should equal assessed value ({assessed})"
    | BedroomsHigh              // "Unusually high number of bedrooms"
    | BathroomsHigh             // "Unusually high number of bathrooms"
    | YearBuiltEarly            // "Year built seems unusually early"
    | CapRateAdvised            // "Capitalization rate should be provided for income approach"
    | AnnualIncomeAdvised       // "Annual income should be provided for income approach"
    // ---- info
    | YearConverted             // "Assessment year was converted from string to integer"
    | AssessedConverted         // "Assessed value was converted from string to number"
    | LandValueConverted        // "Land value was converted from string to number"
    | ImprovementConverted      // "Improvement value was converted from string to number"
    | BedroomsConverted         // "Bedrooms value was converted from string to integer"
    | BathroomsConverted        // "Bathrooms value was converted from string to number"
    | YearBuiltConverted        // "Year built was converted from string to integer"
    | BuildingAreaConverted     // "Building area was converted from string to number"
    | LandAreaConverted         // "Land area was converted from string to number"

  /** The dict `validate_property_data` returns. The lean validator returns
      no `info` key; its results carry an empty `info`. */
  datatype ValidationResult = ValidationResult(
    hasErrors: bool,
    hasWarnings: bool,
    errors: seq<Finding>,
    warnings: seq<Finding>,
    info: seq<Finding>)

  /** One element of `batch_results`. */
  datatype BatchEntry = BatchEntry(propertyData: Record, validation: ValidationResult)

  /** Results of the three approaches of the full valuation agent. Every
      intermediate quantity is kept; the illustrative comparables are
      represented only by their confidence weights. */
  datatype Valuation =
    | Market(
        marketValue: real, baseValue: real,
        marketMultiplier: real, locationMultiplier: real,
        ageAdjustment: real, sizeAdjustment: real, featureAdjustment: real,
        propertyClass: Raw, propertyCity: Raw,
        comparableWeights: seq<real>, confidence: real)
    | Cost(
        costValue: real, replacementCost: real, depreciatedCost: real, landValue: real,
        functionalObsolescence: real, externalObsolescence: real,
        depreciationRate: real, buildingAge: real, buildingArea: real, landArea: real,
        qualityFactor: real, replacementCostPerSqft: real, landValuePerSqft: real,
        propertyClass: Raw, propertyCity: Raw, confidence: real)
    | Income(
        incomeValue: real, potentialGrossIncome: real, effectiveGrossIncome: real,
        netOperatingIncome: real, vacancyRate: real, expenseRatio: real, capRate: real,
        buildingArea: real, rentalRatePerSqft: real, ageFactor: real, locationFactor: real,
        propertyClass: Raw, propertyCity: Raw, buildingAge: real, confidence: real)
    /** `income_value: None`, "Income approach is only applicable for
        Commercial and Industrial properties", `confidence_score: 0.0` */
    | IncomeNotApplicable
  {
    function ConfidenceScore(): real {
      if IncomeNotApplicable? then 0.0 else confidence
    }
  }

  /** Results of the three approaches of the simplified valuation agent. */
  datatype LeanValuation =
    | LeanMarket(marketValue: real, baseValue: real, marketMultiplier: real,
                 propertyClass: Raw, confidence: real)
    | LeanCost(costValue: real, replacementCost: real, depreciatedCost: real,
               landValue: real, depreciationRate: real, buildingAge: real,
               buildingArea: real, landArea: real, confidence: real)
    | LeanIncome(incomeValue: real, potentialGrossIncome: real,
                 effectiveGrossIncome: real, netOperatingIncome: real,
                 vacancyRate: real, expenseRatio: real, capRate: real,
                 buildingArea: real, rentalRatePerSqft: real, confidence: real)
    | LeanIncomeNotApplicable
  {
    function ConfidenceScore(): real {
      if LeanIncomeNotApplicable? then 0.0 else confidence
    }
  }

  /** What a reply of the user-interaction agent carries besides its text. */
  datatype ReplyDetails =
    | SearchParameters(query: string, address: Raw, parcelId: Raw)
    | ValuationParameters(query: string, propertyId: Raw)
    | ValidationParameters(query: string, propertyId: Raw)
    | HelpTopic(topic: string)
    | AiGenerated
    | NoDetails

  /** The dict `process_query` returns: `response`, `intent`, `confidence`. */
  datatype Reply = Reply(response: string, intent: string, confidence: real, details: ReplyDetails)
}

=== FILE: routing.dfy ===
/** What the two routers (mcp/master_control.py and its older copy
    github_export/mcp/master_control.py) share: registered agents, the
    services the agents are built from, the dict `process_api_request`
    returns, the endpoint tables, and the message each API request is
    turned into. */
module Routing {
  import opened Wrappers
  import opened Values
  import opened Envelope
  import Validation
  import Interaction

  /** A registered agent object: its class name and which instance it is
      (two registrations of one class are two instances). */
  datatype Agent = Agent(className: string, instance: nat)

  /** The two entry points an agent offers to a router. */
  datatype Method = ProcessMessage | ProcessBatch

  /** What the agents need that is not in the message: the validation
      rules and string parsers, the current year, the language model and
      `str(context)`, and `external(agent, method, message)`, the answer
      of any agent outside this model (the property-impact agent, or a
      class neither router knows). */
  datatype Services = Services(
    rules: Validation.Rules,
    parsers: Parsers,
    currentYear: int,
    ai: Interaction.LanguageModel,
    show: Value -> string,
    external: (Agent, Method, Message) -> Response)

  /** What `get_status` returns: the router's own status and each
      registered class's. */
  datatype Status = Status(mcpStatus: string, agents: map<string, string>)

  /** `get_status` of either router, over its status dict: the router is
      always active and reports every class it holds a status for. */
  function GetStatus(status: map<string, string>): (st: Status)
    ensures st.mcpStatus == "active" && st.agents == status
  {
    Status("active", status)
  }

  /** The dict `process_api_request` returns: an unknown endpoint gives
      no `data` key. */
  datatype ApiResult = ApiResult(success: bool, data: Option<Data>, error: Option<string>)

  /** The response of a routed request, copied into the reply dict. */
  function ApiResultOf(r: Response): (a: ApiResult)
    ensures a.success == r.success && a.data == Some(r.data) && a.error == r.error
  {
    ApiResult(r.success, Some(r.data), r.error)
  }

  /** A dict from strings to strings, in declaration order. */
  type Names = seq<(string, string)>

  /** `table.get(key)` */
  function Find(table: Names, key: string): (r: Option<string>)
    ensures r.None? <==> forall i :: 0 <= i < |table| ==> table[i].0 != key
    ensures r.Some? ==> exists i :: 0 <= i < |table| && table[i] == (key, r.value)
  {
    if |table| == 0 then None
    else if table[0].0 == key then Some(table[0].1)
    else
      var r := Find(table[1..], key);
      assert forall i :: 1 <= i < |table| ==> table[i] == table[1..][i - 1];
      r
  }

  /** The live router's endpoint-to-type table. */
  const LiveEndpoints: Names := [
    ("/api/mcp/property-validate", "property_validation"),
    ("/api/mcp/property-value", "property_valuation"),
    ("/api/mcp/property-impact", "property_impact"),
    ("/api/mcp/user-query", "user_query"),
    ("/api/mcp/batch-validate", "batch_validate")]

  /** The older router's table: the same endpoints, two of them spelled
      differently as message types. */
  const ExportEndpoints: Names := [
    ("/api/mcp/property-validate", "property_validate"),
    ("/api/mcp/property-value", "property_value"),
    ("/api/mcp/property-impact", "property_impact"),
    ("/api/mcp/user-query", "user_query"),
    ("/api/mcp/batch-validate", "batch_validate")]

  /** The message both routers build from a request, as written:
      `MCPMessage(message_type, data)` passes the request body in the
      `sender` position, so the message carries no values. */
  function ApiMessageAsWritten(messageType: string, data: map<string, Value>): (m: Message)
    ensures m.msgType == messageType
    ensures m.values == map[]
    ensures m.sender == RequestBody(data)
  {
    NewMessage(messageType, RequestBody(data))
  }

  /** As written, no key of the request body can be read from the message. */
  lemma AsWrittenMessageLosesBody(messageType: string, data: map<string, Value>, key: string, default: Value)
    requires key in data && data[key] != default
    ensures GetValue(ApiMessageAsWritten(messageType, data), key, default) == default
    ensures GetValue(ApiMessageAsWritten(messageType, data), key, default) != data[key]
  {
  }

  /** `route_message` of either router as written: `MCPMessage` defines
      no `get_type`, so the first step raises and every message, whatever
      its type, is answered with the routing error. */
  function RouteAsWritten(m: Message): (r: Response)
    ensures !r.success && r.data == Empty
    ensures r.error.Some? && StartsWith(r.error.value, "Error routing message: ")
    ensures Contains(r.error.value, "get_type")
  {
    var e := "Error routing message: " + AttributeError("MCPMessage", "get_type");
    assert StartsWith(e[|e| - 9..], "get_type");
    Fail(e)
  }

  /** The intended message: the system is the sender and the request body
      is the payload. */
  function ApiMessage(messageType: string, data: map<string, Value>): (m: Message)
    ensures m.msgType == messageType && m.sender == SystemSender
    ensures forall key :: key in data ==> GetValue(m, key) == data[key]
    ensures forall key :: key !in data ==> GetValue(m, key) == Scalar(Null)
  {
    NewMessage(messageType, SystemSender, Some(data))
  }
}

=== FILE: tracked_analysis.dfy ===
/** The control flow of github_export/services/bill_analysis_service.py:
    analysing a tracked bill, categorising it, and analysing a batch. The
    bill lookup and the three model-backed analyses are parameters; the
    database updates they trigger do not change any result and are left
    out. */
module TrackedAnalysis {
  import opened Wrappers
  import opened Values

  /** A result dictionary. */
  type Dict = map<string, Value>

  /** `{"error": message}` */
  function ErrorDict(message: string): (d: Dict)
    ensures "error" in d && d["error"] == Scalar(Str(message))
  {
    map["error" := Scalar(Str(message))]
  }

  /** The three analyses, each given the bill's text and title; a
      `Failure` is an exception they raise. */
  datatype Analyzers = Analyzers(
    summary: (Raw, Raw) -> Result<Dict>,
    entities: (Raw, Raw) -> Result<Dict>,
    impact: (Raw, Raw) -> Result<Dict>)

  /** `get_bill_by_id(bill_id, source)` */
  type Finder = (string, Option<string>) -> Option<Record>

  /** The analysis selected by its name, if the name is known. */
  function Analysis(ai: Analyzers, analysisType: string): (f: Option<(Raw, Raw) -> Result<Dict>>)
    ensures f.Some? <==> analysisType in {"summary", "entities", "impact"}
    ensures analysisType == "summary" ==> f == Some(ai.summary)
    ensures analysisType == "entities" ==> f == Some(ai.entities)
    ensures analysisType == "impact" ==> f == Some(ai.impact)
  {
    match analysisType
    case "summary" => Some(ai.summary)
    case "entities" => Some(ai.entities)
    case "impact" => Some(ai.impact)
    case _ => None
  }

  /** A bill the lookup found: Python treats an empty dict as not found. */
  predicate Found(bill: Option<Record>) {
    bill.Some? && |bill.value| > 0
  }

  /** `analyze_tracked_bill`: the error dict for a missing bill, a bill
      without a description, an unknown analysis type or a failed
      analysis; otherwise the analysis's own result. */
  function AnalyzeTrackedBill(billId: string, analysisType: string, source: Option<string>,
                              find: Finder, ai: Analyzers): (r: Dict)
    ensures !Found(find(billId, source)) ==> r == ErrorDict("Bill " + billId + " not found")
    ensures Found(find(billId, source)) && !Get(find(billId, source).value, "description").Truthy() ==>
              r == ErrorDict("Bill " + billId + " has no text to analyze")
    ensures Found(find(billId, source)) && Get(find(billId, source).value, "description").Truthy() ==>
              var bill := find(billId, source).value;
              match Analysis(ai, analysisType)
              case None => r == ErrorDict("Unknown analysis type: " + analysisType)
              case Some(f) =>
                match f(Get(bill, "description"), Get(bill, "title"))
                case Failure(e) => r == ErrorDict("Analysis failed: " + e)
                case Success(d) => r == d
  {
    match find(billId, source)
    case None => ErrorDict("Bill " + billId + " not found")
    case Some(bill) =>
      if |bill| == 0 then ErrorDict("Bill " + billId + " not found")
      else if !Get(bill, "description").Truthy() then ErrorDict("Bill " + billId + " has no text to analyze")
      else
        match Analysis(ai, analysisType)
        case None => ErrorDict("Unknown analysis type: " + analysisType)
        case Some(f) =>
          match f(Get(bill, "description"), Get(bill, "title"))
          case Failure(e) => ErrorDict("Analysis failed: " + e)
          case Success(d) => d
  }

  /** The analysis succeeds, in the sense the batch and the categoriser
      test (no "error" key), exactly when the bill is found with a
      description, the type is known, and the analysis returns a result
      without an "error" key of its own. */
  lemma AnalyzeErrorIff(billId: string, analysisType: string, source: Option<string>, find: Finder, ai: Analyzers)
    ensures var r := AnalyzeTrackedBill(billId, analysisType, source, find, ai);
            var bill := find(billId, source);
            "error" !in r <==>
              Found(bill) && Get(bill.value, "description").Truthy()
              && Analysis(ai, analysisType).Some?
              && var out := Analysis(ai, analysisType).value(Get(bill.value, "description"), Get(bill.value, "title"));
                 out.Success? && "error" !in out.value
  {
  }

  /** `categorize_bill`: a missing bill or a failed impact analysis is
      returned as its error dict; otherwise the bill's classes (default
      `[]`) and impact level (default "Unknown"). */
  function CategorizeBill(billId: string, source: Option<string>, find: Finder, ai: Analyzers): (r: Dict)
    ensures !Found(find(billId, source)) ==> r == ErrorDict("Bill " + billId + " not found")
    ensures "error" in AnalyzeTrackedBill(billId, "impact", source, find, ai) ==>
              r == AnalyzeTrackedBill(billId, "impact", source, find, ai)
    ensures "error" !in AnalyzeTrackedBill(billId, "impact", source, find, ai) ==>
              var impact := AnalyzeTrackedBill(billId, "impact", source, find, ai);
              r.Keys == {"bill_id", "affected_property_classes", "impact_level"}
              && r["bill_id"] == Scalar(Str(billId))
              && r["affected_property_classes"] ==
                   (if "affected_property_classes" in impact then impact["affected_property_classes"] else List([]))
              && r["impact_level"] ==
                   (if "impact_level" in impact then impact["impact_level"] else Scalar(Str("Unknown")))
  {
    if !Found(find(billId, source)) then ErrorDict("Bill " + billId + " not found")
    else
      var impact := AnalyzeTrackedBill(billId, "impact", source, find, ai);
      if "error" in impact then impact
      else
        map["bill_id" := Scalar(Str(billId)),
            "affected_property_classes" :=
              if "affected_property_classes" in impact then impact["affected_property_classes"] else List([]),
            "impact_level" := if "impact_level" in impact then impact["impact_level"] else Scalar(Str("Unknown"))]
  }

  /** Categorising fails exactly when the impact analysis does, with the
      same error. */
  lemma CategorizeErrorIff(billId: string, source: Option<string>, find: Finder, ai: Analyzers)
    ensures var r := CategorizeBill(billId, source, find, ai);
            var impact := AnalyzeTrackedBill(billId, "impact", source, find, ai);
            ("error" in r <==> "error" in impact) && ("error" in r ==> r == impact)
  {
  }

  /** One entry of the batch's `errors` list. */
  datatype BatchError = BatchError(billId: string, error: Value)

  datatype Batch = Batch(results: map<string, Dict>, errors: seq<BatchError>,
                         total: nat, successful: nat, failed: nat)

  /** The error entries the batch reports, in the order of the IDs: the
      reference the loop is measured against. */
  function ErrorsOf(ids: seq<string>, analyze: string -> Dict): seq<BatchError>
    decreases |ids|
  {
    if |ids| == 0 then []
    else
      var last := ids[|ids| - 1];
      ErrorsOf(ids[..|ids| - 1], analyze)
        + (if "error" in analyze(last) then [BatchError(last, analyze(last)["error"])] else [])
  }

  /** The IDs whose analysis succeeds. */
  function Succeeding(ids: seq<string>, analyze: string -> Dict): set<string> {
    set i | 0 <= i < |ids| && "error" !in analyze(ids[i]) :: ids[i]
  }

  predicate Distinct(ids: seq<string>) {
    forall i, j :: 0 <= i < j < |ids| ==> ids[i] != ids[j]
  }

  lemma ErrorsStep(ids: seq<string>, k: nat, analyze: string -> Dict)
    requires k < |ids|
    ensures ErrorsOf(ids[..k + 1], analyze)
            == ErrorsOf(ids[..k], analyze)
               + (if "error" in analyze(ids[k]) then [BatchError(ids[k], analyze(ids[k])["error"])] else [])
  {
    assert ids[..k + 1][..k] == ids[..k];
  }

  lemma SucceedingStep(ids: seq<string>, k: nat, analyze: string -> Dict)
    requires k < |ids|
    ensures Succeeding(ids[..k + 1], analyze)
            == Succeeding(ids[..k], analyze) + (if "error" in analyze(ids[k]) then {} else {ids[k]})
  {
    var a, b := ids[..k + 1], ids[..k];
    forall id | id in Succeeding(a, analyze)
      ensures id in Succeeding(b, analyze) + (if "error" in analyze(ids[k]) then {} else {ids[k]})
    {
      var i :| 0 <= i < |a| && "error" !in analyze(a[i]) && a[i] == id;
      if i < k { assert b[i] == id; }
    }
    forall id | id in Succeeding(b, analyze)
      ensures id in Succeeding(a, analyze)
    {
      var i :| 0 <= i < |b| && "error" !in analyze(b[i]) && b[i] == id;
      assert a[i] == id;
    }
    if "error" !in analyze(ids[k]) {
      assert a[k] == ids[k];
    }
  }

  /** With distinct IDs, an ID is not among the successes before it. */
  lemma DistinctFresh(ids: seq<string>, k: nat, analyze: string -> Dict)
    requires Distinct(ids) && k < |ids|
    ensures ids[k] !in Succeeding(ids[..k], analyze)
  {
    forall i | 0 <= i < k
      ensures ids[..k][i] != ids[k]
    {
      assert ids[..k][i] == ids[i];
    }
  }

  /** Adding a key grows a map by one exactly when the key is new. */
  lemma UpdateSize(m: map<string, Dict>, key: string, d: Dict)
    ensures |m[key := d]| == |m| + (if key in m then 0 else 1)
  {
    if key in m {
      assert m[key := d].Keys == m.Keys;
    } else {
      assert m[key := d].Keys == m.Keys + {key};
    }
  }

  /** What the loop knows after the first `k` IDs. */
  predicate PartitionedUpTo(ids: seq<string>, k: nat, analyze: string -> Dict,
                            results: map<string, Dict>, errors: seq<BatchError>)
    requires k <= |ids|
  {
    && errors == ErrorsOf(ids[..k], analyze)
    && results.Keys == Succeeding(ids[..k], analyze)
    && (forall id :: id in results ==> results[id] == analyze(id))
    && |results| + |errors| <= k
    && (Distinct(ids) ==> |results| + |errors| == k)
  }

  /** One pass of the loop: the ID's result goes to the errors or the
      results. */
  method PartitionStep(ids: seq<string>, k: nat, analyze: string -> Dict,
                       results: map<string, Dict>, errors: seq<BatchError>)
    returns (results': map<string, Dict>, errors': seq<BatchError>)
    requires k < |ids| && PartitionedUpTo(ids, k, analyze, results, errors)
    ensures PartitionedUpTo(ids, k + 1, analyze, results', errors')
  {
    var id := ids[k];
    var result := analyze(id);
    ErrorsStep(ids, k, analyze);
    SucceedingStep(ids, k, analyze);
    if "error" in result {
      results', errors' := results, errors + [BatchError(id, result["error"])];
    } else {
      if Distinct(ids) {
        DistinctFresh(ids, k, analyze);
      }
      UpdateSize(results, id, result);
      assert errors == ErrorsOf(ids[..k], analyze) + [];
      results', errors' := results[id := result], errors;
    }
  }

  /** The loop of `batch_analyze_bills` for any analysis. */
  method Partition(ids: seq<string>, analyze: string -> Dict) returns (results: map<string, Dict>, errors: seq<BatchError>)
    ensures errors == ErrorsOf(ids, analyze)
    ensures results.Keys == Succeeding(ids, analyze)
    ensures forall id :: id in results ==> results[id] == analyze(id)
    ensures |results| + |errors| <= |ids|
    ensures Distinct(ids) ==> |results| + |errors| == |ids|
  {
    results, errors := map[], [];
    assert ids[..0] == [];
    for k := 0 to |ids|
      invariant PartitionedUpTo(ids, k, analyze, results, errors)
    {
      results, errors := PartitionStep(ids, k, analyze, results, errors);
    }
    assert ids[..|ids|] == ids;
  }

  /** `batch_analyze_bills`: each ID is analysed once, in order; failures
      are listed in order, successes are keyed by ID (a repeated ID keeps
      its last success). */
  method BatchAnalyzeBills(ids: seq<string>, analysisType: string, find: Finder, ai: Analyzers)
    returns (b: Batch)
    ensures b.total == |ids| && b.failed == |b.errors| && b.successful == |b.results|
    ensures b.errors == ErrorsOf(ids, id => AnalyzeTrackedBill(id, analysisType, None, find, ai))
    ensures b.results.Keys == Succeeding(ids, id => AnalyzeTrackedBill(id, analysisType, None, find, ai))
    ensures forall id :: id in b.results ==> b.results[id] == AnalyzeTrackedBill(id, analysisType, None, find, ai)
    ensures b.successful + b.failed <= b.total
    ensures Distinct(ids) ==> b.successful + b.failed == b.total
  {
    var results, errors := Partition(ids, id => AnalyzeTrackedBill(id, analysisType, None, find, ai));
    b := Batch(results, errors, |ids|, |results|, |errors|);
  }
}

=== FILE: trackers.dfy ===
/** The aggregation over the four legislative sources
    (services/trackers/__init__.py). What each tracker fetches is an
    input: `None` when its fetch raises, which the aggregation skips. */
module Trackers {
  import opened Wrappers
  import opened Values

  /** What each source's fetch returned, in the order they are asked. */
  datatype Fetched = Fetched(
    wa: Option<seq<Record>>,
    openstates: Option<seq<Record>>,
    legiscan: Option<seq<Record>>,
    local: Option<seq<Record>>)

  const SourceNames: seq<string> := ["wa_legislature", "openstates", "legiscan", "local"]

  /** Each bill of a source, marked with the source's name. */
  function Tag(bills: Option<seq<Record>>, name: string): (t: seq<Record>)
    ensures bills.None? ==> t == []
    ensures bills.Some? ==> |t| == |bills.value|
    ensures bills.Some? ==> forall i :: 0 <= i < |t| ==> t[i] == bills.value[i]["source" := Str(name)]
  {
    if bills.None? then [] else seq(|bills.value|, i requires 0 <= i < |bills.value| => bills.value[i]["source" := Str(name)])
  }

  function Count(bills: Option<seq<Record>>): nat {
    if bills.None? then 0 else |bills.value|
  }

  /** `get_all_tracked_bills`: the sources' bills in source order, each
      tagged with its source; a failed source contributes nothing. */
  function AllTracked(f: Fetched): (all: seq<Record>)
    ensures |all| == Count(f.wa) + Count(f.openstates) + Count(f.legiscan) + Count(f.local)
    ensures forall i :: 0 <= i < |all| ==> "source" in all[i] && all[i]["source"].Str?
                                           && all[i]["source"].s in SourceNames
    ensures all[..Count(f.wa)] == Tag(f.wa, "wa_legislature")
    ensures all[Count(f.wa)..Count(f.wa) + Count(f.openstates)] == Tag(f.openstates, "openstates")
    ensures all[Count(f.wa) + Count(f.openstates)..Count(f.wa) + Count(f.openstates) + Count(f.legiscan)]
            == Tag(f.legiscan, "legiscan")
    ensures all[Count(f.wa) + Count(f.openstates) + Count(f.legiscan)..] == Tag(f.local, "local")
  {
    var all := Tag(f.wa, "wa_legislature") + Tag(f.openstates, "openstates")
               + Tag(f.legiscan, "legiscan") + Tag(f.local, "local");
    assert all[..Count(f.wa)] == Tag(f.wa, "wa_legislature");
    all
  }

  /** `bill.get(key, '').lower()`: a field that is not a string has no
      `lower`. */
  function LoweredField(bill: Record, key: string): (r: Result<string>)
    ensures r.Success? <==> GetOr(bill, key, Str("")).Str?
    ensures r.Success? ==> r.value == Lower(GetOr(bill, key, Str("")).s)
  {
    match GetOr(bill, key, Str(""))
    case Str(s) => Success(Lower(s))
    case x => Failure(AttributeError(x.TypeName(), "lower"))
  }

  /** The search test for one bill, with `or` short-circuiting: the
      summary is looked at only when the title does not match. */
  function Matches(bill: Record, query: string): (r: Result<bool>)
    ensures r == Success(true) <==>
              LoweredField(bill, "title").Success?
              && (Contains(LoweredField(bill, "title").value, query)
                  || (LoweredField(bill, "summary").Success? && Contains(LoweredField(bill, "summary").value, query)))
  {
    var title :- LoweredField(bill, "title");
    if Contains(title, query) then Success(true)
    else
      var summary :- LoweredField(bill, "summary");
      Success(Contains(summary, query))
  }

  /** The test `search_bills` applies for a lowered query. */
  function MatchesQuery(query: string): Record -> Result<bool> {
    bill => Matches(bill, query)
  }

  /** The bills that pass `test`, in order; the first bill whose test
      raises ends the search. */
  function Select(bills: seq<Record>, test: Record -> Result<bool>): (r: Result<seq<Record>>)
    ensures r.Success? <==> forall i :: 0 <= i < |bills| ==> test(bills[i]).Success?
    ensures r.Success? ==> |r.value| <= |bills|
  {
    if |bills| == 0 then Success([])
    else
      assert forall i :: 1 <= i < |bills| ==> bills[i] == bills[1..][i - 1];
      match test(bills[0])
      case Failure(e) => Failure(e)
      case Success(keep) =>
        match Select(bills[1..], test)
        case Failure(e) => Failure(e)
        case Success(rest) => Success(if keep then [bills[0]] + rest else rest)
  }

  /** A successful selection returns exactly the bills that pass: each
      one it returns passes and comes from the input, and each input bill
      that passes is returned. */
  lemma {:induction false} SelectKeepsMatches(bills: seq<Record>, test: Record -> Result<bool>)
    requires Select(bills, test).Success?
    ensures forall b :: b in Select(bills, test).value ==> b in bills && test(b) == Success(true)
    ensures forall i :: 0 <= i < |bills| && test(bills[i]) == Success(true) ==> bills[i] in Select(bills, test).value
  {
    if |bills| > 0 {
      var tail := bills[1..];
      assert forall i :: 0 <= i < |tail| ==> tail[i] == bills[i + 1];
      SelectKeepsMatches(tail, test);
      var rest := Select(tail, test).value;
      var r := Select(bills, test).value;
      assert r == (if test(bills[0]).value then [bills[0]] + rest else rest);
      forall i | 0 <= i < |bills| && test(bills[i]) == Success(true) ensures bills[i] in r {
        if i > 0 {
          assert bills[i] == tail[i - 1];
        }
      }
    }
  }

  /** Selection keeps order: selecting from a concatenation concatenates
      the selections. */
  lemma {:induction false} SelectAppend(a: seq<Record>, b: seq<Record>, test: Record -> Result<bool>)
    requires Select(a, test).Success? && Select(b, test).Success?
    ensures Select(a + b, test) == Success(Select(a, test).value + Select(b, test).value)
  {
    if |a| > 0 {
      assert (a + b)[0] == a[0];
      assert (a + b)[1..] == a[1..] + b;
      assert forall i :: 0 <= i < |a[1..]| ==> a[1..][i] == a[i + 1];
      SelectAppend(a[1..], b, test);
      var fa1, fb := Select(a[1..], test).value, Select(b, test).value;
      var keep := test(a[0]).value;
      var joined := if keep then [a[0]] + (fa1 + fb) else fa1 + fb;
      assert Select(a + b, test) == Success(joined);
      assert Select(a, test).value + fb == joined by {
        if keep {
          assert [a[0]] + (fa1 + fb) == ([a[0]] + fa1) + fb;
        }
      }
    } else {
      assert a + b == b;
      assert Select(a, test) == Success([]);
      assert [] + Select(b, test).value == Select(b, test).value;
    }
  }

  /** `search_bills`: the query is lowered before the test. */
  function SearchBills(f: Fetched, query: string): (r: Result<seq<Record>>)
    ensures r.Success? <==> forall i :: 0 <= i < |AllTracked(f)| ==> Matches(AllTracked(f)[i], Lower(query)).Success?
    ensures r.Success? ==> |r.value| <= |AllTracked(f)|
  {
    Select(AllTracked(f), MatchesQuery(Lower(query)))
  }

  /** The search ignores the query's case. */
  lemma SearchIgnoresCase(f: Fetched, query: string)
    ensures SearchBills(f, Lower(query)) == SearchBills(f, query)
  {
    LowerIdempotent(query);
  }

  /** The empty query is in every string, so it keeps every bill whose
      title is a string or absent. */
  lemma {:induction false} EmptyQueryKeepsAll(bills: seq<Record>)
    requires forall i :: 0 <= i < |bills| ==> GetOr(bills[i], "title", Str("")).Str?
    ensures Select(bills, MatchesQuery("")) == Success(bills)
  {
    if |bills| > 0 {
      var t := LoweredField(bills[0], "title").value;
      assert StartsWith(t[0..], "");
      assert Matches(bills[0], "") == Success(true);
      assert forall i :: 0 <= i < |bills[1..]| ==> bills[1..][i] == bills[i + 1];
      EmptyQueryKeepsAll(bills[1..]);
      assert [bills[0]] + bills[1..] == bills;
    }
  }

  /** With every title a string, the empty search returns every tracked
      bill. */
  lemma EmptySearchKeepsAll(f: Fetched)
    requires forall i :: 0 <= i < |AllTracked(f)| ==> GetOr(AllTracked(f)[i], "title", Str("")).Str?
    ensures SearchBills(f, "") == Success(AllTracked(f))
  {
    assert Lower("") == "";
    EmptyQueryKeepsAll(AllTracked(f));
  }

  /** `str(bill.get('bill_id', '')).lower()`; how a float prints is left
      to `realRepr`. */
  function IdKey(x: Raw, realRepr: real -> string): string {
    Lower(PyStr(x, realRepr))
  }

  /** `str(bill.get('bill_id', '')).lower() == key` */
  predicate HasId(bill: Record, key: string, realRepr: real -> string) {
    IdKey(GetOr(bill, "bill_id", Str("")), realRepr) == key
  }

  /** The first bill that passes `test`. */
  function FirstWhere(bills: seq<Record>, test: Record -> bool): (r: Option<Record>)
    ensures r.None? <==> forall i :: 0 <= i < |bills| ==> !test(bills[i])
    ensures r.Some? ==> exists i :: 0 <= i < |bills| && bills[i] == r.value && test(bills[i])
                                    && forall j :: 0 <= j < i ==> !test(bills[j])
  {
    if |bills| == 0 then None
    else if test(bills[0]) then Some(bills[0])
    else
      var r := FirstWhere(bills[1..], test);
      assert forall i :: 1 <= i < |bills| ==> bills[i] == bills[1..][i - 1];
      r
  }

  /** Earlier bills win: a match in the first part hides every later one. */
  lemma {:induction false} FirstWherePrefers(a: seq<Record>, b: seq<Record>, test: Record -> bool)
    requires FirstWhere(a, test).Some?
    ensures FirstWhere(a + b, test) == FirstWhere(a, test)
  {
    assert (a + b)[0] == a[0];
    if !test(a[0]) {
      assert (a + b)[1..] == a[1..] + b;
      FirstWherePrefers(a[1..], b, test);
    }
  }

  /** The first bill whose ID matches the key. */
  function FirstWithId(bills: seq<Record>, key: string, realRepr: real -> string): (r: Option<Record>)
    ensures r.None? <==> forall i :: 0 <= i < |bills| ==> !HasId(bills[i], key, realRepr)
    ensures r.Some? ==> exists i :: 0 <= i < |bills| && bills[i] == r.value && HasId(bills[i], key, realRepr)
                                    && forall j :: 0 <= j < i ==> !HasId(bills[j], key, realRepr)
  {
    FirstWhere(bills, b => HasId(b, key, realRepr))
  }

  /** Without a source, the legislature's match hides every later one. */
  lemma FirstWithIdPrefers(a: seq<Record>, b: seq<Record>, key: string, realRepr: real -> string)
    requires FirstWithId(a, key, realRepr).Some?
    ensures FirstWithId(a + b, key, realRepr) == FirstWithId(a, key, realRepr)
  {
    FirstWherePrefers(a, b, b => HasId(b, key, realRepr));
  }

  /** Each tracker's own lookup by ID. */
  datatype Lookups = Lookups(
    wa: Raw -> Option<Record>,
    openstates: Raw -> Option<Record>,
    legiscan: Raw -> Option<Record>,
    local: Raw -> Option<Record>)

  /** `get_bill_by_id`: a named source asks only that tracker; otherwise
      the first bill of all sources whose ID matches, ignoring case. */
  function BillById(billId: Raw, source: Raw, f: Fetched, lookups: Lookups, realRepr: real -> string): (r: Option<Record>)
    ensures source == Str("wa_legislature") ==> r == lookups.wa(billId)
    ensures source == Str("openstates") ==> r == lookups.openstates(billId)
    ensures source == Str("legiscan") ==> r == lookups.legiscan(billId)
    ensures source == Str("local") ==> r == lookups.local(billId)
    ensures !(source.Str? && source.s in SourceNames) ==>
              r == FirstWithId(AllTracked(f), IdKey(billId, realRepr), realRepr)
  {
    if source == Str("wa_legislature") then lookups.wa(billId)
    else if source == Str("openstates") then lookups.openstates(billId)
    else if source == Str("legiscan") then lookups.legiscan(billId)
    else if source == Str("local") then lookups.local(billId)
    else FirstWithId(AllTracked(f), IdKey(billId, realRepr), realRepr)
  }

  /** Without a source, a bill the legislature's own tracker holds is
      found there first, tagged as coming from it. */
  lemma LegislatureFirst(billId: Raw, f: Fetched, lookups: Lookups, realRepr: real -> string)
    requires FirstWithId(Tag(f.wa, "wa_legislature"), IdKey(billId, realRepr), realRepr).Some?
    ensures BillById(billId, Null, f, lookups, realRepr).Some?
    ensures BillById(billId, Null, f, lookups, realRepr).value["source"] == Str("wa_legislature")
  {
    var all := AllTracked(f);
    var wa := Tag(f.wa, "wa_legislature");
    var key := IdKey(billId, realRepr);
    assert BillById(billId, Null, f, lookups, realRepr) == FirstWithId(all, key, realRepr);
    AllTrackedStartsWithLegislature(f);
    FirstWithIdPrefers(wa, all[|wa|..], key, realRepr);
    assert FirstWithId(all, key, realRepr) == FirstWithId(wa, key, realRepr);
    FirstWithIdTagged(f.wa, "wa_legislature", key, realRepr);
  }

  lemma AllTrackedStartsWithLegislature(f: Fetched)
    ensures AllTracked(f) == Tag(f.wa, "wa_legislature") + AllTracked(f)[|Tag(f.wa, "wa_legislature")|..]
  {
    var all := AllTracked(f);
    var wa := Tag(f.wa, "wa_legislature");
    assert all[..|wa|] == wa;
    assert all == all[..|wa|] + all[|wa|..];
  }

  /** The bill found among a source's tagged bills carries that source. */
  lemma FirstWithIdTagged(bills: Option<seq<Record>>, name: string, key: string, realRepr: real -> string)
    requires FirstWithId(Tag(bills, name), key, realRepr).Some?
    ensures FirstWithId(Tag(bills, name), key, realRepr).value["source"] == Str(name)
  {
    var tagged := Tag(bills, name);
    var i :| 0 <= i < |tagged| && tagged[i] == FirstWithId(tagged, key, realRepr).value;
    assert tagged[i]["source"] == Str(name);
  }
}

=== FILE: validation.dfy ===
/** The full data-validation agent of the exported application
    (`DataValidationAgent.validate_property_data` and its two message
    handlers). Every check runs; each appends to the error, warning and
    info lists, and only a Python exception (a `Failure`) ends the run
    early. The configured rules are an explicit `Rules` value. */
module Validation {
  import opened Wrappers
  import opened Values
  import opened Results
  import opened Envelope
  import opened Patterns
  import opened Diagnostics

  /** One row of PROPERTY_CLASSIFICATIONS: a class and its sub-codes. */
  datatype ClassEntry = ClassEntry(name: string, codes: seq<string>)

  /** The configuration keys the validator reads; `None` is an unset key. */
  datatype Config = Config(
    minPropertyValue: Option<real>,
    maxPropertyValue: Option<real>,
    classifications: Option<seq<ClassEntry>>,
    stateCode: Option<string>,
    countyCode: Option<string>,     // the key BENTON_COUNTY_CODE
    valuationMethods: Option<seq<string>>)

  /** The rules one validation run applies. The parcel pattern is always
      the default `^\d{8}-\d{3}$`. */
  datatype Rules = Rules(
    minValue: real,
    maxValue: real,
    classes: seq<ClassEntry>,
    stateCode: string,
    countyCode: string,
    methods: seq<string>,
    currentYear: int)

  /** The configured classes and their sub-codes, in declaration order. */
  const Classifications: seq<ClassEntry> := [
    ClassEntry("Residential", ["R1", "R2", "R3", "R4"]),
    ClassEntry("Commercial", ["C1", "C2", "C3"]),
    ClassEntry("Industrial", ["I1", "I2", "I3"]),
    ClassEntry("Agricultural", ["A1", "A2"]),
    ClassEntry("Vacant Land", ["V1", "V2"]),
    ClassEntry("Public", ["P1", "P2"])
  ]

  /** The exported application's configuration. */
  const ExportConfig: Config := Config(
    Some(1000.0), Some(1000000000.0), Some(Classifications),
    Some("WA"), Some("005"), Some(["Market", "Cost", "Income"]))

  /** The top-level application's configuration names the county key
      WASHINGTON_COUNTY_CODE, so under it the validator's key is unset. */
  const RootConfig: Config := ExportConfig.(countyCode := None)

  /** `config.get(key, default)` for every key the validator reads. */
  function RulesOf(c: Config, currentYear: int): (rules: Rules)
    ensures c.minPropertyValue.Some? ==> rules.minValue == c.minPropertyValue.value
    ensures c.minPropertyValue.None? ==> rules.minValue == 1000.0
    ensures c.maxPropertyValue.Some? ==> rules.maxValue == c.maxPropertyValue.value
    ensures c.maxPropertyValue.None? ==> rules.maxValue == 1000000000.0
    ensures c.classifications.Some? ==> rules.classes == c.classifications.value
    ensures c.classifications.None? ==> rules.classes == []
    ensures c.stateCode.Some? ==> rules.stateCode == c.stateCode.value
    ensures c.stateCode.None? ==> rules.stateCode == "WA"
    ensures c.countyCode.Some? ==> rules.countyCode == c.countyCode.value
    ensures c.countyCode.None? ==> rules.countyCode == "005"
    ensures c.valuationMethods.Some? ==> rules.methods == c.valuationMethods.value
    ensures c.valuationMethods.None? ==> rules.methods == ["Market", "Cost", "Income"]
    ensures rules.currentYear == currentYear
  {
    Rules(c.minPropertyValue.GetOr(1000.0),
          c.maxPropertyValue.GetOr(1000000000.0),
          c.classifications.GetOr([]),
          c.stateCode.GetOr("WA"),
          c.countyCode.GetOr("005"),
          c.valuationMethods.GetOr(["Market", "Cost", "Income"]),
          currentYear)
  }

  /** The county-code key mismatch is harmless: the default the validator
      falls back to equals the value the other configuration gives. */
  lemma CountyKeyMismatchIsHarmless(currentYear: int)
    ensures RulesOf(RootConfig, currentYear) == RulesOf(ExportConfig, currentYear)
  {
  }

  predicate TruthyNonString(x: Raw) {
    x.Truthy() && !x.Str?
  }

  // ---------------------------------------------------------------------
  // Findings and the check that emits them

  /** The position, in the run, of the check that emits each finding
      (16 for the findings only the simplified validator emits). */
  function Origin(f: Finding): nat {
    match f
    case ParcelRequired | ParcelFormat | CountyPrefix(_) => 0
    case AddressRequired | AddressTooShort | AddressNoNumber => 1
    case CityRequired => 2
    case StateRequired | StateNotAllowed(_) => 3
    case ZipRequired | ZipFormat | ZipOutsideCounty => 4
    case YearRequired | YearNotInteger | YearTooEarly | YearTooLate(_) | YearInPast(_) | YearConverted => 5
    case AssessedRequired | AssessedNotNumber | AssessedBelowMin(_) | AssessedAboveMax(_) | AssessedConverted => 6
    case LandValueNotNumber | LandValueNegative | LandExceedsAssessed | LandValueConverted => 7
    case ImprovementNotNumber | ImprovementNegative | ImprovementConverted => 8
    case Unbalanced(_, _, _) => 9
    case ClassRequired | ClassInvalid(_) | SubcodeInvalid(_, _, _) => 10
    case BedroomsNotInteger | BedroomsNegative | BedroomsHigh | BedroomsConverted
       | BathroomsNotNumber | BathroomsNegative | BathroomsHigh | BathroomsConverted
       | YearBuiltNotInteger | YearBuiltFuture(_) | YearBuiltEarly | YearBuiltConverted => 11
    case BuildingAreaNotNumber | BuildingAreaNotPositive | BuildingAreaConverted
       | CapRateAdvised | AnnualIncomeAdvised => 12
    case LandAreaNotNumber | LandAreaNotPositive | LandAreaConverted => 13
    case MissingFields(_) => 14
    case MethodInvalid(_) => 15
    case _ => 16
  }

  // ---------------------------------------------------------------------
  // Identity and location

  function ParcelCheck(rec: Record, rules: Rules): (r: Result<Diag>)
    ensures r.Failure? <==> TruthyNonString(Get(rec, "parcel_id"))
    ensures r.Success? ==> r.value.info == []
    ensures r.Success? ==> |r.value.errors| + |r.value.warnings| <= 1
    ensures r.Success? ==> (r.value.errors == [ParcelRequired] <==> !Get(rec, "parcel_id").Truthy())
    ensures r.Success? ==> (r.value.errors == [ParcelFormat] <==>
                              Get(rec, "parcel_id").Str? && Get(rec, "parcel_id").s != ""
                              && !ParcelPattern(Get(rec, "parcel_id").s))
  {
    var parcelId := Get(rec, "parcel_id");
    if !parcelId.Truthy() then Success(Error(ParcelRequired))
    else if !parcelId.Str? then Failure(ReTypeError(parcelId))
    else if !ParcelPattern(parcelId.s) then Success(Error(ParcelFormat))
    else
      var parts := Split(parcelId.s, '-');
      if |parts| == 2 && |parts[0]| == 8 && !StartsWith(parts[0], rules.countyCode) then
        Success(Warning(CountyPrefix(rules.countyCode)))
      else Success(Clean)
  }

  /** A well-formed parcel ID only draws the county warning, exactly when
      its first eight characters do not start with the county code. */
  lemma CountyPrefixIsOnlyAWarning(rec: Record, rules: Rules)
    requires Get(rec, "parcel_id").Str? && ParcelPattern(Get(rec, "parcel_id").s)
    ensures ParcelCheck(rec, rules).Success?
    ensures ParcelCheck(rec, rules).value.errors == []
    ensures CountyPrefix(rules.countyCode) in ParcelCheck(rec, rules).value.warnings
            <==> !StartsWith(Get(rec, "parcel_id").s[..8], rules.countyCode)
  {
    ParcelSplit(Get(rec, "parcel_id").s);
  }

  function AddressCheck(rec: Record): (r: Result<Diag>)
    ensures r.Failure? <==> TruthyNonString(Get(rec, "property_address"))
    ensures r.Success? ==> r.value.info == []
    ensures r.Success? ==> (r.value.errors == [AddressRequired] <==> !Get(rec, "property_address").Truthy())
    ensures r.Success? ==>
              (r.value.errors == [AddressTooShort] <==>
                 Get(rec, "property_address").Str? && 0 < |Get(rec, "property_address").s| < 5)
    ensures r.Success? ==> r.value.warnings == [] || r.value.warnings == [AddressNoNumber]
    ensures r.Success? ==>
              (r.value.errors == [] <==>
                 (Get(rec, "property_address").Str? && |Get(rec, "property_address").s| >= 5))
    ensures r.Success? ==>
              (r.value.warnings != [] <==>
                 (Get(rec, "property_address").Str? && |Get(rec, "property_address").s| >= 5
                  && !HasDigit(Get(rec, "property_address").s)))
  {
    var address := Get(rec, "property_address");
    if !address.Truthy() then Success(Error(AddressRequired))
    else if !address.Str? then Failure(LenTypeError(address))
    else if |address.s| < 5 then Success(Error(AddressTooShort))
    else if !HasDigit(address.s) then Success(Warning(AddressNoNumber))
    else Success(Clean)
  }

  function CityCheck(rec: Record): (d: Diag)
    ensures d.errors != [] <==> !Get(rec, "property_city").Truthy()
  {
    if !Get(rec, "property_city").Truthy() then Error(CityRequired) else Clean
  }

  function StateCheck(rec: Record, rules: Rules): (d: Diag)
    ensures d.errors == [] <==> Get(rec, "property_state") == Str(rules.stateCode) && rules.stateCode != ""
  {
    var state := Get(rec, "property_state");
    if !state.Truthy() then Error(StateRequired)
    else if state != Str(rules.stateCode) then Error(StateNotAllowed(rules.stateCode))
    else Clean
  }

  function ZipCheck(rec: Record): (r: Result<Diag>)
    ensures r.Failure? <==> TruthyNonString(Get(rec, "property_zip"))
    ensures r.Success? ==>
              (r.value.errors == [] <==> Get(rec, "property_zip").Str? && ZipPattern(Get(rec, "property_zip").s))
    ensures r.Success? && r.value.warnings != [] ==> r.value.errors == []
    ensures r.Success? ==> r.value.info == []
    ensures r.Success? ==> (r.value.errors == [ZipRequired] <==> !Get(rec, "property_zip").Truthy())
    ensures r.Success? ==>
              (r.value.errors == [ZipFormat] <==>
                 Get(rec, "property_zip").Str? && Get(rec, "property_zip").s != ""
                 && !ZipPattern(Get(rec, "property_zip").s))
    ensures r.Success? ==>
              (r.value.warnings == [ZipOutsideCounty] <==>
                 Get(rec, "property_zip").Str? && ZipPattern(Get(rec, "property_zip").s)
                 && !StartsWith(Get(rec, "property_zip").s, "993"))
    ensures r.Success? ==> r.value.warnings == [] || r.value.warnings == [ZipOutsideCounty]
  {
    var zip := Get(rec, "property_zip");
    if !zip.Truthy() then Success(Error(ZipRequired))
    else if !zip.Str? then Failure(ReTypeError(zip))
    else if !ZipPattern(zip.s) then Success(Error(ZipFormat))
    else if !StartsWith(zip.s, "993") then Success(Warning(ZipOutsideCounty))
    else Success(Clean)
  }

  // ---------------------------------------------------------------------
  // Assessment year

  /** The range test of an integer assessment year. */
  function YearRange(year: int, currentYear: int): (d: Diag)
    ensures d.info == [] && |d.errors| + |d.warnings| <= 1
    ensures d.errors == [] <==> 2020 <= year <= currentYear + 1
    ensures d.warnings != [] <==> 2020 <= year < currentYear
    ensures d.warnings != [] ==> d.warnings == [YearInPast(year)]
  {
    if year < 2020 then Error(YearTooEarly)
    else if year > currentYear + 1 then Error(YearTooLate(currentYear + 1))
    else if year < currentYear then Warning(YearInPast(year))
    else Clean
  }

  /** A check's diagnostics with the (possibly coerced) field value. */
  datatype Step = Step(diag: Diag, value: Raw)

  /** `int(x)` or `float(x)` of a field of the wrong type: a note and the
      converted value when it succeeds, `invalid` when it raises. */
  function Coerce(x: Raw, p: Parsers, integral: bool, converted: Finding, invalid: Finding): (st: Step)
    ensures st.diag == Note(converted) || st.diag == Error(invalid)
    ensures st.diag == Note(converted) ==> (if integral then st.value.Int? else st.value.IsNumber())
    ensures st.diag == Note(converted) <==> (if integral then ToInt(x, p).Some? else ToFloat(x, p).Some?)
    ensures st.diag == Error(invalid) ==> st.value == x
  {
    if integral then
      match ToInt(x, p)
      case Some(n) => Step(Note(converted), Int(n))
      case None => Step(Error(invalid), x)
    else
      match ToFloat(x, p)
      case Some(v) => Step(Note(converted), Real(v))
      case None => Step(Error(invalid), x)
  }

  function YearCheck(rec: Record, rules: Rules, p: Parsers): (d: Diag)
    ensures Get(rec, "assessment_year").Int? && Get(rec, "assessment_year").i != 0 ==>
              d == YearRange(Get(rec, "assessment_year").i, rules.currentYear)
    ensures Get(rec, "assessment_year").Str? && Get(rec, "assessment_year").s != ""
            && p.toInt(Get(rec, "assessment_year").s).Some? ==>
              d == Plus(Note(YearConverted), YearRange(p.toInt(Get(rec, "assessment_year").s).value, rules.currentYear))
    ensures (YearRequired in d.errors) <==> !Get(rec, "assessment_year").Truthy()
    ensures Get(rec, "assessment_year").Truthy() && !Get(rec, "assessment_year").Int? && ToInt(Get(rec, "assessment_year"), p).None? ==> d == Error(YearNotInteger)
    ensures Get(rec, "assessment_year").Truthy() && !Get(rec, "assessment_year").Int? && ToInt(Get(rec, "assessment_year"), p).Some? ==>
              d == Plus(Note(YearConverted), YearRange(ToInt(Get(rec, "assessment_year"), p).value, rules.currentYear))
    ensures Get(rec, "assessment_year").Real? && Get(rec, "assessment_year").r != 0.0 ==>
              d == Plus(Note(YearConverted), YearRange(Trunc(Get(rec, "assessment_year").r), rules.currentYear))
  {
    var year := Get(rec, "assessment_year");
    var st :=
      if !year.Truthy() then Step(Error(YearRequired), year)
      else if year.Int? then Step(Clean, year)
      else Coerce(year, p, true, YearConverted, YearNotInteger);
    Plus(st.diag, if st.value.Int? then YearRange(st.value.i, rules.currentYear) else Clean)
  }

  /** The year 0 is falsy, so it is reported as missing, and, being an
      int, also as too early. */
  lemma YearZeroReportedTwice(rec: Record, rules: Rules, p: Parsers)
    requires Get(rec, "assessment_year") == Int(0)
    ensures YearCheck(rec, rules, p).errors == [YearRequired, YearTooEarly]
  {
  }

  // ---------------------------------------------------------------------
  // Values

  predicate ParsesAsFloat(x: Raw, p: Parsers) {
    x.IsNumber() || (x.Str? && p.toFloat(x.s).Some?)
  }

  function AssessedCheck(rec: Record, rules: Rules, p: Parsers): (st: Step)
    ensures st.value.IsNumber() <==> ParsesAsFloat(Get(rec, "assessed_value"), p)
    ensures Get(rec, "assessed_value").IsNumber() ==> st.value == Get(rec, "assessed_value")
    ensures st.value.IsNumber() && (st.value.Num() < rules.minValue || st.value.Num() > rules.maxValue)
            ==> st.diag.errors != []
    ensures Get(rec, "assessed_value").Null? ==> st.diag == Error(AssessedRequired)
    ensures AssessedNotNumber in st.diag.errors <==>
              !Get(rec, "assessed_value").Null? && !ParsesAsFloat(Get(rec, "assessed_value"), p)
    ensures AssessedBelowMin(rules.minValue) in st.diag.errors <==>
              st.value.IsNumber() && st.value.Num() < rules.minValue
    ensures AssessedAboveMax(rules.maxValue) in st.diag.errors <==>
              st.value.IsNumber() && rules.minValue <= st.value.Num() && st.value.Num() > rules.maxValue
    ensures st.value.IsNumber() && rules.minValue <= st.value.Num() <= rules.maxValue ==>
              forall f :: f in st.diag.errors ==> !f.AssessedBelowMin? && !f.AssessedAboveMax?
  {
    var assessed := Get(rec, "assessed_value");
    var first :=
      if assessed.Null? then Step(Error(AssessedRequired), assessed)
      else if assessed.IsNumber() then Step(Clean, assessed)
      else Coerce(assessed, p, false, AssessedConverted, AssessedNotNumber);
    var range :=
      if !first.value.IsNumber() then Clean
      else if first.value.Num() < rules.minValue then Error(AssessedBelowMin(rules.minValue))
      else if first.value.Num() > rules.maxValue then Error(AssessedAboveMax(rules.maxValue))
      else Clean;
    Step(Plus(first.diag, range), first.value)
  }

  /** The land-value block; comparing a non-negative land value with an
      assessed value that is not a number raises. */
  function LandCheck(rec: Record, assessed: Raw, p: Parsers): (r: Result<Step>)
    ensures r.Failure? <==>
              Get(rec, "land_value").IsNumber() && Get(rec, "land_value").Num() >= 0.0 && !assessed.IsNumber()
    ensures r.Success? ==> (r.value.value.IsNumber() <==> ParsesAsFloat(Get(rec, "land_value"), p))
    ensures r.Success? && Get(rec, "land_value").IsNumber() ==> r.value.value == Get(rec, "land_value")
    ensures r.Success? ==>
              (LandExceedsAssessed in r.value.diag.warnings <==>
                 (Get(rec, "land_value").IsNumber() && assessed.IsNumber()
                  && 0.0 <= Get(rec, "land_value").Num() && Get(rec, "land_value").Num() > assessed.Num()))
    ensures Get(rec, "land_value").Null? ==> r == Success(Step(Clean, Get(rec, "land_value")))
    ensures r.Success? ==>
              (LandValueNegative in r.value.diag.errors <==>
                 Get(rec, "land_value").IsNumber() && Get(rec, "land_value").Num() < 0.0)
    ensures r.Success? ==>
              (LandValueNotNumber in r.value.diag.errors <==>
                 !Get(rec, "land_value").Null? && !ParsesAsFloat(Get(rec, "land_value"), p))
  {
    var land := Get(rec, "land_value");
    if land.Null? then Success(Step(Clean, land))
    else if !land.IsNumber() then Success(Coerce(land, p, false, LandValueConverted, LandValueNotNumber))
    else if land.Num() < 0.0 then Success(Step(Error(LandValueNegative), land))
    else if !assessed.IsNumber() then Failure(CompareError(">", land.TypeName(), assessed.TypeName()))
    else if land.Num() > assessed.Num() then Success(Step(Warning(LandExceedsAssessed), land))
    else Success(Step(Clean, land))
  }

  function ImprovementCheck(rec: Record, p: Parsers): (st: Step)
    ensures Get(rec, "improvement_value").Null? ==> st == Step(Clean, Get(rec, "improvement_value"))
    ensures !Get(rec, "improvement_value").Null? && !Get(rec, "improvement_value").IsNumber() ==>
              st.diag == (if ToFloat(Get(rec, "improvement_value"), p).Some? then Note(ImprovementConverted) else Error(ImprovementNotNumber))
    ensures st.value.IsNumber() <==> ParsesAsFloat(Get(rec, "improvement_value"), p)
    ensures Get(rec, "improvement_value").IsNumber() ==> st.value == Get(rec, "improvement_value")
    ensures Get(rec, "improvement_value").IsNumber() ==>
              (st.diag.errors != [] <==> Get(rec, "improvement_value").Num() < 0.0)
  {
    var x := Get(rec, "improvement_value");
    if x.Null? then Step(Clean, x)
    else if !x.IsNumber() then Coerce(x, p, false, ImprovementConverted, ImprovementNotNumber)
    else if x.Num() < 0.0 then Step(Error(ImprovementNegative), x)
    else Step(Clean, x)
  }

  function Abs(x: real): (a: real)
    ensures a >= 0.0 && (a == x || a == -x)
  {
    if x < 0.0 then -x else x
  }

  /** The type of `land + improvement` in Python. */
  function SumTypeName(land: Raw, improvement: Raw): string {
    if land.Int? && improvement.Int? then "int" else "float"
  }

  /** The reconciliation of land + improvement against the assessed value. */
  function ReconcileCheck(land: Raw, improvement: Raw, assessed: Raw): (r: Result<Diag>)
    ensures r.Failure? <==> land.IsNumber() && improvement.IsNumber() && !assessed.IsNumber()
    ensures r.Success? ==> r.value.errors == [] && r.value.info == []
    ensures r.Success? ==>
              (r.value.warnings != [] <==>
                 (land.IsNumber() && improvement.IsNumber()
                  && Abs(land.Num() + improvement.Num() - assessed.Num()) > 1.0))
  {
    if !(land.IsNumber() && improvement.IsNumber()) then Success(Clean)
    else if !assessed.IsNumber() then
      Failure(OperandError("-", SumTypeName(land, improvement), assessed.TypeName()))
    else if Abs(land.Num() + improvement.Num() - assessed.Num()) > 1.0 then
      Success(Warning(Unbalanced(land.Num(), improvement.Num(), assessed.Num())))
    else Success(Clean)
  }

  // ---------------------------------------------------------------------
  // Classification

  function ClassNames(classes: seq<ClassEntry>): (names: seq<string>)
    ensures |names| == |classes|
    ensures forall k :: 0 <= k < |classes| ==> names[k] == classes[k].name
  {
    seq(|classes|, k requires 0 <= k < |classes| => classes[k].name)
  }

  /** `property_class in property_classes` */
  predicate KnownClass(classes: seq<ClassEntry>, c: Raw) {
    c.Str? && c.s in ClassNames(classes)
  }

  /** `property_classes.get(property_class, [])`: the codes of the first
      entry with that name. */
  function CodesOf(classes: seq<ClassEntry>, c: Raw): (codes: seq<string>)
    ensures !KnownClass(classes, c) ==> codes == []
    ensures KnownClass(classes, c) ==>
              exists k :: 0 <= k < |classes| && classes[k].name == c.s && codes == classes[k].codes
  {
    if |classes| == 0 then []
    else if c == Str(classes[0].name) then classes[0].codes
    else
      assert forall k :: 1 <= k < |classes| ==> classes[k] == classes[1..][k - 1];
      assert KnownClass(classes, c) ==> KnownClass(classes[1..], c) by {
        if KnownClass(classes, c) {
          var k :| 0 <= k < |classes| && ClassNames(classes)[k] == c.s;
          assert k > 0;
          assert ClassNames(classes[1..])[k - 1] == c.s;
        }
      }
      CodesOf(classes[1..], c)
  }

  function ClassCheck(rec: Record, rules: Rules): (d: Diag)
    ensures d.warnings == [] && d.info == []
    ensures ClassRequired in d.errors <==> !Get(rec, "property_class").Truthy()
    ensures ClassInvalid(ClassNames(rules.classes)) in d.errors <==>
              Get(rec, "property_class").Truthy() && !KnownClass(rules.classes, Get(rec, "property_class"))
    ensures (exists f :: f in d.errors && f.SubcodeInvalid?) <==>
              (Get(rec, "property_class").Truthy() && Get(rec, "property_class_code").Truthy()
               && !(Get(rec, "property_class_code").Str?
                    && Get(rec, "property_class_code").s in CodesOf(rules.classes, Get(rec, "property_class"))))
  {
    var cls := Get(rec, "property_class");
    var code := Get(rec, "property_class_code");
    var first :=
      if !cls.Truthy() then Error(ClassRequired)
      else if !KnownClass(rules.classes, cls) then Error(ClassInvalid(ClassNames(rules.classes)))
      else Clean;
    var valid := CodesOf(rules.classes, cls);
    var second :=
      if cls.Truthy() && code.Truthy() && !(code.Str? && code.s in valid) then
        Error(SubcodeInvalid(code, cls, valid))
      else Clean;
    assert forall f :: f in first.errors ==> !f.SubcodeInvalid?;
    assert second.errors != [] ==> second.errors[0] in Plus(first, second).errors;
    Plus(first, second)
  }

  function BedroomsCheck(rec: Record, p: Parsers): (d: Diag)
    ensures Get(rec, "bedrooms").Null? ==> d == Clean
    ensures !Get(rec, "bedrooms").Null? && !Get(rec, "bedrooms").Int? ==>
              d == (if ToInt(Get(rec, "bedrooms"), p).Some? then Note(BedroomsConverted) else Error(BedroomsNotInteger))
    ensures Get(rec, "bedrooms").Int? ==>
              (d.errors == [BedroomsNegative] <==> Get(rec, "bedrooms").i < 0)
              && (d.warnings == [BedroomsHigh] <==> Get(rec, "bedrooms").i > 20)
  {
    var x := Get(rec, "bedrooms");
    if x.Null? then Clean
    else if !x.Int? then Coerce(x, p, true, BedroomsConverted, BedroomsNotInteger).diag
    else if x.i < 0 then Error(BedroomsNegative)
    else if x.i > 20 then Warning(BedroomsHigh)
    else Clean
  }

  function BathroomsCheck(rec: Record, p: Parsers): (d: Diag)
    ensures Get(rec, "bathrooms").Null? ==> d == Clean
    ensures !Get(rec, "bathrooms").Null? && !Get(rec, "bathrooms").IsNumber() ==>
              d == (if ToFloat(Get(rec, "bathrooms"), p).Some? then Note(BathroomsConverted) else Error(BathroomsNotNumber))
    ensures Get(rec, "bathrooms").IsNumber() ==>
              (d.errors == [BathroomsNegative] <==> Get(rec, "bathrooms").Num() < 0.0)
              && (d.warnings == [BathroomsHigh] <==> Get(rec, "bathrooms").Num() > 20.0)
  {
    var x := Get(rec, "bathrooms");
    if x.Null? then Clean
    else if !x.IsNumber() then Coerce(x, p, false, BathroomsConverted, BathroomsNotNumber).diag
    else if x.Num() < 0.0 then Error(BathroomsNegative)
    else if x.Num() > 20.0 then Warning(BathroomsHigh)
    else Clean
  }

  function YearBuiltCheck(rec: Record, rules: Rules, p: Parsers): (d: Diag)
    ensures Get(rec, "year_built").Null? ==> d == Clean
    ensures !Get(rec, "year_built").Null? && !Get(rec, "year_built").Int? ==>
              d == (if ToInt(Get(rec, "year_built"), p).Some? then Note(YearBuiltConverted) else Error(YearBuiltNotInteger))
    ensures Get(rec, "year_built").Int? ==>
              (d.warnings == [YearBuiltEarly] <==> Get(rec, "year_built").i < 1850)
              && (d.errors == [YearBuiltFuture(rules.currentYear)] <==>
                    1850 <= Get(rec, "year_built").i && Get(rec, "year_built").i > rules.currentYear)
  {
    var x := Get(rec, "year_built");
    if x.Null? then Clean
    else if !x.Int? then Coerce(x, p, true, YearBuiltConverted, YearBuiltNotInteger).diag
    else if x.i < 1850 then Warning(YearBuiltEarly)
    else if x.i > rules.currentYear then Error(YearBuiltFuture(rules.currentYear))
    else Clean
  }

  /** The residential building checks; other classes skip them. */
  function ResidentialCheck(rec: Record, rules: Rules, p: Parsers): (d: Diag)
    ensures Get(rec, "property_class") != Str("Residential") ==> d == Clean
    ensures Get(rec, "property_class") == Str("Residential") ==>
              (forall f :: f in d.errors <==>
                 f in BedroomsCheck(rec, p).errors || f in BathroomsCheck(rec, p).errors
                 || f in YearBuiltCheck(rec, rules, p).errors)
              && (forall f :: f in d.warnings <==>
                    f in BedroomsCheck(rec, p).warnings || f in BathroomsCheck(rec, p).warnings
                    || f in YearBuiltCheck(rec, rules, p).warnings)
              && (forall f :: f in d.info <==>
                    f in BedroomsCheck(rec, p).info || f in BathroomsCheck(rec, p).info
                    || f in YearBuiltCheck(rec, rules, p).info)
  {
    if Get(rec, "property_class") != Str("Residential") then Clean
    else Plus(Plus(BedroomsCheck(rec, p), BathroomsCheck(rec, p)), YearBuiltCheck(rec, rules, p))
  }

  function BuildingAreaCheck(rec: Record, p: Parsers): (d: Diag)
    ensures Get(rec, "building_area").Null? ==> d == Clean
    ensures !Get(rec, "building_area").Null? && !Get(rec, "building_area").IsNumber() ==>
              d == (if ToFloat(Get(rec, "building_area"), p).Some? then Note(BuildingAreaConverted) else Error(BuildingAreaNotNumber))
    ensures d.warnings == []
    ensures Get(rec, "building_area").IsNumber() ==>
              (d.errors != [] <==> Get(rec, "building_area").Num() <= 0.0)
  {
    var x := Get(rec, "building_area");
    if x.Null? then Clean
    else if !x.IsNumber() then Coerce(x, p, false, BuildingAreaConverted, BuildingAreaNotNumber).diag
    else if x.Num() <= 0.0 then Error(BuildingAreaNotPositive)
    else Clean
  }

  /** The commercial checks; the income-approach advice only warns. */
  function CommercialCheck(rec: Record, p: Parsers): (d: Diag)
    ensures Get(rec, "property_class") != Str("Commercial") ==> d == Clean
    ensures Get(rec, "property_class") == Str("Commercial") && Get(rec, "income_approach") == Str("Yes") ==>
              (CapRateAdvised in d.warnings <==> !Get(rec, "cap_rate").Truthy())
              && (AnnualIncomeAdvised in d.warnings <==> !Get(rec, "annual_income").Truthy())
    ensures Get(rec, "property_class") == Str("Commercial") ==>
              d.errors == BuildingAreaCheck(rec, p).errors && d.info == BuildingAreaCheck(rec, p).info
    ensures Get(rec, "property_class") == Str("Commercial") && Get(rec, "income_approach") != Str("Yes") ==>
              d.warnings == []
  {
    if Get(rec, "property_class") != Str("Commercial") then Clean
    else
      var advice :=
        if Get(rec, "income_approach") != Str("Yes") then Clean
        else Plus(if !Get(rec, "cap_rate").Truthy() then Warning(CapRateAdvised) else Clean,
                  if !Get(rec, "annual_income").Truthy() then Warning(AnnualIncomeAdvised) else Clean);
      var area := BuildingAreaCheck(rec, p);
      assert Plus(area, advice).warnings == advice.warnings;
      Plus(area, advice)
  }

  function LandAreaCheck(rec: Record, p: Parsers): (d: Diag)
    ensures Get(rec, "land_area").Null? ==> d == Clean
    ensures !Get(rec, "land_area").Null? && !Get(rec, "land_area").IsNumber() ==>
              d == (if ToFloat(Get(rec, "land_area"), p).Some? then Note(LandAreaConverted) else Error(LandAreaNotNumber))
    ensures Get(rec, "land_area").IsNumber() ==>
              (d.errors != [] <==> Get(rec, "land_area").Num() <= 0.0)
  {
    var x := Get(rec, "land_area");
    if x.Null? then Clean
    else if !x.IsNumber() then Coerce(x, p, false, LandAreaConverted, LandAreaNotNumber).diag
    else if x.Num() <= 0.0 then Error(LandAreaNotPositive)
    else Clean
  }

  const BaseRequired: seq<string> := [
    "parcel_id", "property_address", "property_city", "property_state", "property_zip",
    "assessment_year", "assessed_value", "property_class"]

  /** The required fields for a record of class `cls`: eight for every
      class, three more for Residential and four more for Commercial. */
  function RequiredFields(cls: Raw): (fields: seq<string>)
    ensures |fields| == if cls == Str("Residential") then 11 else if cls == Str("Commercial") then 12 else 8
    ensures fields[..8] == BaseRequired
    ensures cls == Str("Residential") ==> fields[8..] == ["land_value", "improvement_value", "land_area"]
    ensures cls == Str("Commercial") ==>
              fields[8..] == ["land_value", "improvement_value", "land_area", "building_area"]
  {
    if cls == Str("Residential") then BaseRequired + ["land_value", "improvement_value", "land_area"]
    else if cls == Str("Commercial") then BaseRequired + ["land_value", "improvement_value", "land_area", "building_area"]
    else BaseRequired
  }

  /** At most one error, naming exactly the required fields that are
      absent or `None`. */
  function CompletenessCheck(rec: Record): (d: Diag)
    ensures d == Clean || d == Error(MissingFields(MissingOf(rec, RequiredFields(Get(rec, "property_class")))))
    ensures d.errors == [] <==> forall f :: f in RequiredFields(Get(rec, "property_class")) ==> !Missing(rec, f)
  {
    CompletenessOf(rec, RequiredFields(Get(rec, "property_class")))
  }

  /** A `valuation_method` key, when present, must hold a configured method. */
  function MethodCheck(rec: Record, rules: Rules): (d: Diag)
    ensures d.errors != [] <==>
              "valuation_method" in rec
              && !(rec["valuation_method"].Str? && rec["valuation_method"].s in rules.methods)
  {
    if "valuation_method" in rec && !(rec["valuation_method"].Str? && rec["valuation_method"].s in rules.methods) then
      Error(MethodInvalid(rules.methods))
    else Clean
  }

  // ---------------------------------------------------------------------
  // The whole run

  /** When `validate_property_data` raises: a truthy parcel ID, address or
      ZIP code that is not a string, or an assessed value that is not a
      number where the land-value comparison or the reconciliation needs
      one. */
  predicate Raises(rec: Record, p: Parsers) {
    TruthyNonString(Get(rec, "parcel_id"))
    || TruthyNonString(Get(rec, "property_address"))
    || TruthyNonString(Get(rec, "property_zip"))
    || (!ParsesAsFloat(Get(rec, "assessed_value"), p)
        && ((Get(rec, "land_value").IsNumber() && Get(rec, "land_value").Num() >= 0.0)
            || (ParsesAsFloat(Get(rec, "land_value"), p) && ParsesAsFloat(Get(rec, "improvement_value"), p))))
  }

  /** The contributions of the first ten checks (identity, location,
      year and values), in source order; `Failure` when one raises. */
  function RecordChecks(rec: Record, rules: Rules, p: Parsers): (r: Result<seq<Diag>>)
    ensures r.Failure? <==> Raises(rec, p)
    ensures r.Success? ==> |r.value| == 10
    ensures r.Success? ==> r.value[0] == ParcelCheck(rec, rules).value && r.value[5] == YearCheck(rec, rules, p)
  {
    var parcel :- ParcelCheck(rec, rules);
    var address :- AddressCheck(rec);
    var zip :- ZipCheck(rec);
    var assessed := AssessedCheck(rec, rules, p);
    var land :- LandCheck(rec, assessed.value, p);
    var improvement := ImprovementCheck(rec, p);
    var balance :- ReconcileCheck(land.value, improvement.value, assessed.value);
    Success([parcel, address, CityCheck(rec), StateCheck(rec, rules), zip,
             YearCheck(rec, rules, p), assessed.diag, land.diag, improvement.diag, balance])
  }

  /** The contributions of the remaining six checks (classification,
      per-class fields, completeness, method); none of them raises. */
  function ClassChecks(rec: Record, rules: Rules, p: Parsers): (parts: seq<Diag>)
    ensures |parts| == 6
  {
    [ClassCheck(rec, rules), ResidentialCheck(rec, rules, p), CommercialCheck(rec, p),
     LandAreaCheck(rec, p), CompletenessCheck(rec), MethodCheck(rec, rules)]
  }

  /** All sixteen contributions. */
  function Checks(rec: Record, rules: Rules, p: Parsers): (r: Result<seq<Diag>>)
    ensures r.Failure? <==> Raises(rec, p)
    ensures r.Success? ==> |r.value| == 16
  {
    var first :- RecordChecks(rec, rules, p);
    Success(first + ClassChecks(rec, rules, p))
  }

  // Each check emits only its own findings.

  lemma ParcelOwned(rec: Record, rules: Rules)
    requires ParcelCheck(rec, rules).Success?
    ensures Owned(ParcelCheck(rec, rules).value, Origin, 0)
  {
  }

  lemma AddressOwned(rec: Record)
    requires AddressCheck(rec).Success?
    ensures Owned(AddressCheck(rec).value, Origin, 1)
  {
    var address := Get(rec, "property_address");
    if !address.Truthy() {
      assert AddressCheck(rec).value == Error(AddressRequired);
    } else if |address.s| < 5 {
      assert AddressCheck(rec).value == Error(AddressTooShort);
    } else if !HasDigit(address.s) {
      assert AddressCheck(rec).value == Warning(AddressNoNumber);
    } else {
      assert AddressCheck(rec).value == Clean;
    }
  }

  lemma CityOwned(rec: Record)
    ensures Owned(CityCheck(rec), Origin, 2)
  {
  }

  lemma StateOwned(rec: Record, rules: Rules)
    ensures Owned(StateCheck(rec, rules), Origin, 3)
  {
  }

  lemma ZipOwned(rec: Record)
    requires ZipCheck(rec).Success?
    ensures Owned(ZipCheck(rec).value, Origin, 4)
  {
    var zip := Get(rec, "property_zip");
    if !zip.Truthy() {
      assert ZipCheck(rec).value == Error(ZipRequired);
    } else if !ZipPattern(zip.s) {
      assert ZipCheck(rec).value == Error(ZipFormat);
    } else if !StartsWith(zip.s, "993") {
      assert ZipCheck(rec).value == Warning(ZipOutsideCounty);
    } else {
      assert ZipCheck(rec).value == Clean;
    }
  }

  lemma YearStepOwned(year: Raw, p: Parsers)
    ensures
      var st :=
        if !year.Truthy() then Step(Error(YearRequired), year)
        else if year.Int? then Step(Clean, year)
        else Coerce(year, p, true, YearConverted, YearNotInteger);
      Owned(st.diag, Origin, 5)
  {
  }

  lemma YearRangeOwned(year: Raw, currentYear: int)
    ensures Owned(if year.Int? then YearRange(year.i, currentYear) else Clean, Origin, 5)
  {
  }

  lemma YearOwned(rec: Record, rules: Rules, p: Parsers)
    ensures Owned(YearCheck(rec, rules, p), Origin, 5)
  {
    var year := Get(rec, "assessment_year");
    var st :=
      if !year.Truthy() then Step(Error(YearRequired), year)
      else if year.Int? then Step(Clean, year)
      else Coerce(year, p, true, YearConverted, YearNotInteger);
    var range := if st.value.Int? then YearRange(st.value.i, rules.currentYear) else Clean;
    YearStepOwned(year, p);
    YearRangeOwned(st.value, rules.currentYear);
    OwnedPlus(st.diag, range, Origin, 5);
    assert YearCheck(rec, rules, p) == Plus(st.diag, range);
  }

  lemma AssessedOwned(rec: Record, rules: Rules, p: Parsers)
    ensures Owned(AssessedCheck(rec, rules, p).diag, Origin, 6)
  {
    var assessed := Get(rec, "assessed_value");
    var first :=
      if assessed.Null? then Step(Error(AssessedRequired), assessed)
      else if assessed.IsNumber() then Step(Clean, assessed)
      else Coerce(assessed, p, false, AssessedConverted, AssessedNotNumber);
    var range :=
      if !first.value.IsNumber() then Clean
      else if first.value.Num() < rules.minValue then Error(AssessedBelowMin(rules.minValue))
      else if first.value.Num() > rules.maxValue then Error(AssessedAboveMax(rules.maxValue))
      else Clean;
    assert Owned(first.diag, Origin, 6);
    assert Owned(range, Origin, 6);
    OwnedPlus(first.diag, range, Origin, 6);
    assert AssessedCheck(rec, rules, p).diag == Plus(first.diag, range);
  }

  lemma LandOwned(rec: Record, assessed: Raw, p: Parsers)
    requires LandCheck(rec, assessed, p).Success?
    ensures Owned(LandCheck(rec, assessed, p).value.diag, Origin, 7)
  {
    var land := Get(rec, "land_value");
    if !land.Null? && !land.IsNumber() {
      var st := Coerce(land, p, false, LandValueConverted, LandValueNotNumber);
      assert LandCheck(rec, assessed, p).value == st;
      assert Owned(st.diag, Origin, 7);
    }
  }

  lemma ImprovementOwned(rec: Record, p: Parsers)
    ensures Owned(ImprovementCheck(rec, p).diag, Origin, 8)
  {
  }

  lemma ReconcileOwned(land: Raw, improvement: Raw, assessed: Raw)
    requires ReconcileCheck(land, improvement, assessed).Success?
    ensures Owned(ReconcileCheck(land, improvement, assessed).value, Origin, 9)
  {
  }

  lemma ClassOwned(rec: Record, rules: Rules)
    ensures Owned(ClassCheck(rec, rules), Origin, 10)
  {
  }

  lemma BedroomsOwned(rec: Record, p: Parsers)
    ensures Owned(BedroomsCheck(rec, p), Origin, 11)
  {
  }

  lemma BathroomsOwned(rec: Record, p: Parsers)
    ensures Owned(BathroomsCheck(rec, p), Origin, 11)
  {
    var x := Get(rec, "bathrooms");
    if !x.Null? && !x.IsNumber() {
      var st := Coerce(x, p, false, BathroomsConverted, BathroomsNotNumber);
      assert Owned(st.diag, Origin, 11);
    }
  }

  lemma YearBuiltOwned(rec: Record, rules: Rules, p: Parsers)
    ensures Owned(YearBuiltCheck(rec, rules, p), Origin, 11)
  {
  }

  lemma BuildingAreaOwned(rec: Record, p: Parsers)
    ensures Owned(BuildingAreaCheck(rec, p), Origin, 12)
  {
  }

  lemma ResidentialOwned(rec: Record, rules: Rules, p: Parsers)
    ensures Owned(ResidentialCheck(rec, rules, p), Origin, 11)
  {
    if Get(rec, "property_class") == Str("Residential") {
      var bedrooms, bathrooms, built := BedroomsCheck(rec, p), BathroomsCheck(rec, p), YearBuiltCheck(rec, rules, p);
      BedroomsOwned(rec, p);
      BathroomsOwned(rec, p);
      YearBuiltOwned(rec, rules, p);
      OwnedPlus(bedrooms, bathrooms, Origin, 11);
      OwnedPlus(Plus(bedrooms, bathrooms), built, Origin, 11);
    }
  }

  lemma CommercialOwned(rec: Record, p: Parsers)
    ensures Owned(CommercialCheck(rec, p), Origin, 12)
  {
    if Get(rec, "property_class") == Str("Commercial") {
      var capRate := if !Get(rec, "cap_rate").Truthy() then Warning(CapRateAdvised) else Clean;
      var income := if !Get(rec, "annual_income").Truthy() then Warning(AnnualIncomeAdvised) else Clean;
      OwnedPlus(capRate, income, Origin, 12);
      var advice := if Get(rec, "income_approach") != Str("Yes") then Clean else Plus(capRate, income);
      var area := BuildingAreaCheck(rec, p);
      BuildingAreaOwned(rec, p);
      OwnedPlus(area, advice, Origin, 12);
      assert CommercialCheck(rec, p) == Plus(area, advice);
    }
  }

  lemma LandAreaOwned(rec: Record, p: Parsers)
    ensures Owned(LandAreaCheck(rec, p), Origin, 13)
  {
  }

  lemma CompletenessOwned(rec: Record)
    ensures Owned(CompletenessCheck(rec), Origin, 14)
  {
    CompletenessOwnedBy(rec, RequiredFields(Get(rec, "property_class")), Origin, 14);
  }

  lemma MethodOwned(rec: Record, rules: Rules)
    ensures Owned(MethodCheck(rec, rules), Origin, 15)
  {
  }

  /** The ten contributions of a completed first half, by name. */
  lemma RecordChecksParts(rec: Record, rules: Rules, p: Parsers)
    requires RecordChecks(rec, rules, p).Success?
    ensures
      var assessed := AssessedCheck(rec, rules, p);
      var land := LandCheck(rec, assessed.value, p);
      var improvement := ImprovementCheck(rec, p);
      && ParcelCheck(rec, rules).Success? && AddressCheck(rec).Success? && ZipCheck(rec).Success?
      && land.Success?
      && ReconcileCheck(land.value.value, improvement.value, assessed.value).Success?
      && RecordChecks(rec, rules, p).value
         == [ParcelCheck(rec, rules).value, AddressCheck(rec).value, CityCheck(rec), StateCheck(rec, rules),
             ZipCheck(rec).value, YearCheck(rec, rules, p), assessed.diag, land.value.diag, improvement.diag,
             ReconcileCheck(land.value.value, improvement.value, assessed.value).value]
  {
  }

  lemma RecordChecksOwned(rec: Record, rules: Rules, p: Parsers)
    requires RecordChecks(rec, rules, p).Success?
    ensures forall k :: 0 <= k < 10 ==> Owned(RecordChecks(rec, rules, p).value[k], Origin, k)
  {
    RecordChecksParts(rec, rules, p);
    var assessed := AssessedCheck(rec, rules, p);
    var land := LandCheck(rec, assessed.value, p);
    var improvement := ImprovementCheck(rec, p);
    ParcelOwned(rec, rules);
    AddressOwned(rec);
    CityOwned(rec);
    StateOwned(rec, rules);
    ZipOwned(rec);
    YearOwned(rec, rules, p);
    AssessedOwned(rec, rules, p);
    LandOwned(rec, assessed.value, p);
    ImprovementOwned(rec, p);
    ReconcileOwned(land.value.value, improvement.value, assessed.value);
    OwnedInOrderTen(ParcelCheck(rec, rules).value, AddressCheck(rec).value, CityCheck(rec), StateCheck(rec, rules),
                    ZipCheck(rec).value, YearCheck(rec, rules, p), assessed.diag, land.value.diag, improvement.diag,
                    ReconcileCheck(land.value.value, improvement.value, assessed.value).value, Origin);
  }

  lemma ClassChecksOwned(rec: Record, rules: Rules, p: Parsers)
    ensures forall k :: 0 <= k < 6 ==> Owned(ClassChecks(rec, rules, p)[k], Origin, k + 10)
  {
    ClassOwned(rec, rules);
    ResidentialOwned(rec, rules, p);
    CommercialOwned(rec, p);
    LandAreaOwned(rec, p);
    CompletenessOwned(rec);
    MethodOwned(rec, rules);
    OwnedInOrder(ClassCheck(rec, rules), ResidentialCheck(rec, rules, p), CommercialCheck(rec, p),
                 LandAreaCheck(rec, p), CompletenessCheck(rec), MethodCheck(rec, rules), Origin, 10);
  }

  /** Each check emits only its own findings. */
  lemma ChecksOwnTheirFindings(rec: Record, rules: Rules, p: Parsers)
    requires Checks(rec, rules, p).Success?
    ensures forall k :: 0 <= k < 16 ==> Owned(Checks(rec, rules, p).value[k], Origin, k)
  {
    RecordChecksOwned(rec, rules, p);
    ClassChecksOwned(rec, rules, p);
    var first := RecordChecks(rec, rules, p).value;
    var rest := ClassChecks(rec, rules, p);
    assert Checks(rec, rules, p).value == first + rest;
    forall k | 0 <= k < 16 ensures Owned(Checks(rec, rules, p).value[k], Origin, k) {
      if k >= 10 {
        assert Checks(rec, rules, p).value[k] == rest[k - 10];
      }
    }
  }

  /** `validate_property_data`. */
  function Validate(rec: Record, rules: Rules, p: Parsers): (r: Result<ValidationResult>)
    ensures r.Failure? <==> Raises(rec, p)
    ensures r.Success? ==> (r.value.hasErrors <==> |r.value.errors| > 0)
    ensures r.Success? ==> (r.value.hasWarnings <==> |r.value.warnings| > 0)
  {
    var parts :- Checks(rec, rules, p);
    Success(Summarize(Combine(parts)))
  }

  /** No check stops the others: a finding is in the result exactly when
      the check that emits it produced it. */
  lemma FindingsComeFromTheirCheck(rec: Record, rules: Rules, p: Parsers, f: Finding)
    requires Validate(rec, rules, p).Success? && Origin(f) < 16
    ensures f in Validate(rec, rules, p).value.errors <==> f in Checks(rec, rules, p).value[Origin(f)].errors
    ensures f in Validate(rec, rules, p).value.warnings <==> f in Checks(rec, rules, p).value[Origin(f)].warnings
    ensures f in Validate(rec, rules, p).value.info <==> f in Checks(rec, rules, p).value[Origin(f)].info
  {
    var parts := Checks(rec, rules, p).value;
    ChecksOwnTheirFindings(rec, rules, p);
    CombineByOrigin(parts, Origin, f);
    assert Validate(rec, rules, p).value == Summarize(Combine(parts));
  }

  lemma YearOrigins(currentYear: int, year: int)
    ensures Origin(YearTooEarly) == 5 && Origin(YearTooLate(currentYear)) == 5 && Origin(YearInPast(year)) == 5
  {
  }

  /** Which finding the range test of an integer year emits. */
  lemma YearRangeFindings(year: int, currentYear: int)
    ensures YearTooEarly in YearRange(year, currentYear).errors <==> year < 2020
    ensures YearTooLate(currentYear + 1) in YearRange(year, currentYear).errors <==> 2020 <= year && year > currentYear + 1
    ensures YearInPast(year) in YearRange(year, currentYear).warnings <==> 2020 <= year < currentYear
  {
  }

  lemma ParcelPart(rec: Record, rules: Rules, p: Parsers)
    requires Checks(rec, rules, p).Success?
    ensures ParcelCheck(rec, rules).Success?
    ensures Checks(rec, rules, p).value[0] == ParcelCheck(rec, rules).value
  {
    assert Checks(rec, rules, p).value[0] == RecordChecks(rec, rules, p).value[0];
  }

  lemma YearPart(rec: Record, rules: Rules, p: Parsers)
    requires Checks(rec, rules, p).Success?
    ensures Checks(rec, rules, p).value[5] == YearCheck(rec, rules, p)
  {
    assert Checks(rec, rules, p).value[5] == RecordChecks(rec, rules, p).value[5];
  }

  lemma BalancePart(rec: Record, rules: Rules, p: Parsers)
    requires Checks(rec, rules, p).Success?
    requires Get(rec, "land_value").IsNumber() && Get(rec, "improvement_value").IsNumber()
    requires Get(rec, "assessed_value").IsNumber()
    ensures ReconcileCheck(Get(rec, "land_value"), Get(rec, "improvement_value"), Get(rec, "assessed_value")).Success?
    ensures Checks(rec, rules, p).value[9]
         == ReconcileCheck(Get(rec, "land_value"), Get(rec, "improvement_value"), Get(rec, "assessed_value")).value
  {
    var first := RecordChecks(rec, rules, p).value;
    assert Checks(rec, rules, p).value[9] == first[9];
  }

  /** A missing or falsy parcel ID is always reported. */
  lemma MissingParcelReported(rec: Record, rules: Rules, p: Parsers)
    requires !Get(rec, "parcel_id").Truthy()
    requires Validate(rec, rules, p).Success?
    ensures ParcelRequired in Validate(rec, rules, p).value.errors
  {
    assert Origin(ParcelRequired) == 0;
    ParcelPart(rec, rules, p);
    assert ParcelCheck(rec, rules).value.errors == [ParcelRequired];
    FindingsComeFromTheirCheck(rec, rules, p, ParcelRequired);
  }

  /** A year finding is in the result exactly when the year check made it. */
  lemma YearFindingReported(rec: Record, rules: Rules, p: Parsers, f: Finding)
    requires Validate(rec, rules, p).Success?
    requires Origin(f) == 5
    ensures f in Validate(rec, rules, p).value.errors <==> f in YearCheck(rec, rules, p).errors
    ensures f in Validate(rec, rules, p).value.warnings <==> f in YearCheck(rec, rules, p).warnings
  {
    YearPart(rec, rules, p);
    FindingsComeFromTheirCheck(rec, rules, p, f);
  }

  /** With a completed run and a nonzero integer year, the year is an
      error exactly outside [2020, currentYear + 1], and draws the
      past-year warning exactly in [2020, currentYear). */
  lemma YearFindingsReported(rec: Record, rules: Rules, p: Parsers, year: int)
    requires Validate(rec, rules, p).Success?
    requires Get(rec, "assessment_year") == Int(year) && year != 0
    ensures YearTooEarly in Validate(rec, rules, p).value.errors <==> year < 2020
    ensures YearTooLate(rules.currentYear + 1) in Validate(rec, rules, p).value.errors
            <==> 2020 <= year && year > rules.currentYear + 1
    ensures YearInPast(year) in Validate(rec, rules, p).value.warnings <==> 2020 <= year < rules.currentYear
  {
    YearOrigins(rules.currentYear + 1, year);
    YearRangeFindings(year, rules.currentYear);
    assert YearCheck(rec, rules, p) == YearRange(year, rules.currentYear);
    YearFindingReported(rec, rules, p, YearTooEarly);
    YearFindingReported(rec, rules, p, YearTooLate(rules.currentYear + 1));
    YearFindingReported(rec, rules, p, YearInPast(year));
  }

  lemma UnbalancedOrigin(f: Finding)
    requires f.Unbalanced?
    ensures Origin(f) == 9
  {
  }

  /** With numeric land, improvement and assessed values, the sum warning
      is in the result exactly when the sum is off by more than one, and
      the mismatch is never an error. */
  lemma ReconciliationReported(rec: Record, rules: Rules, p: Parsers)
    requires Validate(rec, rules, p).Success?
    requires Get(rec, "land_value").IsNumber() && Get(rec, "improvement_value").IsNumber()
    requires Get(rec, "assessed_value").IsNumber()
    ensures (exists f :: f in Validate(rec, rules, p).value.warnings && f.Unbalanced?) <==>
              Abs(Get(rec, "land_value").Num() + Get(rec, "improvement_value").Num()
                  - Get(rec, "assessed_value").Num()) > 1.0
    ensures forall f :: f in Validate(rec, rules, p).value.errors ==> !f.Unbalanced?
  {
    var l, i, a := Get(rec, "land_value"), Get(rec, "improvement_value"), Get(rec, "assessed_value");
    BalancePart(rec, rules, p);
    var balance := ReconcileCheck(l, i, a).value;
    forall f: Finding | f.Unbalanced?
      ensures f in Validate(rec, rules, p).value.warnings <==> f in balance.warnings
      ensures f !in Validate(rec, rules, p).value.errors
    {
      UnbalancedOrigin(f);
      FindingsComeFromTheirCheck(rec, rules, p, f);
    }
    if balance.warnings != [] {
      assert balance.warnings[0] in Validate(rec, rules, p).value.warnings;
    }
  }

  /** `process_message` */
  function ProcessMessage(m: Message, rules: Rules, p: Parsers): (r: Response)
    ensures !GetValue(m, "property_data").Truthy() ==> r == Fail("No property data provided for validation")
    ensures r.success <==> GetValue(m, "property_data").Truthy() && GetValue(m, "property_data").Rec?
                           && Validate(GetValue(m, "property_data").fields, rules, p).Success?
                           && !Validate(GetValue(m, "property_data").fields, rules, p).value.hasErrors
  {
    HandleValidation(m, rec => Validate(rec, rules, p))
  }

  /** `process_batch` */
  function ProcessBatch(m: Message, rules: Rules, p: Parsers): (r: Response)
    ensures !GetValue(m, "properties", List([])).Truthy() ==> r == Fail("No properties provided for batch validation")
    ensures r.data.BatchValidated? ==>
              GetValue(m, "properties", List([])).List?
              && r.data.total == |GetValue(m, "properties", List([])).items|
              && r.data.valid + r.data.invalid == r.data.total
              && (r.success <==> forall i :: 0 <= i < |r.data.entries| ==> !r.data.entries[i].validation.hasErrors)
    ensures r.data.BatchValidated? <==>
              GetValue(m, "properties", List([])).Truthy() && GetValue(m, "properties", List([])).List?
              && forall i :: 0 <= i < |GetValue(m, "properties", List([])).items| ==>
                   GetValue(m, "properties", List([])).items[i].Rec? && Validate(GetValue(m, "properties", List([])).items[i].fields, rules, p).Success?
    ensures r.success <==>
              GetValue(m, "properties", List([])).Truthy() && GetValue(m, "properties", List([])).List?
              && forall i :: 0 <= i < |GetValue(m, "properties", List([])).items| ==>
                   GetValue(m, "properties", List([])).items[i].Rec? && Validate(GetValue(m, "properties", List([])).items[i].fields, rules, p).Success? && !Validate(GetValue(m, "properties", List([])).items[i].fields, rules, p).value.hasErrors
  {
    HandleBatch(m, rec => Validate(rec, rules, p))
  }
}

=== FILE: validators.dfy ===
/** The request and field validators of utils/validators.py. The regular
    expressions are the character predicates of `Patterns`; `re.match` on
    a truthy value that is not a string raises, which is a `Failure`. */
module Validators {
  import opened Wrappers
  import opened Values
  import opened Patterns

  /** The required fields absent from `data`, in the order required. */
  function MissingFields(data: map<string, Value>, required: seq<string>): (missing: seq<string>)
    ensures |missing| <= |required|
    ensures forall f :: f in missing <==> f in required && f !in data
  {
    if |required| == 0 then []
    else
      var rest := MissingFields(data, required[1..]);
      assert forall f :: f in required <==> f == required[0] || f in required[1..];
      if required[0] in data then rest else [required[0]] + rest
  }

  /** The missing fields keep the order of the required list: they are a
      subsequence of it, each kept once per occurrence. */
  lemma {:induction false} MissingFieldsInOrder(data: map<string, Value>, required: seq<string>, extra: seq<string>)
    ensures MissingFields(data, required + extra) == MissingFields(data, required) + MissingFields(data, extra)
  {
    if |required| > 0 {
      assert (required + extra)[1..] == required[1..] + extra;
      MissingFieldsInOrder(data, required[1..], extra);
    } else {
      assert required + extra == extra;
    }
  }

  /** `validate_request_data`: `(is_valid, error_message)`. */
  function ValidateRequestData(data: map<string, Value>, required: seq<string>): (r: (bool, Option<string>))
    ensures r.0 <==> r.1.None?
    ensures r.0 <==> |data| > 0 && forall i :: 0 <= i < |required| ==> required[i] in data
    ensures |data| == 0 ==> r.1 == Some("No data provided")
    ensures |data| > 0 && !r.0 ==>
              r.1 == Some("Missing required fields: " + Join(MissingFields(data, required), ", "))
  {
    if |data| == 0 then (false, Some("No data provided"))
    else
      var missing := MissingFields(data, required);
      if missing != [] then
        assert missing[0] in missing;
        (false, Some("Missing required fields: " + Join(missing, ", ")))
      else
        (true, None)
  }

  /** A regular-expression check: falsy input is invalid, a truthy
      non-string raises, a string must match. */
  function MatchCheck(x: Raw, pattern: string -> bool): (r: Result<bool>)
    ensures !x.Truthy() ==> r == Success(false)
    ensures x.Truthy() && !x.Str? ==> r == Failure(ReTypeError(x))
    ensures x.Truthy() && x.Str? ==> r == Success(pattern(x.s))
  {
    if !x.Truthy() then Success(false)
    else if !x.Str? then Failure(ReTypeError(x))
    else Success(pattern(x.s))
  }

  /** `validate_email` */
  function ValidateEmail(email: Raw): (r: Result<bool>)
    ensures r == Success(true) <==> email.Str? && email.s != "" && EmailPattern(email.s)
    ensures r.Failure? <==> email.Truthy() && !email.Str?
  {
    MatchCheck(email, s => EmailPattern(s))
  }

  /** `validate_parcel_id` with its default pattern. */
  function ValidateParcelId(parcelId: Raw): (r: Result<bool>)
    ensures r == Success(true) <==> parcelId.Str? && parcelId.s != "" && ParcelPattern(parcelId.s)
    ensures r.Failure? <==> parcelId.Truthy() && !parcelId.Str?
  {
    MatchCheck(parcelId, s => ParcelPattern(s))
  }

  /** Every accepted parcel ID is twelve characters, or thirteen with the
      trailing newline `$` admits. */
  lemma AcceptedParcelLength(parcelId: Raw)
    requires ValidateParcelId(parcelId) == Success(true)
    ensures |parcelId.s| == 12 || (|parcelId.s| == 13 && parcelId.s[12] == '\n')
  {
  }

  /** `validate_property_class`: a truthy value that is one of the listed
      class names. */
  function ValidatePropertyClass(propertyClass: Raw, validClasses: seq<string>): (ok: bool)
    ensures ok <==> propertyClass.Str? && propertyClass.s != "" && propertyClass.s in validClasses
  {
    propertyClass.Truthy() && propertyClass.Str? && propertyClass.s in validClasses
  }

  /** Falsiness wins over membership: the empty name is rejected even when
      listed, and so is any value that is not a string. */
  lemma PropertyClassNeedsName(propertyClass: Raw, validClasses: seq<string>)
    requires !propertyClass.Truthy() || !propertyClass.Str?
    ensures !ValidatePropertyClass(propertyClass, validClasses)
  {
  }

  /** `validate_numeric_value`: the value, converted with `float` when it
      is not a number, lies within the bounds given; a value `float`
      rejects is invalid. */
  function ValidateNumericValue(value: Raw, minValue: Option<real>, maxValue: Option<real>, p: Parsers): (ok: bool)
    ensures ok ==> ToFloat(value, p).Some?
    ensures ToFloat(value, p).Some? ==>
              (ok <==> (minValue.None? || minValue.value <= ToFloat(value, p).value)
                       && (maxValue.None? || ToFloat(value, p).value <= maxValue.value))
  {
    match ToFloat(value, p)
    case None => false
    case Some(v) =>
      if minValue.Some? && v < minValue.value then false
      else if maxValue.Some? && v > maxValue.value then false
      else true
  }

  /** Widening either bound never rejects a value that was accepted. */
  lemma NumericWidening(value: Raw, lo1: real, hi1: real, lo2: real, hi2: real, p: Parsers)
    requires lo2 <= lo1 && hi1 <= hi2
    requires ValidateNumericValue(value, Some(lo1), Some(hi1), p)
    ensures ValidateNumericValue(value, Some(lo2), Some(hi2), p)
    ensures ValidateNumericValue(value, None, None, p)
  {
  }

  /** The bounds are inclusive: a number equal to either bound passes. */
  lemma NumericBoundsInclusive(lo: real, hi: real, p: Parsers)
    requires lo <= hi
    ensures ValidateNumericValue(Real(lo), Some(lo), Some(hi), p)
    ensures ValidateNumericValue(Real(hi), Some(lo), Some(hi), p)
  {
  }
}

=== FILE: values.dfy ===
/** Python values as the assessment code sees them: the scalars a property
    record holds, records themselves, and the payload values a message
    carries; plus Python truthiness and the few `str` operations the code
    relies on (ASCII only). */
module Values {
  import opened Wrappers

  /** A scalar field value of a record: `None`, `int`, `float` or `str`. */
  datatype Raw = Null | Int(i: int) | Real(r: real) | Str(s: string) {

    /** Python truthiness: `None`, `0`, `0.0` and `""` are falsy. */
    predicate Truthy() {
      match this
      case Null => false
      case Int(i) => i != 0
      case Real(r) => r != 0.0
      case Str(s) => s != ""
    }

    /** `isinstance(x, (int, float))` */
    predicate IsNumber() {
      Int? || Real?
    }

    /** The numeric value of an `int` or `float`. */
    function Num(): real
      requires IsNumber()
    {
      if Int? then i as real else r
    }

    /** `type(x).__name__` */
    function TypeName(): string {
      match this
      case Null => "NoneType"
      case Int(_) => "int"
      case Real(_) => "float"
      case Str(_) => "str"
    }
  }

  /** A property record (a Python dict of scalar fields). */
  type Record = map<string, Raw>

  /** A value carried in a message payload. */
  datatype Value = Scalar(raw: Raw) | Rec(fields: Record) | List(items: seq<Value>) {

    predicate Truthy() {
      match this
      case Scalar(r) => r.Truthy()
      case Rec(m) => |m| > 0
      case List(xs) => |xs| > 0
    }

    function TypeName(): string {
      match this
      case Scalar(r) => r.TypeName()
      case Rec(_) => "dict"
      case List(_) => "list"
    }
  }

  /** `record.get(key)`: the field, or `None` when absent. */
  function Get(rec: Record, key: string): (v: Raw)
    ensures key !in rec ==> v == Null
    ensures key in rec ==> v == rec[key]
  {
    if key in rec then rec[key] else Null
  }

  /** `record.get(key, default)` */
  function GetOr(rec: Record, key: string, default: Raw): (v: Raw)
    ensures key !in rec ==> v == default
    ensures key in rec ==> v == rec[key]
  {
    if key in rec then rec[key] else default
  }

  /** "absent or None", the completeness test of both validators. */
  predicate Missing(rec: Record, key: string) {
    key !in rec || rec[key] == Null
  }

  /** Python's `int(x)` of a float: truncation toward zero. */
  function Trunc(r: real): (n: int)
    ensures r >= 0.0 ==> n as real <= r < n as real + 1.0
    ensures r < 0.0 ==> n as real - 1.0 < r <= n as real
  {
    if r >= 0.0 then r.Floor else -((-r).Floor)
  }

  /** The two abstract string conversions the validators attempt:
      `int(s)` and `float(s)`, `None` when Python raises ValueError. */
  datatype Parsers = Parsers(toInt: string -> Option<int>, toFloat: string -> Option<real>)

  /** Python's `int(x)`; `None` where it raises. */
  function ToInt(x: Raw, p: Parsers): (n: Option<int>)
    ensures x.Int? ==> n == Some(x.i)
    ensures x.Real? ==> n == Some(Trunc(x.r))
    ensures x.Null? ==> n.None?
  {
    match x
    case Null => None
    case Int(i) => Some(i)
    case Real(r) => Some(Trunc(r))
    case Str(s) => p.toInt(s)
  }

  /** Python's `float(x)`; `None` where it raises. */
  function ToFloat(x: Raw, p: Parsers): (v: Option<real>)
    ensures x.IsNumber() ==> v == Some(x.Num())
    ensures x.Null? ==> v.None?
  {
    match x
    case Null => None
    case Int(i) => Some(i as real)
    case Real(r) => Some(r)
    case Str(s) => p.toFloat(s)
  }

  // ---------------------------------------------------------------------
  // Strings (ASCII semantics)

  predicate IsDigit(c: char) {
    '0' <= c <= '9'
  }

  predicate IsLetter(c: char) {
    'a' <= c <= 'z' || 'A' <= c <= 'Z'
  }

  predicate AllDigits(s: string) {
    forall i :: 0 <= i < |s| ==> IsDigit(s[i])
  }

  predicate HasDigit(s: string) {
    exists i :: 0 <= i < |s| && IsDigit(s[i])
  }

  function LowerChar(c: char): (d: char)
    ensures 'A' <= c <= 'Z' ==> d as int == c as int + 32
    ensures !('A' <= c <= 'Z') ==> d == c
  {
    if 'A' <= c <= 'Z' then (c as int + 32) as char else c
  }

  /** `str.lower()` restricted to ASCII letters. */
  function Lower(s: string): (t: string)
    ensures |t| == |s|
    ensures forall i :: 0 <= i < |s| ==> t[i] == LowerChar(s[i])
  {
    seq(|s|, i requires 0 <= i < |s| => LowerChar(s[i]))
  }

  /** Lowering twice is lowering once. */
  lemma LowerIdempotent(s: string)
    ensures Lower(Lower(s)) == Lower(s)
  {
    assert forall i :: 0 <= i < |s| ==> Lower(Lower(s))[i] == Lower(s)[i];
  }

  predicate StartsWith(s: string, prefix: string) {
    |prefix| <= |s| && s[..|prefix|] == prefix
  }

  predicate EndsWith(s: string, suffix: string) {
    |suffix| <= |s| && s[|s| - |suffix|..] == suffix
  }

  /** `sub in s` */
  predicate Contains(s: string, sub: string) {
    exists i :: 0 <= i <= |s| && StartsWith(s[i..], sub)
  }

  /** `any(k in s for k in keys)` */
  predicate ContainsAny(s: string, keys: seq<string>) {
    exists j :: 0 <= j < |keys| && Contains(s, keys[j])
  }

  /** `', '.join(xs)` */
  function Join(xs: seq<string>, sep: string): string {
    if |xs| == 0 then ""
    else if |xs| == 1 then xs[0]
    else xs[0] + sep + Join(xs[1..], sep)
  }

  function DigitChar(d: nat): char
    requires d < 10
  {
    "0123456789"[d]
  }

  function NatToString(n: nat): (s: string)
    ensures |s| > 0 && AllDigits(s)
  {
    if n < 10 then [DigitChar(n)] else NatToString(n / 10) + [DigitChar(n % 10)]
  }

  /** `str(n)` for an int. */
  function IntToString(n: int): string {
    if n < 0 then "-" + NatToString(-n) else NatToString(n)
  }

  /** `str(x)` of a scalar; how a float prints is left to `realRepr`. */
  function PyStr(x: Raw, realRepr: real -> string): string {
    match x
    case Null => "None"
    case Int(i) => IntToString(i)
    case Real(r) => realRepr(r)
    case Str(s) => s
  }

  // ---------------------------------------------------------------------
  // Texts of the Python exceptions the modelled code can raise

  /** `re.match(pattern, x)` with a non-string `x`. */
  function ReTypeError(x: Raw): string {
    "expected string or bytes-like object, got '" + x.TypeName() + "'"
  }

  /** `len(x)` with a value that has no length. */
  function LenTypeError(x: Raw): string {
    "object of type '" + x.TypeName() + "' has no len()"
  }

  /** An ordering comparison between incompatible types. */
  function CompareError(op: string, left: string, right: string): string {
    "'" + op + "' not supported between instances of '" + left + "' and '" + right + "'"
  }

  /** An arithmetic operator applied to incompatible types. */
  function OperandError(op: string, left: string, right: string): string {
    "unsupported operand type(s) for " + op + ": '" + left + "' and '" + right + "'"
  }

  /** Attribute lookup on a value that lacks the attribute. */
  function AttributeError(typeName: string, attr: string): string {
    "'" + typeName + "' object has no attribute '" + attr + "'"
  }
}

=== FILE: wrappers.dfy ===
/** Failure-compatible wrappers used across the model. A `Failure` of `Result`
    stands for a Python exception whose text (what `str(e)` gives) is the
    error value. */
module Wrappers {

  datatype Option<+T> = None | Some(value: T) {

    predicate IsFailure() {
      None?
    }

    function PropagateFailure<U>(): Option<U>
      requires None?
    {
      None
    }

    function Extract(): T
      requires Some?
    {
      value
    }

    function GetOr(default: T): T {
      match this
      case Some(v) => v
      case None => default
    }
  }

  datatype Result<+R> = Success(value: R) | Failure(error: string) {

    predicate IsFailure() {
      Failure?
    }

    function PropagateFailure<U>(): Result<U>
      requires Failure?
    {
      Failure(error)
    }

    function Extract(): R
      requires Success?
    {
      value
    }
  }
}
